=== FILE: README.md ===
# Bank-link protocol engine

A Dafny model of the bank-link test server pangalink.net. The server poses as a bank: a merchant's shop posts a payment
request to it, the server checks the request, logs it as a payment, and lets a tester pay, cancel or reject it. Then it
builds the signed reply the real bank would send back.

The model covers:

- the four protocol adapters:
  - **IPizza**, the Estonian banks' `VK_*` protocol;
  - **Solo**, Nordea's `SOLOPMT_*` protocol;
  - **AAB**, Ålandsbanken's dialect of Solo;
  - **EC**, the card centre's `IPAYServlet` protocol, with fixed-width fields;
- the orchestrator: the inbound pipeline, the payment log and the payment state machine;
- the pure helpers of the web routes.

Modules follow the program's structure:

| module | file | what it holds |
|---|---|---|
| `Text` | text.dfy | JavaScript string operations over `seq<char>`: trim, ASCII case mapping, split/join, decimal numerals, UTF-8 byte and UTF-16 code-unit lengths |
| `FieldBag` | fields.dfy | field bags: a normalised bag read as `map<string,string>`, and ordered pairs where JavaScript's property order shows |
| `External` | external.dfy | the collaborators whose code is not part of this model, as function-typed fields of one `Tools` value |
| `Records` | records.dfy | banks, projects, validation reports, payments, replies |
| `Normalize` | normalize.dfy | the adapters' shared `normalizeValues` |
| `Rules` | rules.dfy | field rules several adapters share (amount format, reference numbers, MAC digests, reply target) |
| `IPizza` | ipizza.dfy | the IPizza adapter and validator |
| `Solo` | solo.dfy | the Solo adapter and validator, parametrised by dialect (Solo or AAB) |
| `Aab` | aab.dfy | what the AAB dialect's differences lead to |
| `Ec` | ec.dfy | the EC adapter, validator, replay guard and reply |
| `Banklink` | banklink.dfy | the registry, `serveBanklink`, `logPayment`, `autoPay`, `handlePayment`, `makePayment` |
| `Routes` | routes.dfy | `processAuthorized`, paging, project validation, project uid |

Some behaviour is modelled as the code has it rather than as the written description says:

- An EC `REJECTED` reply goes to the cancel target. The EC adapter has no separate reject address.
- The AAB adapter is not in the registry. A request for it ends in a thrown error, and no signature order exists for it.
- EC `detectLanguage` always gives `EST`.
- A missing EC `ver` is reported with the value `002`.
- A store failure during the client check throws. The source reads the report the failed callback never sent.

How the model handles the outside world:

- **Asynchronous steps.** Store lookups, the transaction counter, signing and the replay store become parameters that carry their answer.
- **Time and randomness.** The date and the random number are parameters too.
- **Collaborators.** The hash digest, OpenSSL, URL parsing, IBAN checks, query-string encoding, padding past the width, and the EC amount formatting are the fields of `External.Tools`.

## Model

| member | source | states |
|---|---|---|
| Text.Trim | lib/banks/ipizza.js:376 | the result has no white space at either end and is no longer than the input |
| Text.TrimSlice | lib/banks/ipizza.js:376 | the trimmed string is a slice of the input, and everything cut off on either side is white space |
| Text.Utf16LengthBounds | lib/banks/ipizza.js:356 | `.length` lies between the character count and twice that, and equals it exactly when no character needs a surrogate pair |
| IPizza.New | lib/banks/ipizza.js:15-23 | the constructor normalises the bag, detects a listed language, and lets an explicit charset win; no project or signing string yet |
| IPizza.DetectLanguage | lib/banks/ipizza.js:25-34 | the upper-cased `VK_LANG` when it is a listed language, otherwise `EST`; always a listed language |
| IPizza.DetectCharset | lib/banks/ipizza.js:36-42 | the first non-empty of the bank's charset field, `VK_CHARSET`, `VK_ENCODING`, the bank default, the configured default |
| IPizza.CalculateHash | lib/banks/ipizza.js:347-369 | a signing string exists exactly when `VK_SERVICE` has a signature order; otherwise the hash is false |
| IPizza.SurrogatePairsCountTwice | lib/banks/ipizza.js:356-362 | counting `.length`, a value's recorded length lies between its character count and twice that, and equals the character count exactly when no character needs a surrogate pair |
| IPizza.PaddedLength | lib/banks/ipizza.js:357-363 | a length below 1000 is written as exactly three digits that read back as the length |
| IPizza.EntriesLength | lib/banks/ipizza.js:347-365 | when every recorded length (UTF-8 bytes or UTF-16 code units) is below 1000, the signing string is as long as the sum of 3 plus each value's length in characters |
| IPizza.TakeMeasuredValue | lib/banks/ipizza.js:356-362 | every character adds at least one unit to the recorded length, so the only prefix of a value followed by anything that measures as much as the value, in UTF-8 bytes or UTF-16 code units, is the value itself |
| IPizza.EntriesRoundTrip | lib/banks/ipizza.js:347-365 | when every recorded length is below 1000, the length-prefixed signing string can be read back into exactly the ordered values, in either counting mode and for any characters, including non-ASCII text under byte counting and surrogate pairs under `.length` |
| IPizza.AsciiMeasuredLength | lib/banks/ipizza.js:350-360 | for ASCII values byte counting and character counting agree |
| IPizza.HashIgnoresOtherFields | lib/banks/ipizza.js:347-369 | setting a field outside the service's signature order does not change the signing string |
| IPizza.ServiceReason | lib/banks/ipizza.js:440-457 | `VK_SERVICE` passes exactly when it is 1001 or 1002 and the bank allows it |
| IPizza.MacPatternMeaning | lib/banks/ipizza.js:686-703 | the inverted base64 pattern accepts exactly the values whose last character is not a base64 character |
| IPizza.CharsetCheck | lib/banks/ipizza.js:620-674 | a charset value passes only when the bank names that parameter and lists the upper-cased value |
| IPizza.FieldCheck | lib/banks/ipizza.js:459-703 | the per-field validators report against their own field and never as a blocked field |
| IPizza.FieldReport | lib/banks/ipizza.js:403-426 | a field fails exactly when its validator or regex rejects it, with at most one error; an accepted field longer than the bank's limit in UTF-16 code units only warns, reporting that length |
| IPizza.FieldsReport | lib/banks/ipizza.js:403-426 | the service's fields all pass exactly when each is accepted; issues name only listed fields |
| IPizza.BlockedReport | lib/banks/ipizza.js:428-436 | blocked fields produce warnings only, one for each blocked field that is present |
| IPizza.ValidateFields | lib/banks/ipizza.js:391-437 | a bad `VK_SERVICE` gives exactly one error and nothing else; otherwise success iff every service field is accepted |
| IPizza.BlockedFieldsWarn | lib/banks/ipizza.js:96-101 | for 1002 a present `VK_ACC` or `VK_NAME` is warned about, and only when present |
| IPizza.ValidateClient | lib/banks/ipizza.js:176-204 | a store error is an error; success exactly when the project exists and belongs to this bank, which then becomes the record |
| IPizza.ValidateSignature | lib/banks/ipizza.js:206-227 | the hash is stored and the signature is accepted exactly when OpenSSL verifies `VK_MAC` against the trimmed certificate |
| IPizza.ValidateRequest | lib/banks/ipizza.js:244-255 | success iff the service is valid and every service field is accepted |
| IPizza.ReceiverName | lib/banks/ipizza.js:293-299 | for 1002 the project's receiver name; otherwise `VK_NAME` or false |
| IPizza.ReceiverAccount | lib/banks/ipizza.js:301-307 | for 1002 the project's or bank's account; otherwise `VK_ACC` or false |
| IPizza.Targets | lib/banks/ipizza.js:333-343 | cancel and reject targets fall back to the return address |
| IPizza.Describe | lib/banks/ipizza.js:261-343 | the logged summary: amount defaults to 0, currency to EUR, the type follows the service, the hash is the adapter's |
| IPizza.ReplyOrder | lib/banks/ipizza.js:132-171 | the reply order is the signature order of 1101/1901/1902; the 1902 order ends in `VK_ERROR_CODE` |
| IPizza.ReplyFields | lib/banks/ipizza.js:717-764 | PAYED maps to 1101, REJECTED to 1902, anything else to 1901; `VK_REC_ID` copies `VK_SND_ID`; 1902 carries error code 1234 |
| IPizza.TrimmedReply | lib/banks/ipizza.js:766-767 | the rebuilt reply adapter reads the service code, the trimmed receiver id and the error code |
| IPizza.UnsignedReply | lib/banks/ipizza.js:766-776 | copying the charset and language fields keeps the service, receiver and error code |
| IPizza.Notification | lib/banks/ipizza.js:777-812 | a notification goes out exactly for PAYED to a non-local target; GET appends the payload to the URL |
| IPizza.GenerateForm | lib/banks/ipizza.js:705-846 | a counter failure fails; the reply is a POST to the state's target with `VK_AUTO` N, and the recorded hash signs the recorded fields |
| IPizza.ExtraKeysUnsigned | lib/banks/ipizza.js:103-172 | no signature order names `VK_MAC` or `VK_AUTO` |
| IPizza.ReplyFieldsSigned | lib/banks/ipizza.js:774-833 | adding `VK_MAC` and switching `VK_AUTO` leaves the signing string unchanged |
| Normalize.NormalizeValueSpec | lib/banks/ipizza.js:371-381 | each value becomes its trimmed string; falsy values become "" except the number 0, which becomes "0" |
| Normalize.NormalizeIdempotent | lib/banks/ipizza.js:371-381 | normalising a normalised value changes nothing |
| Normalize.NormalizeBody | lib/banks/ipizza.js:371-381 | every key is kept in place with its value normalised |
| Normalize.NormalizeBodySpec | lib/banks/solo.js:352-362 | the normalised body holds only trimmed values, keys unchanged |
| Normalize.NormalizeStored | lib/banks/ec.js:456-466 | rebuilding an adapter from stored fields trims them |
| Rules.AmountShapes | lib/banks/ipizza.js:497-509 | digits with one or two decimals pass the amount pattern; three or more do not |
| Rules.ReferenceCheck | lib/banks/ipizza.js:553-572 | a reference passes exactly when empty, or at least 2 digits whose last is the check digit of the rest |
| Rules.GeneratedReferenceAccepted | lib/banks/ipizza.js:553-572 | a reference number built by the reference-code generator always passes |
| Rules.Digest | lib/banks/solo.js:173-206 | no signing string, no digest; otherwise the digest of it |
| Rules.StateTarget | lib/banks/ipizza.js:778 | PAYED goes to the success target, REJECTED to the reject target, anything else to the cancel target |
| Solo.DetectVersion | lib/banks/solo.js:38-40 | `SOLOPMT_VERSION`, else `VERSION`, else 0002 |
| Solo.DetectLanguage | lib/banks/solo.js:42-51 | the mapped language code, or the default for an unmapped one |
| Solo.InboundPrefix | lib/banks/solo.js:26-30 | `SOLOPMT_` exactly when `SOLOPMT_VERSION` is set or the version is 0002, otherwise none; AAB always `AAB_` |
| Solo.New | lib/banks/solo.js:15-36 | normalised bag, detected version and prefix, configured charset, uid from `SOLOPMT_RCV_ID` or `RCV_ID` |
| Solo.CalculateHash | lib/banks/solo.js:328-350 | a signing string exists exactly when version and service have an order; it ends in "&" and splits into the non-empty values, the secret and "" |
| Solo.HashReadsOrderedFields | lib/banks/solo.js:339-349 | the signing string depends only on the ordered fields |
| Solo.Hashed | lib/banks/solo.js:331-337 | an unknown version or service leaves the stored hash untouched |
| Solo.ValidateSignature | lib/banks/solo.js:173-194 | success exactly when the upper-case hex digest equals the prefixed MAC field |
| Solo.Sign | lib/banks/solo.js:196-206 | the same digest is stored under `RETURN_MAC` |
| Solo.SignThenValidate | lib/banks/solo.js:173-206 | a MAC produced by signing validates for the same fields |
| Solo.MacFieldsUnsigned | lib/banks/solo.js:100-144 | no signature order names `MAC` or `RETURN_MAC` |
| Solo.NameIssues | lib/banks/solo.js:232-244 | with a prefix every unprefixed service field present is an error; without one every `SOLOPMT_` field present is |
| Solo.FieldCheck | lib/banks/solo.js:420-693 | validators report against their prefixed field; only `RCV_ACCOUNT` warns |
| Solo.MacLengthNeverChecked | lib/banks/solo.js:439-466 | with the upper-cased algorithm the MAC fails only when missing or not upper-case hex; the length checks never fire |
| Solo.FieldReport | lib/banks/solo.js:392-418 | a field fails exactly when not accepted, with at most one error; an accepted field longer than the bank's limit in UTF-16 code units warns, reporting that length |
| Solo.FieldsReport | lib/banks/solo.js:392-418 | the fields all pass exactly when each is accepted |
| Solo.ValidateRequest | lib/banks/solo.js:208-230 | more than 3 name errors return them with no warnings; otherwise success iff no name errors and every field is accepted |
| Solo.ValidateClient | lib/banks/solo.js:147-171 | success exactly when the uid's project exists and belongs to this bank |
| Solo.Targets | lib/banks/solo.js:314-324 | cancel and reject targets fall back to the return address |
| Solo.Describe | lib/banks/solo.js:250-324 | the logged summary: amount, currency defaults, receiver shown only when sent |
| Solo.GetFields | lib/banks/solo.js:364-378 | the reply holds the non-empty ordered fields and `RETURN_MAC`, nothing else |
| Solo.GetFieldsKeepHash | lib/banks/solo.js:364-378 | the returned fields sign to the same string |
| Solo.PaidCode | lib/banks/solo.js:695-703 | `PEPM`, the date, then the zero-padded transaction number, or the random number when it is 0 |
| Solo.Outbound | lib/banks/solo.js:715-727 | the reply adapter carries each `RETURN_*` value under the outbound prefix |
| Solo.OutboundPaid | lib/banks/solo.js:727 | `RETURN_PAID` is the paid code for PAYED and "" otherwise |
| Solo.AutoReply | lib/banks/solo.js:743-770 | a notification goes out exactly for PAYED with auto-response on and a non-local target |
| Solo.SignedReplyHash | lib/banks/solo.js:729-777 | the recorded hash is the signing string of the recorded fields |
| Solo.SignedReplyKey | lib/banks/solo.js:734-741 | a key other than the MAC is in the reply exactly when ordered and non-empty |
| Solo.SoloSignsPaidCode | lib/banks/solo.js:100-144 | Solo's reply order signs `RETURN_PAID` |
| Solo.GenerateForm | lib/banks/solo.js:705-785 | a counter failure fails; the reply is a GET to the state's target with the payload appended after "?" or "&" |
| Aab.UidIgnoresOwnField | lib/banks/aab.js:27 | the store is asked for the uid from `SOLOPMT_RCV_ID`/`RCV_ID` while `getUid` reads `AAB_RCV_ID` |
| Aab.ReplyKeysNotSet | lib/banks/aab.js:102-105 | the signed reply names `AAB-RETURN-*` keys that `generateForm` never sets |
| Aab.EmptyReplyHash | lib/banks/aab.js:294-316 | with every ordered field empty the signing string is the secret followed by "&" |
| Aab.ReplyCarriesOnlyTheMac | lib/banks/aab.js:656-701 | the AAB reply holds only `AAB-RETURN_MAC` and its hash is the secret followed by "&" |
| Ec.SignatureOrder | lib/banks/ec.js:134-183 | an order exists exactly for versions 002/004 and actions gaf/afb |
| Ec.DetectLanguage | lib/banks/ec.js:67-76 | always `EST`: the mapped codes are never in the language list |
| Ec.DetectVersion | lib/banks/ec.js:63-65 | `ver` when it is set, otherwise 002; never empty |
| Ec.DetectCharset | lib/banks/ec.js:78-88 | only version 004 may name its charset in `charEncoding`; otherwise the bank's or the configured default |
| Ec.New | lib/banks/ec.js:18-27 | normalised bag, version `ver` or 002, charset from `charEncoding` only for 004 |
| Ec.Padded | lib/banks/ec.js:426-454 | a negative width pads with spaces on the right, a positive one with zeros on the left, width 0 leaves the value |
| Ec.HashOf | lib/banks/ec.js:426-454 | a signing string exists exactly for a known version and action |
| Ec.CalculateHash | lib/banks/ec.js:426-454 | the adapter has a signing string exactly when its version is 002/004 and its `action` is gaf/afb |
| Ec.CutConcat | lib/banks/ec.js:426-454 | the fixed-width string splits back into its padded fields |
| Ec.HashCuts | lib/banks/ec.js:426-454 | a signing string of fitting values cuts into one padded segment per ordered field |
| Ec.GafHashLength | lib/banks/ec.js:134-202 | for fitting values the gaf signing string is 54 long for 002 and 183 for 004 |
| Ec.HashReadsOrder | lib/banks/ec.js:426-454 | the signing string depends only on the ordered fields |
| Ec.VersionCheck | lib/banks/ec.js:515-535 | `ver` passes exactly for 002/004; 002 warns as deprecated on the first check |
| Ec.ActionCheck | lib/banks/ec.js:537-549 | under a known version `action` passes exactly when known |
| Ec.FieldCheck | lib/banks/ec.js:551-700 | a validator exists for exactly the twelve named fields; none warns |
| Ec.FieldReport | lib/banks/ec.js:495-512 | a field fails exactly when its validator rejects it; an accepted field longer than the bank's limit in UTF-16 code units warns, reporting that length |
| Ec.FieldsReport | lib/banks/ec.js:495-512 | a field without a validator throws; otherwise success iff every field is accepted |
| Ec.ValidateFields | lib/banks/ec.js:478-513 | a bad version gives one error, a bad action one error; 002 warns first; `afb` throws; gaf passes iff every field is accepted |
| Ec.AcceptedFieldsFit | lib/banks/ec.js:561-620 | accepted `ver`, `ecuno`, `cur`, `datetime` fit their signing widths |
| Ec.CheckEcuno | lib/banks/ec.js:294-310 | a missing `id` or `ecuno` counts as unseen; otherwise unseen iff the key was absent, and the key is marked |
| Ec.ReplaySecondTimeSeen | lib/banks/ec.js:294-310 | presenting the same `id` and `ecuno` a second time finds them seen and leaves the store as the first check left it |
| Ec.ReplayKeysCollide | lib/banks/ec.js:294-310 | the replay key `ipay-<id>:<ecuno>` is ambiguous: two different requests share one key |
| Ec.ValidateRequest | lib/banks/ec.js:312-339 | the errors are the validator's; a duplicate adds one `ecuno` warning |
| Ec.DuplicateOnlyWarns | lib/banks/ec.js:312-339 | a replayed request is never refused for the replay |
| Ec.ValidateClient | lib/banks/ec.js:206-234 | success exactly when the project exists and belongs to this bank |
| Ec.ValidateSignature | lib/banks/ec.js:236-258 | success exactly when OpenSSL verifies `mac` as hex against the trimmed certificate |
| Ec.SuccessTarget | lib/banks/ec.js:409-424 | version 004 with `feedBackUrl` uses it; otherwise the project's URL, which throws without a project |
| Ec.Describe | lib/banks/ec.js:341-424 | all three targets coincide; currency is the trimmed, upper-cased `cur` or EUR |
| Ec.Transaction | lib/banks/ec.js:702-740 | the reply adapter holds the reply keys in order, plus `charEncoding` when the request had one |
| Ec.ReplyKeysDistinct | lib/banks/ec.js:716-731 | the reply keys are distinct and cover the afb signature order |
| Ec.SignedReply | lib/banks/ec.js:740-794 | PAYED goes to the success target, anything else to the cancel target, as POST with `auto` Y sent and N recorded |
| Ec.RecordedReplyHash | lib/banks/ec.js:740-794 | the recorded hash signs the recorded fields |
| Ec.GenerateForm | lib/banks/ec.js:702-794 | counter and signing failures fail; a known version gives a hash; the reply carries action afb, the response code and receipt number |
| Ec.ReplyAction | lib/banks/ec.js:718 | the reply's action is `afb` |
| Ec.ReplyCode | lib/banks/ec.js:702-731 | the response code is 000 for PAYED and 111 otherwise |
| Ec.ReplyReceipt | lib/banks/ec.js:722 | the receipt number is the transaction number for PAYED and 0 otherwise |
| Banklink.Registered | lib/banklink.js:9-13 | exactly ipizza, solo and ec are registered |
| Banklink.SignatureOrderFor | lib/banklink.js:19-21 | the registered adapter's order, and `[]` for an unregistered type |
| Banklink.AabUnregistered | lib/banklink.js:9-21 | the AAB adapter cannot be reached through the registry |
| Banklink.Clip | lib/banklink.js:277-291 | values over 100*1024 characters keep that prefix plus " ..."; shorter ones are kept |
| Banklink.ClipIdempotent | lib/banklink.js:277-291 | clipping a clipped value changes nothing |
| Banklink.LogValues | lib/banklink.js:277-291 | every logged header and field keeps its key and place, trimmed and clipped |
| Banklink.LogPayment | lib/banklink.js:208-309 | no uid or no project, no record; store failures fail; `done` iff ERROR; errors, warnings and clipped fields are logged |
| Banklink.Continue | lib/banklink.js:82-94 | a log failure is shown; otherwise the payment page, or the automatic decision when `PANGALINK_AUTOPAY` is set |
| Banklink.Walk | lib/banklink.js:44-95 | accepted exactly when client, request and signature all succeed; warnings accumulate in order; the first failing stage logs ERROR; a failed client lookup throws |
| Banklink.Pipeline | lib/banklink.js:44-95 | a crash exactly when the client lookup fails or a later stage or a getter of the log throws; otherwise the walk's outcome; no error page or logged payment carries a thrown error |
| Banklink.RequestThrowCrashes | lib/banklink.js:55-58 | a request check that throws ends the request with no page |
| Banklink.LogThrowCrashes | lib/banklink.js:52-53 | a getter that throws while a refused client check is logged ends the request before the error page |
| Banklink.StopsAtClient | lib/banklink.js:44-54 | a failed client check decides the outcome whatever the later stages say |
| Banklink.StopsAtRequest | lib/banklink.js:55-65 | a failed request check decides the outcome whatever the signature says |
| Banklink.Run | lib/banklink.js:42-44 | the registered adapter for the bank link goes through the pipeline; the GET warning leads the shown and logged warnings |
| Banklink.ServeBanklink | lib/banklink.js:23-100 | non-POST is refused unless GET is allowed, and GET warns first; no bank link is refused; an unregistered type throws |
| Banklink.Decide | lib/banklink.js:147-158 | pay before cancel before reject, mapping to PAYED, CANCELLED and REJECTED; no choice is no decision |
| Banklink.AutoPay | lib/banklink.js:102-112 | at most one of pay, cancel and reject is chosen, and the sender comes from the logged payment |
| Banklink.AutoPayDecides | lib/banklink.js:102-112 | `accept`, `cancel` and `reject` pick the matching final state; anything else decides nothing |
| Banklink.HandlePayment | lib/banklink.js:343-358 | the payment's own adapter builds the reply; an unregistered type or a counter failure fails |
| Banklink.MakePayment | lib/banklink.js:129-206 | only an IN PROCESS payment with a decision and a project moves, to the decided state; a failed reply is still saved, then throws |
| Banklink.MakePaymentOnce | lib/banklink.js:141-145 | a saved payment is final and cannot move again |
| Routes.ProcessAuthorized | lib/routes.js:1443-1471 | never more entries than input lines |
| Routes.ProcessAuthorizedClean | lib/routes.js:1452-1458 | every entry is lower-case, trimmed, non-empty, and none repeats |
| Routes.ProcessAuthorizedSorted | lib/routes.js:1460-1469 | the list is sorted by domain, then local part |
| Routes.ProcessAuthorizedOrder | lib/routes.js:1460-1469 | of two entries the earlier has the smaller domain, or the same domain and the smaller local part |
| Routes.ProcessAuthorizedMembers | lib/routes.js:1443-1458 | the list holds exactly the non-empty cleaned lines |
| Routes.ProcessAuthorizedIdempotent | lib/routes.js:1443-1471 | processing the processed list gives it back |
| Routes.PageNumber | lib/routes.js:153 | a missing or zero page number reads as 1 |
| Routes.PageCount | lib/routes.js:159 | the page count is the least number of pages that holds all records |
| Routes.ClampPage | lib/routes.js:159-163 | a page past the last becomes the last, or 1 with no records |
| Routes.StartIndex | lib/routes.js:165 | a page from 1 on starts at a non-negative index, a page before the first at a negative one |
| Routes.ClampedPageStartsInside | lib/routes.js:159-165 | a clamped page from 1 on starts at an existing record, or at 0 with none |
| Routes.ListStart | lib/routes.js:1655-1669 | a start past the total drops to the last multiple of 20 not above it; a negative start becomes 0 |
| Routes.ApiList | lib/routes.js:1653-1690 | at most 20 records from the clamped start, with `end_index` the start plus the count minus 1 |
| Routes.ApiListPastEnd | lib/routes.js:1664-1666 | with a multiple of 20 records a start past the end gives an empty page |
| Routes.Normalized | lib/routes.js:803-851 | settings are trimmed, the key size defaults to 1024; the algorithm is kept only for nordea and the return URL only for ec |
| Routes.Flags | lib/routes.js:819-841 | flags an empty name, an unknown bank, a key size outside 1024/2048/4096, a bad nordea algorithm, a bad ec URL |
| Routes.ValidateProject | lib/routes.js:1706-1756 | it keeps the normalised settings, which are already normalised, and reports the flags of those kept settings rather than of the raw submission |
| Routes.ValidateProjectStable | lib/routes.js:1706-1756 | validating the validated settings again gives the same flags and settings |
| Routes.ProjectUid | lib/routes.js:932-936 | a nordea uid is "NaN" or a canonical numeral; any other bank's begins with "uid" |
| Routes.ProjectUidShape | lib/routes.js:932-936 | a nordea uid is 10000000 plus the reference number; others are "uid" and the reference number |
| Routes.ProjectUidFamiliesDisjoint | lib/routes.js:1792-1796 | a nordea uid never equals another bank's uid |

## Left out

- Charset transcoding of replies and all of `lib/forcecharset.js`: it is byte-level work done by a library.
- The HTTP notification itself: its reply, timeout and headers are I/O. Only whether it is sent, where and how is modelled.
- Express setup, rendering, flash messages, `serveErrors`' 4096-character clipping of messages, MongoDB and Redis are infrastructure. The store becomes an answer passed in, and the replay store a set.
- `samplePayment` and `signClient` (EC) build example data for the web pages; they are not part of the bank-link flow.
- The 24-hour expiry of EC replay keys is timing, so the replay store is a set.
- Property names such as `constructor` or `toString`, which JavaScript objects inherit, are not treated as versions, actions or services.
- External.LPad: values longer than the width are left to the padding collaborator, because its code is not part of this model.
- External.RPad: values longer than the width are left to the padding collaborator, for the same reason.
- Ec.NumberBelow: `Number()` of a value that is not a plain numeral is left to a collaborator.
- Ec.FieldCheck: an odd-length hex MAC is measured as its length halved and rounded down, as Node's hex decoding does.
- Ec.Describe: the amount is formatted by a collaborator, because the source uses floating-point division.
- Banklink.ServeBanklink: one answer of the project store serves both the client check and `logPayment`; the replay store's contents are passed in, not threaded through.
- Banklink.LogPayment: the payment id the store assigns and the project's `updatedDate` are not modelled.
- Routes.PageNumber: a page number that is not an integer (a fraction, NaN) is not modelled.
- Routes.ListStart: the API's `start_index` is taken as an integer; a fractional start such as "2.5", which `Number(...)` lets through, is not modelled. The same holds for Routes.ApiList.
- Routes.ProcessAuthorizedSorted: `localeCompare` is modelled as code-point order. For entries without "@", where the comparator may throw, a fixed order is chosen (they sort first).
- Routes.ProjectUidShape: a reference number that is not a plain numeral gives "NaN"; `Number()`'s acceptance of surrounding white space is not modelled.
- Routes.ProcessAuthorizedClean: lower-casing maps only the ASCII letters A-Z, while JavaScript's `toLowerCase` maps every Unicode capital ("Ü" to "ü"); a line with non-ASCII capitals keeps them in the model.
- Routes.ProcessAuthorizedMembers: membership is over lines lower-cased on ASCII letters only, for the same reason.
- Routes.Normalized: the kept nordea algorithm is lower-cased on ASCII letters only, for the same reason; the flags are unaffected because every accepted algorithm name is ASCII.
- Text.Upper: `toUpperCase` is modelled on ASCII letters only, so the upper-cased checks (IPizza `VK_LANG` and charset, Solo `DATE` and `CONFIRM`, EC `cur`) miss mappings such as "ı" to "I"; full Unicode case mapping, with its length-changing cases, is not modelled.
- Banklink.Clip: the 100*1024 limit and the cut count characters, not UTF-16 code units. A cut that splits a surrogate pair leaves half a pair in JavaScript, which a Dafny string cannot hold.
- Ec.Padded: widths count characters, while the padding collaborator counts UTF-16 code units; a value holding a character outside the Basic Multilingual Plane is padded differently.
- Authentication, mail, key and certificate generation, and the other routes are outside this core.

=== FILE: aab.dfy ===
/** Ålandsbanken's dialect of the Solo protocol. The adapter shares Solo's
    code (see the `Solo` module, dialect `AabDialect`); this module states
    the consequences of where the two differ. */
module Aab {
  import opened Text
  import opened FieldBag
  import opened External
  import opened Records
  import opened Normalize
  import opened Solo

  /** The reply fields Ålandsbanken's signing string names, with the
      outbound prefix: hyphens where `generateForm` writes underscores. */
  const SignedReplyKeys: seq<string> := Prefixed("AAB-", SignedReplyNames)

  const SignedReplyNames: seq<string> := ["RETURN-VERSION", "RETURN-STAMP", "RETURN-REF", "RETURN-PAID"]

  /** The signed reply names have a hyphen after `RETURN`, the names
      `generateForm` sets an underscore. */
  lemma SeparatorAfterReturn()
    ensures forall j :: 0 <= j < |SignedReplyNames| ==> |SignedReplyNames[j]| > 6 && SignedReplyNames[j][6] == '-'
    ensures forall j :: 0 <= j < |ReturnNames| ==> |ReturnNames[j]| > 6 && ReturnNames[j][6] == '_'
  {
  }

  /** A key the stored request does not have reads "" after the request is
      rebuilt. */
  lemma RestoredMissing(d: Dialect, bank: Bank, config: Config, payment: Payment, k: string)
    requires forall i :: 0 <= i < |payment.fields| ==> payment.fields[i].0 != k
    ensures Get(Restored(d, bank, config, payment).fields, k) == ""
  {
    var p := payment.fields;
    NormalizeStored(p);
    var q := TrimValues(p);
    var a := Restored(d, bank, config, payment);
    assert a.pairs == q;
    assert k !in Keys(q) by {
      forall i | 0 <= i < |q|
        ensures Keys(q)[i] != k
      {
        assert q[i].0 == p[i].0;
      }
    }
    assert k !in a.fields;
  }

  /** The reply fields `generateForm` sets are never the ones the signing
      string reads. */
  lemma ReplyKeysNotSet(k: string)
    requires k in SignedReplyKeys
    ensures k !in Prefixed("AAB-", ReturnNames)
  {
    var i :| 0 <= i < |SignedReplyNames| && SignedReplyKeys[i] == k;
    var name := SignedReplyNames[i];
    SeparatorAfterReturn();
    assert name !in ReturnNames;
    PrefixedMember("AAB-", ReturnNames, name);
  }

  /** None of the signed reply keys is the signature field. */
  lemma SignedKeyNotMac(k: string)
    requires k in SignedReplyKeys
    ensures k != "AAB-RETURN_MAC"
  {
    var i :| 0 <= i < |SignedReplyNames| && SignedReplyKeys[i] == k;
    SeparatorAfterReturn();
    assert k[10] == SignedReplyNames[i][6] == '-';
  }

  /** With the signed reply fields all empty, an Ålandsbanken reply holds
      nothing but its signature. */
  lemma EmptyReplyFields(o: Adapter, reply: Pairs)
    requires o.dialect == AabDialect && o.keyPrefix == "AAB-" && o.service == "PAYMENT-OUT"
    requires ReplyOf(o, reply)
    requires forall k :: k in SignedReplyKeys ==> Get(o.fields, k) == ""
    ensures forall k :: k != "AAB-RETURN_MAC" ==> Lookup(reply, k) == None
  {
    var order := SignatureOrder(AabDialect, o.version, "PAYMENT-OUT").value;
    assert order == ["RETURN-VERSION", "RETURN-STAMP", "RETURN-REF", "RETURN-PAID"];
    assert Prefixed(o.keyPrefix, order) == SignedReplyKeys;
    forall k | k != "AAB-RETURN_MAC"
      ensures Lookup(reply, k) == None
    {
      UnsetKeyAbsent(o, reply, k);
    }
  }

  lemma UnsetKeyAbsent(o: Adapter, reply: Pairs, k: string)
    requires SignatureOrder(o.dialect, o.version, o.service).Some?
    requires ReplyKey(o, reply, k)
    requires k in Prefixed(o.keyPrefix, SignatureOrder(o.dialect, o.version, o.service).value) ==> Get(o.fields, k) == ""
    ensures Lookup(reply, k) == None
  {
  }

  /** With the signed reply fields all empty, the signing string is the
      secret followed by `&`. */
  lemma EmptyReplyHash(o: Adapter, m: Fields, secret: string)
    requires o.dialect == AabDialect && o.keyPrefix == "AAB-" && o.service == "PAYMENT-OUT"
    requires SignatureOrder(AabDialect, o.version, "PAYMENT-OUT").Some?
    requires forall k :: k in SignedReplyKeys ==> Get(m, k) == ""
    ensures CalculateHash(o.(fields := m), secret) == Some(secret + "&")
  {
    var order := SignatureOrder(AabDialect, o.version, "PAYMENT-OUT").value;
    assert order == ["RETURN-VERSION", "RETURN-STAMP", "RETURN-REF", "RETURN-PAID"];
    var keys := Prefixed("AAB-", order);
    assert keys == SignedReplyKeys;
    var values := OrderedValues(m, keys);
    assert forall i :: 0 <= i < |values| ==> values[i] == Get(m, keys[i]);
    NoneSet(values);
    var parts := PresentValues(m, keys);
    assert parts + [secret, ""] == [secret, ""];
    assert CalculateHash(o.(fields := m), secret) == Some(Join(parts + [secret, ""], "&"));
    assert Join([secret, ""], "&") == secret + "&" + Join([""], "&");
    assert Join([""], "&") == "";
    assert secret + "&" + "" == secret + "&";
  }

  lemma NoneSet(s: seq<string>)
    requires forall i :: 0 <= i < |s| ==> s[i] == ""
    ensures NonEmptyStrings(s) == []
  {
  }

  /** Unless the stored request happened to carry the hyphenated reply
      fields, an Ålandsbanken reply holds nothing but its signature, and the
      signed string is the project secret followed by `&`. */
  lemma ReplyCarriesOnlyTheMac(t: Tools, config: Config, bank: Bank, project: Project, payment: Payment,
                               decision: Decision, n: nat, today: string, random: nat)
    requires GenerateForm(AabDialect, t, config, bank, project, payment, decision, Some(n), today, random).Ok?
    requires forall i :: 0 <= i < |payment.fields| ==> payment.fields[i].0 !in SignedReplyKeys
    ensures var reply := GenerateForm(AabDialect, t, config, bank, project, payment, decision, Some(n), today, random).value;
            && (forall k :: k != "AAB-RETURN_MAC" ==> Lookup(reply.responseFields, k) == None)
            && reply.responseHash == Some(project.secret + "&")
  {
    var reply := GenerateForm(AabDialect, t, config, bank, project, payment, decision, Some(n), today, random).value;
    var a := Restored(AabDialect, bank, config, payment);
    var o := Outbound(a, project, payment.state, decision, PaidCode(t, today, n, random));
    forall k | k in SignedReplyKeys
      ensures Get(o.fields, k) == ""
    {
      ReplyKeysNotSet(k);
      RestoredMissing(AabDialect, bank, config, payment, k);
    }
    EmptyReplyFields(o, reply.responseFields);
    var m := ToMap(reply.responseFields);
    forall k | k in SignedReplyKeys
      ensures Get(m, k) == ""
    {
      SignedKeyNotMac(k);
      GetToMap(reply.responseFields, k);
    }
    EmptyReplyHash(o, m, project.secret);
  }

  /** The store is asked about the uid the constructor reads from
      `SOLOPMT_RCV_ID` or `RCV_ID`, while `getUid` and the client error read
      `AAB_RCV_ID`: a request that names its project only under `AAB_RCV_ID`
      is looked up under "" yet logged under its own id. */
  lemma UidIgnoresOwnField(bank: Bank, config: Config, body: seq<(string, RawValue)>, charset: string)
    requires var f := ToMap(NormalizeBody(body));
             Get(f, "SOLOPMT_RCV_ID") == "" && Get(f, "RCV_ID") == "" && Get(f, "AAB_RCV_ID") != ""
    ensures var a := New(AabDialect, bank, config, body, charset);
            a.uid == "" && GetUid(a) == Get(a.fields, "AAB_RCV_ID") != ""
  {
    var a := New(AabDialect, bank, config, body, charset);
    assert a.fields == ToMap(NormalizeBody(body));
    assert a.keyPrefix == "AAB_";
    AabUidKey();
  }

  lemma AabUidKey()
    ensures "AAB_" + "RCV_ID" == "AAB_RCV_ID"
  {
  }
}

=== FILE: banklink.dfy ===
/** The orchestrator: the protocol registry, the inbound pipeline (client,
    then request, then signature, then the payment log), the decision a
    tester makes on the payment page, and the state machine that turns an
    `IN PROCESS` payment into a final one and builds the reply. */
module Banklink {
  import opened Text
  import opened FieldBag
  import opened External
  import opened Records
  import opened Normalize
  import IPizza
  import Solo
  import Ec

  // ---------------------------------------------------------------------
  // The registry

  /** The adapter families the registry holds (`bankObjects`). */
  datatype Protocol = IPizzaProtocol | SoloProtocol | EcProtocol

  /** `bankObjects[bankType]`: only these three types are registered; the
      AAB dialect is not among them. */
  function Registered(bankType: string): (r: Option<Protocol>)
    ensures r.Some? <==> bankType == "ipizza" || bankType == "solo" || bankType == "ec"
  {
    if bankType == "ipizza" then Some(IPizzaProtocol)
    else if bankType == "solo" then Some(SoloProtocol)
    else if bankType == "ec" then Some(EcProtocol)
    else None
  }

  function OrEmpty(o: Option<seq<string>>): seq<string>
  {
    if o.Some? then o.value else []
  }

  /** `signatureOrder(bankType)`, read at one version and service (or
      action): the registered adapter's order, and `[]` for a type the
      registry does not hold. */
  function SignatureOrderFor(bankType: string, version: string, service: string): (r: seq<string>)
    ensures Registered(bankType).None? ==> r == []
    ensures Registered(bankType) == Some(IPizzaProtocol) ==> r == OrEmpty(IPizza.SignatureOrder(service))
    ensures Registered(bankType) == Some(SoloProtocol) ==> r == OrEmpty(Solo.SignatureOrder(Solo.SoloDialect, version, service))
    ensures Registered(bankType) == Some(EcProtocol) ==> r == OrEmpty(Ec.SignatureOrder(version, service))
  {
    match Registered(bankType)
    case None => []
    case Some(IPizzaProtocol) => OrEmpty(IPizza.SignatureOrder(service))
    case Some(SoloProtocol) => OrEmpty(Solo.SignatureOrder(Solo.SoloDialect, version, service))
    case Some(EcProtocol) => OrEmpty(Ec.SignatureOrder(version, service))
  }

  /** The AAB adapter is unreachable through the registry: its type has no
      signature order and no constructor there. */
  lemma AabUnregistered(version: string, service: string)
    ensures Registered("aab").None? && SignatureOrderFor("aab", version, service) == []
  {
  }

  // ---------------------------------------------------------------------
  // The payment log

  /** An inbound HTTP request that reached the bank-link endpoint. */
  datatype Request = Request(
    httpMethod: string,
    /** The bank-link type and bank definition the route resolved, if any. */
    banklink: Option<(string, Bank)>,
    body: seq<(string, RawValue)>,
    headers: Pairs,
    url: string,
    date: string
  )

  /** The longest header or field value the log keeps whole. */
  const LogLimit: nat := 100 * 1024

  /** A logged value: longer ones keep their first `LogLimit` characters and
      get " ..." appended. */
  function Clip(v: string): (r: string)
    ensures |v| <= LogLimit ==> r == v
    ensures |v| > LogLimit ==> |r| == LogLimit + 4 && r[..LogLimit] == v[..LogLimit] && r[LogLimit..] == " ..."
  {
    if |v| > LogLimit then v[..LogLimit] + " ..." else v
  }

  /** Clipping twice clips once: a clipped value is LogLimit + 4 long and
      keeps the same prefix. */
  lemma ClipIdempotent(v: string)
    ensures Clip(Clip(v)) == Clip(v)
  {
    if |v| > LogLimit {
      var c := Clip(v);
      assert c[..LogLimit] == v[..LogLimit];
      assert Clip(c) == c[..LogLimit] + " ...";
      assert c == c[..LogLimit] + c[LogLimit..];
    }
  }

  /** Every value trimmed and clipped, keys and order kept. */
  function LogValues(p: Pairs): (r: Pairs)
    ensures |r| == |p| && Keys(r) == Keys(p)
    ensures forall i :: 0 <= i < |p| ==> r[i].1 == Clip(Trim(p[i].1))
    ensures forall i :: 0 <= i < |p| ==> |r[i].1| <= LogLimit + 4
  {
    if |p| == 0 then [] else [(p[0].0, Clip(Trim(p[0].1)))] + LogValues(p[1..])
  }

  /** The sender name a tester sees when the request names none. */
  const DefaultSenderName := "T\U{00F5}\U{00F5}ger Le\U{00F5}p\U{00E4}\U{00F6}ld"

  /** `logPayment`: nothing is recorded without a uid or an owning project;
      otherwise the record is built from the adapter's getters. `body` is the
      adapter's normalised body, `exampleAccount` the generated sample
      account number, and `saved` whether the store took the record. */
  function LogPayment(req: Request, bankType: string, state: PaymentState, uid: string,
                      lookup: StoreAnswer<Project>, summary: Res<Summary>, body: Pairs, report: Report,
                      exampleAccount: string, saved: bool): (r: Res<Option<Payment>>)
    ensures uid == "" ==> r == Ok(None)
    ensures uid != "" ==> (r.Err? <==> lookup.StoreError? || (lookup.Found? && (summary.Err? || !saved)))
    ensures r.Ok? && r.value.Some? ==>
              var p := r.value.value;
              && uid != "" && lookup.Found? && p.project == lookup.value.id
              && p.state == state && (p.done <==> state == ErrorState)
              && p.bank == bankType && p.errors == report.errors && p.warnings == report.warnings
              && Keys(p.fields) == Keys(body) && Keys(p.headers) == Keys(req.headers)
              && (forall i :: 0 <= i < |body| ==> p.fields[i].1 == Clip(Trim(body[i].1)))
              && p.decision.None? && p.response.None?
  {
    if uid == "" then Ok(None)
    else
      match lookup
      case StoreError => Err(StoreFailed)
      case NotFound => Ok(None)
      case Found(project) =>
        match summary
        case Err(e) => Err(e)
        case Ok(s) =>
          if !saved then Err(StoreFailed) else
          var f := ToMap(body);
          Ok(Some(Payment(
            "", project.id, req.date, state, state == ErrorState, bankType, s.charset, s.language, s.paymentType,
            s.amount, s.referenceCode, s.receiverName, s.receiverAccount, s.message, s.currency,
            s.successTarget, s.cancelTarget, s.rejectTarget, s.display,
            Or(Get(f, "PANGALINK_NAME"), DefaultSenderName), Or(Get(f, "PANGALINK_ACCOUNT"), exampleAccount),
            req.url, Get(f, "PANGALINK_AUTOPAY") != "", req.httpMethod, report.errors, report.warnings,
            LogValues(req.headers), LogValues(body), s.hash, None, None)))
  }

  // ---------------------------------------------------------------------
  // The inbound pipeline

  /** What an adapter offers the pipeline, over its own state type `A`. */
  datatype Stages<!A> = Stages(
    client: A -> Res<(A, Report)>,
    request: A -> Res<(A, Report)>,
    signature: A -> Res<(A, Report)>,
    uid: A -> string,
    describe: A -> Res<Summary>,
    body: A -> Pairs
  )

  /** What the endpoint did with a request. */
  datatype Outcome =
    /** An error page; nothing was logged. */
    | Refused(errors: seq<Issue>, failure: Option<Failure>)
    /** The payment was logged as `ERROR` with `logged`, and the error page
        shows `errors` and `warnings`. */
    | LoggedError(logged: Report, errors: seq<Issue>, warnings: seq<Issue>, payment: Res<Option<Payment>>)
    /** Every stage passed and the payment was logged `IN PROCESS`. */
    | Accepted(logged: Report, payment: Res<Option<Payment>>, next: Next)
    /** A callback threw: the client check's store lookup failed, or a later
        stage or the log's getters threw inside a store callback. The
        endpoint does not answer the request itself. */
    | Crashed(thrown: Failure)

  /** What follows a successful log. */
  datatype Next =
    | ShowFailure(failure: Failure)
    | Preview(shown: Option<Payment>)
    | AutoDecide(payment: Payment, decision: Decision)
    | AutoCrashed

  /** After the `IN PROCESS` log: the log's failure is shown; otherwise the
      payment page, or the automatic decision when `PANGALINK_AUTOPAY` is
      set, which throws when no payment was recorded. */
  function Continue(logged: Res<Option<Payment>>, autopay: string): (n: Next)
    ensures logged.Err? <==> n.ShowFailure?
    ensures logged.Ok? && autopay == "" ==> n == Preview(logged.value)
    ensures logged.Ok? && autopay != "" ==> (n.AutoDecide? <==> logged.value.Some?)
    ensures n.AutoDecide? ==> n.decision == AutoPay(autopay, n.payment)
  {
    match logged
    case Err(e) => ShowFailure(e)
    case Ok(p) =>
      if autopay == "" then Preview(p)
      else if p.None? then AutoCrashed
      else AutoDecide(p.value, AutoPay(autopay, p.value))
  }

  /** The stages in order, with every failure where it surfaces. The first
      stage to fail logs `ERROR` and stops; a stage whose callback reports an
      error serves the error page without a log; a failed store lookup in the
      client check throws, as its callback reads the missing report. `w0`
      holds the warning a GET request earned. */
  function Walk<A>(req: Request, bankType: string, w0: seq<Issue>, a0: A, s: Stages<A>,
                       lookup: StoreAnswer<Project>, exampleAccount: string, saved: bool): (o: Outcome)
    ensures o.Accepted? <==>
              && s.client(a0).Ok? && s.client(a0).value.1.Success()
              && s.request(s.client(a0).value.0).Ok? && s.request(s.client(a0).value.0).value.1.Success()
              && s.signature(s.request(s.client(a0).value.0).value.0).Ok?
              && s.signature(s.request(s.client(a0).value.0).value.0).value.1.Success()
    ensures o.Accepted? ==>
              && o.logged.errors == []
              && o.logged.warnings == w0 + s.client(a0).value.1.warnings
                                        + s.request(s.client(a0).value.0).value.1.warnings
                                        + s.signature(s.request(s.client(a0).value.0).value.0).value.1.warnings
              && (o.payment.Ok? && o.payment.value.Some? ==>
                    o.payment.value.value.state == InProcess && !o.payment.value.value.done)
    ensures o.LoggedError? ==>
              && !o.logged.Success() && o.errors == o.logged.errors
              && (o.payment.Ok? && o.payment.value.Some? ==>
                    o.payment.value.value.state == ErrorState && o.payment.value.value.done)
    ensures o.Crashed? <==> s.client(a0).Err?
    ensures o.LoggedError? ==> w0 <= o.warnings
    ensures o.Accepted? ==> w0 <= o.logged.warnings
    ensures s.client(a0).Ok? && !s.client(a0).value.1.Success() ==>
              o.LoggedError? && o.logged == s.client(a0).value.1
  {
    match s.client(a0)
    case Err(_) => Crashed(Threw("data is undefined"))
    case Ok((a1, c)) =>
      if !c.Success() then
        LoggedError(c, c.errors, w0 + c.warnings,
                    LogPayment(req, bankType, ErrorState, s.uid(a1), lookup, s.describe(a1), s.body(a1), c, exampleAccount, saved))
      else
        match s.request(a1)
        case Err(e) => Refused([], Some(e))
        case Ok((a2, q)) =>
          var errors := c.errors + q.errors;
          var warnings := w0 + c.warnings + q.warnings;
          if !q.Success() then
            LoggedError(Report(errors, warnings), errors, warnings,
                        LogPayment(req, bankType, ErrorState, s.uid(a2), lookup, s.describe(a2), s.body(a2),
                                   Report(errors, warnings), exampleAccount, saved))
          else
            match s.signature(a2)
            case Err(e) => Refused(errors, Some(e))
            case Ok((a3, g)) =>
              var all := Report(errors + g.errors, warnings + g.warnings);
              if !g.Success() then
                LoggedError(all, all.errors, all.warnings,
                            LogPayment(req, bankType, ErrorState, s.uid(a3), lookup, s.describe(a3), s.body(a3), all,
                                       exampleAccount, saved))
              else
                var logged := LogPayment(req, bankType, InProcess, s.uid(a3), lookup, s.describe(a3), s.body(a3), all,
                                         exampleAccount, saved);
                Accepted(all, logged, Continue(logged, Get(ToMap(s.body(a3)), "PANGALINK_AUTOPAY")))
  }

  /** Whether a result is a thrown JavaScript error. */
  predicate Throws<T>(r: Res<T>) { r.Err? && r.failure.Threw? }

  /** Whether a walk ended in a throw after the client check: a stage threw,
      or a getter threw while the payment was being logged. */
  predicate ThrewLater(w: Outcome)
  {
    || (w.Refused? && w.failure.Some? && w.failure.value.Threw?)
    || ((w.LoggedError? || w.Accepted?) && Throws(w.payment))
  }

  /** Every stage after the client check, and the log, runs inside a store
      callback, so a throw there ends the request with no page, as the
      client check's own failure does. */
  function Settle(w: Outcome): (o: Outcome)
    ensures o.Crashed? <==> w.Crashed? || ThrewLater(w)
    ensures !o.Crashed? ==> o == w
  {
    if w.Refused? && w.failure.Some? && w.failure.value.Threw? then Crashed(w.failure.value)
    else if (w.LoggedError? || w.Accepted?) && Throws(w.payment) then Crashed(w.payment.failure)
    else w
  }

  /** `serveBanklink` after the adapter is built: the walk, with every throw
      turned into a crash. An error page never carries a thrown error, and
      neither does a logged payment. */
  function Pipeline<A>(req: Request, bankType: string, w0: seq<Issue>, a0: A, s: Stages<A>,
                       lookup: StoreAnswer<Project>, exampleAccount: string, saved: bool): (o: Outcome)
    ensures var w := Walk(req, bankType, w0, a0, s, lookup, exampleAccount, saved);
            && (o.Crashed? <==> s.client(a0).Err? || ThrewLater(w))
            && (!o.Crashed? ==> o == w)
    ensures o.Refused? ==> o.failure.Some? ==> !o.failure.value.Threw?
    ensures o.LoggedError? || o.Accepted? ==> !Throws(o.payment)
    ensures o.Accepted? ==>
              && s.client(a0).Ok? && s.client(a0).value.1.Success()
              && s.request(s.client(a0).value.0).Ok? && s.request(s.client(a0).value.0).value.1.Success()
              && s.signature(s.request(s.client(a0).value.0).value.0).Ok?
              && s.signature(s.request(s.client(a0).value.0).value.0).value.1.Success()
    ensures o.LoggedError? ==> w0 <= o.warnings
    ensures o.Accepted? ==> w0 <= o.logged.warnings
  {
    Settle(Walk(req, bankType, w0, a0, s, lookup, exampleAccount, saved))
  }

  /** A request check that throws ends the request with no page, where a
      request check that reports an error through its callback shows one. */
  lemma RequestThrowCrashes<A>(req: Request, bankType: string, w0: seq<Issue>, a0: A, s: Stages<A>,
                               lookup: StoreAnswer<Project>, exampleAccount: string, saved: bool, what: string)
    requires s.client(a0).Ok? && s.client(a0).value.1.Success()
    requires s.request(s.client(a0).value.0) == Err(Threw(what))
    ensures Pipeline(req, bankType, w0, a0, s, lookup, exampleAccount, saved) == Crashed(Threw(what))
  {
  }

  /** A getter that throws while a refused client check is logged ends the
      request with no page: the error page is never reached. */
  lemma LogThrowCrashes<A>(req: Request, bankType: string, w0: seq<Issue>, a0: A, s: Stages<A>,
                           lookup: StoreAnswer<Project>, exampleAccount: string, saved: bool, what: string)
    requires s.client(a0).Ok? && !s.client(a0).value.1.Success()
    requires s.uid(s.client(a0).value.0) != "" && lookup.Found?
    requires s.describe(s.client(a0).value.0) == Err(Threw(what))
    ensures Pipeline(req, bankType, w0, a0, s, lookup, exampleAccount, saved) == Crashed(Threw(what))
  {
  }

  /** A failed client check decides the outcome: the later stages are never
      consulted. */
  lemma StopsAtClient<A>(req: Request, bankType: string, w0: seq<Issue>, a0: A, s: Stages<A>,
                         request: A -> Res<(A, Report)>, signature: A -> Res<(A, Report)>,
                         lookup: StoreAnswer<Project>, exampleAccount: string, saved: bool)
    requires s.client(a0).Ok? ==> !s.client(a0).value.1.Success()
    ensures Pipeline(req, bankType, w0, a0, s, lookup, exampleAccount, saved)
            == Pipeline(req, bankType, w0, a0, s.(request := request, signature := signature), lookup, exampleAccount, saved)
  {
  }

  /** A failed request check decides the outcome: the signature is never
      checked. */
  lemma StopsAtRequest<A>(req: Request, bankType: string, w0: seq<Issue>, a0: A, s: Stages<A>,
                          signature: A -> Res<(A, Report)>, lookup: StoreAnswer<Project>, exampleAccount: string,
                          saved: bool)
    requires s.client(a0).Ok? && s.client(a0).value.1.Success()
    requires s.request(s.client(a0).value.0).Ok? ==> !s.request(s.client(a0).value.0).value.1.Success()
    ensures Pipeline(req, bankType, w0, a0, s, lookup, exampleAccount, saved)
            == Pipeline(req, bankType, w0, a0, s.(signature := signature), lookup, exampleAccount, saved)
  {
  }

  const GetWarning := Issue("", "", GetDiscouraged)

  /** Whether the endpoint takes the request's method: POST, or GET for a
      bank that allows it. */
  predicate MethodAllowed(req: Request)
  {
    req.httpMethod == "POST" || (req.httpMethod == "GET" && req.banklink.Some? && req.banklink.value.1.allowGet)
  }

  function IPizzaStages(t: Tools, config: Config, lookup: StoreAnswer<Project>): Stages<IPizza.Adapter>
  {
    Stages(a => IPizza.ValidateClient(a, lookup), a => Ok((a, IPizza.ValidateRequest(a, config, t))),
           a => IPizza.ValidateSignature(a, t), IPizza.GetUid, (a: IPizza.Adapter) => IPizza.Describe(a, t), (a: IPizza.Adapter) => a.pairs)
  }

  function SoloStages(t: Tools, lookup: StoreAnswer<Project>): Stages<Solo.Adapter>
  {
    Stages(a => Solo.ValidateClient(a, lookup),
           a => match Solo.ValidateRequest(t, a) case Err(e) => Err(e) case Ok(r) => Ok((a, r)),
           a => Solo.ValidateSignature(t, a), Solo.GetUid, (a: Solo.Adapter) => Ok(Solo.Describe(a, t)), (a: Solo.Adapter) => a.pairs)
  }

  /** The card-centre stages; `seen` and `replayUp` describe the replay store. */
  function EcStages(t: Tools, config: Config, lookup: StoreAnswer<Project>, seen: set<string>, replayUp: bool): Stages<Ec.Adapter>
  {
    Stages(a => Ec.ValidateClient(a, lookup),
           a => match Ec.ValidateRequest(t, config, a, seen, replayUp) case Err(e) => Err(e) case Ok(r) => Ok((a, r.0)),
           a => Ec.ValidateSignature(t, a), Ec.GetUid, (a: Ec.Adapter) => Ec.Describe(t, a), (a: Ec.Adapter) => a.pairs)
  }

  /** `serveBanklink`: the method gate, the bank-link check, the adapter for
      the type, then the pipeline. */
  function ServeBanklink(t: Tools, config: Config, req: Request, lookup: StoreAnswer<Project>,
                         seen: set<string>, replayUp: bool, exampleAccount: string, saved: bool): (o: Outcome)
    ensures !MethodAllowed(req) ==> o == Refused([Issue("", "", PostOnly)], None)
    ensures MethodAllowed(req) && req.banklink.None? ==> o == Refused([Issue("", "", NoBanklinkData)], None)
    ensures MethodAllowed(req) && req.banklink.Some? && Registered(req.banklink.value.0).None? ==> o.Crashed?
    ensures req.httpMethod == "GET" && o.Accepted? ==> |o.logged.warnings| > 0 && o.logged.warnings[0] == GetWarning
    ensures req.httpMethod == "GET" && o.LoggedError? ==> |o.warnings| > 0 && o.warnings[0] == GetWarning
  {
    if !MethodAllowed(req) then Refused([Issue("", "", PostOnly)], None)
    else if req.banklink.None? then Refused([Issue("", "", NoBanklinkData)], None)
    else
      var bankType := req.banklink.value.0;
      var w0 := if req.httpMethod == "GET" then [GetWarning] else [];
      match Registered(bankType)
      case None => Crashed(Threw("bankObjects[type] is not a constructor"))
      case Some(protocol) =>
        Run(t, config, req, protocol, w0, lookup, seen, replayUp, exampleAccount, saved)
  }

  /** The registered adapter for the request's bank link, through the
      pipeline. */
  function Run(t: Tools, config: Config, req: Request, protocol: Protocol, w0: seq<Issue>, lookup: StoreAnswer<Project>,
               seen: set<string>, replayUp: bool, exampleAccount: string, saved: bool): (o: Outcome)
    requires req.banklink.Some?
    ensures o.Accepted? ==> w0 <= o.logged.warnings
    ensures o.LoggedError? ==> w0 <= o.warnings
  {
    match protocol
    case IPizzaProtocol => RunIPizza(t, config, req, w0, lookup, exampleAccount, saved)
    case SoloProtocol => RunSolo(t, config, req, w0, lookup, exampleAccount, saved)
    case EcProtocol => RunEc(t, config, req, w0, lookup, seen, replayUp, exampleAccount, saved)
  }

  function RunIPizza(t: Tools, config: Config, req: Request, w0: seq<Issue>, lookup: StoreAnswer<Project>,
                     exampleAccount: string, saved: bool): (o: Outcome)
    requires req.banklink.Some?
    ensures o.Accepted? ==> w0 <= o.logged.warnings
    ensures o.LoggedError? ==> w0 <= o.warnings
  {
    var (bankType, bank) := req.banklink.value;
    Pipeline(req, bankType, w0, IPizza.New(bank, config, req.body, ""), IPizzaStages(t, config, lookup),
             lookup, exampleAccount, saved)
  }

  function RunSolo(t: Tools, config: Config, req: Request, w0: seq<Issue>, lookup: StoreAnswer<Project>,
                   exampleAccount: string, saved: bool): (o: Outcome)
    requires req.banklink.Some?
    ensures o.Accepted? ==> w0 <= o.logged.warnings
    ensures o.LoggedError? ==> w0 <= o.warnings
  {
    var (bankType, bank) := req.banklink.value;
    Pipeline(req, bankType, w0, Solo.New(Solo.SoloDialect, bank, config, req.body, ""), SoloStages(t, lookup),
             lookup, exampleAccount, saved)
  }

  function RunEc(t: Tools, config: Config, req: Request, w0: seq<Issue>, lookup: StoreAnswer<Project>,
                 seen: set<string>, replayUp: bool, exampleAccount: string, saved: bool): (o: Outcome)
    requires req.banklink.Some?
    ensures o.Accepted? ==> w0 <= o.logged.warnings
    ensures o.LoggedError? ==> w0 <= o.warnings
  {
    var (bankType, bank) := req.banklink.value;
    Pipeline(req, bankType, w0, Ec.New(bank, config, req.body, ""), EcStages(t, config, lookup, seen, replayUp),
             lookup, exampleAccount, saved)
  }

  // ---------------------------------------------------------------------
  // The decision and the state machine

  /** The decision form's outcome: pay, then cancel, then reject; none of
      them is no decision. */
  function Decide(options: Decision): (r: Option<PaymentState>)
    ensures r.Some? ==> IsFinal(r.value)
    ensures r == Some(Payed) <==> options.pay == "pay"
    ensures r == Some(Cancelled) <==> options.pay != "pay" && options.cancel == "cancel"
    ensures r == Some(Rejected) <==> options.pay != "pay" && options.cancel != "cancel" && options.reject == "reject"
  {
    if options.pay == "pay" then Some(Payed)
    else if options.cancel == "cancel" then Some(Cancelled)
    else if options.reject == "reject" then Some(Rejected)
    else None
  }

  /** `autoPay`: the trimmed, lower-cased `PANGALINK_AUTOPAY` value picks the
      decision; the sender comes from the logged payment. */
  function AutoPay(value: string, payment: Payment): (d: Decision)
    ensures d.senderName == payment.senderName && d.senderAccount == payment.senderAccount
    ensures !(d.pay != "" && d.cancel != "") && !(d.pay != "" && d.reject != "") && !(d.cancel != "" && d.reject != "")
  {
    var v := Lower(Trim(value));
    Decision(if v == "accept" then "pay" else "", if v == "cancel" then "cancel" else "",
             if v == "reject" then "reject" else "", payment.senderName, payment.senderAccount)
  }

  /** `accept`, `cancel` and `reject` (in any case, with any surrounding
      space) decide the matching final state; any other value decides
      nothing. */
  lemma AutoPayDecides(value: string, payment: Payment)
    ensures var v := Lower(Trim(value));
            && (Decide(AutoPay(value, payment)) == Some(Payed) <==> v == "accept")
            && (Decide(AutoPay(value, payment)) == Some(Cancelled) <==> v == "cancel")
            && (Decide(AutoPay(value, payment)) == Some(Rejected) <==> v == "reject")
            && (Decide(AutoPay(value, payment)).None? <==> v != "accept" && v != "cancel" && v != "reject")
    ensures AutoPay(value, payment).senderName == payment.senderName
            && AutoPay(value, payment).senderAccount == payment.senderAccount
  {
  }

  /** `handlePayment`: the reply of the payment's own adapter family. `bank`
      is the project's bank definition; `counter` is the transaction
      counter's answer and `today`, `random` the date and random source. */
  function HandlePayment(t: Tools, config: Config, bank: Bank, project: Project, payment: Payment, decision: Decision,
                         counter: Option<nat>, today: string, random: nat): (r: Res<Form>)
    ensures Registered(payment.bank).None? ==> r.Err?
    ensures counter.None? ==> r.Err?
  {
    match Registered(payment.bank)
    case None => Err(Threw("bankObjects[payment.bank] is undefined"))
    case Some(IPizzaProtocol) => IPizza.GenerateForm(t, config, bank, project, payment, decision, counter, today)
    case Some(SoloProtocol) =>
      Solo.GenerateForm(Solo.SoloDialect, t, config, bank, project, payment, decision, counter, today, random)
    case Some(EcProtocol) => Ec.GenerateForm(t, config, bank, project, payment, decision, counter)
  }

  /** What `makePayment` did. */
  datatype PayOutcome =
    /** Nothing was saved; the browser goes to `redirect`. */
    | PayFailed(redirect: string)
    /** The decided payment, with its reply, was saved. */
    | Paid(saved: Payment, form: Form)
    /** Building the reply failed: the decided payment was saved anyway, and
        reading the missing reply then threw. */
    | SavedThenCrashed(saved: Payment)

  /** `makePayment`: only an `IN PROCESS` payment with a decision moves, to
      the decided final state. `found` is the payment store's answer,
      `owner` the project store's, `reply` what building the reply gives for
      the decided payment, and `saved` whether the final save succeeded. */
  function MakePayment(found: StoreAnswer<Payment>, options: Decision, owner: StoreAnswer<Project>,
                       reply: (Payment, Project) -> Res<Form>, saved: bool): (r: PayOutcome)
    ensures !found.Found? ==> r == PayFailed("/")
    ensures found.Found? && found.value.state != InProcess ==> r == PayFailed("/")
    ensures Decide(options).None? ==> r == PayFailed("/")
    ensures !owner.Found? ==> r == PayFailed("/")
    ensures !saved ==> r == PayFailed("/")
    ensures !r.PayFailed? ==>
              && found.Found? && found.value.state == InProcess && Decide(options).Some? && owner.Found? && saved
              && var decided := found.value.(state := Decide(options).value, decision := Some(options));
                 (r.Paid? <==> reply(decided, owner.value).Ok?)
                 && (r.Paid? ==> r.saved == decided.(response := Some(r.form)) && r.form == reply(decided, owner.value).value)
                 && (r.SavedThenCrashed? ==> r.saved == decided)
  {
    match found
    case StoreError => PayFailed("/")
    case NotFound => PayFailed("/")
    case Found(record) =>
      if record.state != InProcess then PayFailed("/")
      else
        match Decide(options)
        case None => PayFailed("/")
        case Some(state) =>
          var decided := record.(state := state, decision := Some(options));
          match owner
          case StoreError => PayFailed("/")
          case NotFound => PayFailed("/")
          case Found(project) =>
            var response := reply(decided, project);
            if !saved then PayFailed("/")
            else if response.Ok? then Paid(decided.(response := Some(response.value)), response.value)
            else SavedThenCrashed(decided)
  }

  /** A payment moves at most once: whatever `makePayment` saves is final,
      and a second attempt on the saved payment changes nothing. */
  lemma MakePaymentOnce(found: StoreAnswer<Payment>, options: Decision, owner: StoreAnswer<Project>,
                        reply: (Payment, Project) -> Res<Form>, saved: bool, options2: Decision,
                        reply2: (Payment, Project) -> Res<Form>)
    requires MakePayment(found, options, owner, reply, saved).Paid?
             || MakePayment(found, options, owner, reply, saved).SavedThenCrashed?
    ensures var r := MakePayment(found, options, owner, reply, saved);
            && IsFinal(r.saved.state)
            && MakePayment(Found(r.saved), options2, owner, reply2, saved) == PayFailed("/")
  {
  }
}

=== FILE: ec.dfy ===
/** The card-centre ("EC", `IPAYServlet`) adapter: a fixed-width signing
    string, a validator gated on protocol versions 002 and 004, a replay guard
    on the merchant's transaction number, and the `afb` reply. */
module Ec {
  import opened Text
  import opened FieldBag
  import opened External
  import opened Records
  import opened Normalize
  import opened Rules

  // ---------------------------------------------------------------------
  // Protocol tables

  const Languages: seq<string> := ["ET", "EN", "FI", "DE"]

  const DefaultLanguage := "EST"

  /** `languageCodes`: the two-letter code a request carries, mapped to the
      three-letter code the adapter keeps. */
  function LanguageCode(code: string): Option<string>
  {
    if code == "ET" then Some("EST")
    else if code == "EN" then Some("ENG")
    else if code == "FI" then Some("FIN")
    else if code == "DE" then Some("GER")
    else None
  }

  predicate KnownVersion(version: string) { version == "002" || version == "004" }

  predicate KnownAction(action: string) { action == "gaf" || action == "afb" }

  /** `actionFields`: the fields the validator walks for each action; an
      unknown action walks none. */
  function ListedFields(action: string): seq<string>
  {
    if action == "gaf" then
      ["action", "ver", "id", "ecuno", "eamount", "cur", "datetime", "mac", "lang", "charEncoding",
       "feedBackUrl", "delivery"]
    else if action == "afb" then
      ["action", "ver", "id", "ecuno", "receipt_no", "eamount", "cur", "respcode", "datetime", "msgdata",
       "actiontext", "mac", "charEncoding", "auto"]
    else []
  }

  const AfbOrder: seq<string> :=
    ["ver", "id", "ecuno", "receipt_no", "eamount", "cur", "respcode", "datetime", "msgdata", "actiontext"]

  /** `signatureOrder[version][action]`. */
  function SignatureOrder(version: string, action: string): (r: Option<seq<string>>)
    ensures r.Some? <==> KnownVersion(version) && KnownAction(action)
  {
    if !KnownVersion(version) then None
    else if action == "gaf" then
      if version == "002" then Some(["ver", "id", "ecuno", "eamount", "cur", "datetime"])
      else Some(["ver", "id", "ecuno", "eamount", "cur", "datetime", "feedBackUrl", "delivery"])
    else if action == "afb" then Some(AfbOrder)
    else None
  }

  /** `signatureLength`: negative widths are left-justified, positive ones
      right-justified; an unlisted key has width 0. */
  function Width(key: string): int
  {
    if key == "action" then -3
    else if key == "ver" then 3
    else if key == "id" then -10
    else if key == "ecuno" then 12
    else if key == "eamount" then 12
    else if key == "cur" then -3
    else if key == "lang" then -2
    else if key == "datetime" then -14
    else if key == "receipt_no" then 6
    else if key == "respcode" then 3
    else if key == "msgdata" then -40
    else if key == "actiontext" then -40
    else if key == "charEncoding" then -16
    else if key == "feedBackUrl" then -128
    else if key == "delivery" then -1
    else if key == "auto" then -1
    else 0
  }

  function Abs(w: int): nat { if w < 0 then -w else w }

  // ---------------------------------------------------------------------
  // The adapter

  datatype Adapter = Adapter(
    bank: Bank,
    pairs: Pairs,
    fields: Fields,
    version: string,
    language: string,
    charset: string,
    record: Option<Project>,
    /** `false` until computed, and when no signature order applies. */
    sourceHash: Option<string>
  )

  /** `detectVersion`: `ver`, else "002". */
  function DetectVersion(f: Fields): (r: string)
    ensures r != "" && (Get(f, "ver") != "" ==> r == Get(f, "ver"))
  {
    Or(Get(f, "ver"), "002")
  }

  /** `detectLanguage`: the mapped code is checked against the two-letter
      list, which never holds a three-letter code, so every request falls
      back to the default. */
  function DetectLanguage(f: Fields): (r: string)
    ensures r == DefaultLanguage
  {
    var code := LanguageCode(Trim(Upper(Or(Get(f, "lang"), "ET"))));
    if code.None? || code.value !in Languages then DefaultLanguage else code.value
  }

  function DefaultCharset(bank: Bank, config: Config): string { Or(bank.defaultCharset, config.ecCharset) }

  /** `detectCharset`: only version 004 may name its charset. */
  function DetectCharset(bank: Bank, config: Config, f: Fields): (r: string)
    ensures DetectVersion(f) != "004" ==> r == DefaultCharset(bank, config)
    ensures DetectVersion(f) == "004" && Get(f, "charEncoding") != "" ==> r == Get(f, "charEncoding")
  {
    if DetectVersion(f) == "004" then Or(Get(f, "charEncoding"), DefaultCharset(bank, config))
    else DefaultCharset(bank, config)
  }

  /** The constructor: normalise, then detect version, language and charset. */
  function New(bank: Bank, config: Config, body: seq<(string, RawValue)>, charset: string): (a: Adapter)
    ensures a.pairs == NormalizeBody(body) && a.fields == ToMap(a.pairs) && IsNormalized(a.pairs)
    ensures a.language == DefaultLanguage && a.record.None? && a.sourceHash.None?
    ensures a.version != "" && (Get(a.fields, "ver") != "" ==> a.version == Get(a.fields, "ver"))
    ensures charset != "" ==> a.charset == charset
    ensures charset == "" && a.version != "004" ==> a.charset == DefaultCharset(bank, config)
    ensures charset == "" && a.version == "004" ==> a.charset == Or(Get(a.fields, "charEncoding"), DefaultCharset(bank, config))
  {
    var pairs := NormalizeBody(body);
    NormalizeBodySpec(body);
    var f := ToMap(pairs);
    Adapter(bank, pairs, f, DetectVersion(f), DetectLanguage(f), Or(charset, DetectCharset(bank, config, f)), None, None)
  }

  // ---------------------------------------------------------------------
  // The signing string

  /** `String(fields[key])`: a missing key reads "undefined". */
  function JsString(f: Fields, key: string): string
  {
    if key in f then f[key] else "undefined"
  }

  /** One field padded to its width. */
  function Padded(t: Tools, key: string, v: string): (r: string)
    ensures |v| <= Abs(Width(key)) ==> |r| == Abs(Width(key))
    ensures Width(key) < 0 && |v| <= Abs(Width(key)) ==>
              r[..|v|] == v && forall i :: |v| <= i < |r| ==> r[i] == ' '
    ensures Width(key) > 0 && |v| <= Width(key) ==>
              r[|r| - |v|..] == v && forall i :: 0 <= i < |r| - |v| ==> r[i] == '0'
    ensures Width(key) == 0 ==> r == v
  {
    var w := Width(key);
    if w < 0 then RPad(t, v, -w)
    else if w > 0 then LPad(t, v, w)
    else v
  }

  /** The padded values of `order`, in order. */
  function Segments(t: Tools, f: Fields, order: seq<string>): (r: seq<string>)
    ensures |r| == |order|
    ensures forall i :: 0 <= i < |order| ==> r[i] == Padded(t, order[i], JsString(f, order[i]))
  {
    if |order| == 0 then [] else [Padded(t, order[0], JsString(f, order[0]))] + Segments(t, f, order[1..])
  }

  /** `list.join("")`. */
  function Concat(parts: seq<string>): string
  {
    if |parts| == 0 then "" else parts[0] + Concat(parts[1..])
  }

  function Widths(order: seq<string>): (r: seq<nat>)
    ensures |r| == |order| && forall i :: 0 <= i < |order| ==> r[i] == Abs(Width(order[i]))
  {
    if |order| == 0 then [] else [Abs(Width(order[0]))] + Widths(order[1..])
  }

  function Total(widths: seq<nat>): nat
  {
    if |widths| == 0 then 0 else widths[0] + Total(widths[1..])
  }

  /** `calculateHash`: the padded values of the signature order for this
      version and action, joined; `false` when no order applies. */
  function HashOf(t: Tools, version: string, action: string, f: Fields): (r: Option<string>)
    ensures r.Some? <==> KnownVersion(version) && KnownAction(action)
  {
    match SignatureOrder(version, action)
    case None => None
    case Some(order) => Some(Concat(Segments(t, f, order)))
  }

  function CalculateHash(t: Tools, a: Adapter): (r: Option<string>)
    ensures r.Some? <==> KnownVersion(a.version) && KnownAction(Get(a.fields, "action"))
  {
    HashOf(t, a.version, Get(a.fields, "action"), a.fields)
  }

  /** Every value of `order` fits its width. */
  predicate Fits(f: Fields, order: seq<string>)
  {
    forall i :: 0 <= i < |order| ==> |JsString(f, order[i])| <= Abs(Width(order[i]))
  }

  /** Reading a fixed-width string back: cut it into pieces of the given
      widths, or fail when the lengths do not add up. */
  function Cut(s: string, widths: seq<nat>): (r: Option<seq<string>>)
    ensures r.Some? ==> |r.value| == |widths| && forall i :: 0 <= i < |widths| ==> |r.value[i]| == widths[i]
  {
    if |widths| == 0 then (if s == "" then Some([]) else None)
    else if |s| < widths[0] then None
    else
      match Cut(s[widths[0]..], widths[1..])
      case None => None
      case Some(rest) => Some([s[..widths[0]]] + rest)
  }

  /** Pieces of the right widths, joined and cut again, come back unchanged,
      and the joined string is as long as the widths add up to. */
  lemma {:induction false} CutConcat(parts: seq<string>, widths: seq<nat>)
    requires |parts| == |widths| && forall i :: 0 <= i < |parts| ==> |parts[i]| == widths[i]
    ensures Cut(Concat(parts), widths) == Some(parts)
    ensures |Concat(parts)| == Total(widths)
  {
    if |parts| > 0 {
      CutConcat(parts[1..], widths[1..]);
      var s := Concat(parts);
      assert s[..widths[0]] == parts[0];
      assert s[widths[0]..] == Concat(parts[1..]);
      assert [parts[0]] + parts[1..] == parts;
    }
  }

  /** When every value fits, the signing string is exactly the padded values
      laid end to end: cutting it at the widths gives each padded value back. */
  lemma HashCuts(t: Tools, version: string, action: string, f: Fields)
    requires KnownVersion(version) && KnownAction(action)
    requires Fits(f, SignatureOrder(version, action).value)
    ensures var order := SignatureOrder(version, action).value;
            && HashOf(t, version, action, f).Some?
            && Cut(HashOf(t, version, action, f).value, Widths(order)) == Some(Segments(t, f, order))
            && |HashOf(t, version, action, f).value| == Total(Widths(order))
  {
    var order := SignatureOrder(version, action).value;
    CutConcat(Segments(t, f, order), Widths(order));
  }

  /** The widths the payment request's fields are padded to. */
  lemma WidthValues()
    ensures Width("ver") == 3 && Width("id") == -10 && Width("ecuno") == 12 && Width("eamount") == 12
    ensures Width("cur") == -3 && Width("datetime") == -14 && Width("feedBackUrl") == -128 && Width("delivery") == -1
  {
  }

  lemma GafWidths()
    ensures Total(Widths(SignatureOrder("002", "gaf").value)) == 54
    ensures Total(Widths(SignatureOrder("004", "gaf").value)) == 183
  {
    Gaf002Widths();
    Gaf004Widths();
    GafTotals();
  }

  lemma GafTotals()
    ensures Total([3, 10, 12, 12, 3, 14]) == 54
    ensures Total([3, 10, 12, 12, 3, 14, 128, 1]) == 183
  {
  }

  lemma Gaf002Widths()
    ensures Widths(SignatureOrder("002", "gaf").value) == [3, 10, 12, 12, 3, 14]
  {
    var o := SignatureOrder("002", "gaf").value;
    var w := Widths(o);
    WidthValues();
    assert o == ["ver", "id", "ecuno", "eamount", "cur", "datetime"];
    assert w[0] == 3 && w[1] == 10 && w[2] == 12 && w[3] == 12 && w[4] == 3 && w[5] == 14;
  }

  lemma Gaf004Widths()
    ensures Widths(SignatureOrder("004", "gaf").value) == [3, 10, 12, 12, 3, 14, 128, 1]
  {
    var o := SignatureOrder("004", "gaf").value;
    var w := Widths(o);
    WidthValues();
    assert o == ["ver", "id", "ecuno", "eamount", "cur", "datetime", "feedBackUrl", "delivery"];
    assert w[0] == 3 && w[1] == 10 && w[2] == 12 && w[3] == 12 && w[4] == 3 && w[5] == 14;
    assert w[6] == 128 && w[7] == 1;
  }

  /** The payment request's signing string is 54 characters long in version
      002 and 183 in version 004 when no value overflows its width. */
  lemma GafHashLength(t: Tools, version: string, f: Fields)
    requires KnownVersion(version) && Fits(f, SignatureOrder(version, "gaf").value)
    ensures |HashOf(t, version, "gaf", f).value| == (if version == "002" then 54 else 183)
  {
    HashCuts(t, version, "gaf", f);
    GafWidths();
  }

  /** The signing string reads nothing but the fields of its order. */
  lemma HashReadsOrder(t: Tools, version: string, action: string, f: Fields, g: Fields)
    requires KnownVersion(version) && KnownAction(action)
    requires forall k :: k in SignatureOrder(version, action).value ==> JsString(f, k) == JsString(g, k)
    ensures HashOf(t, version, action, f) == HashOf(t, version, action, g)
  {
    SegmentsReadOrder(t, f, g, SignatureOrder(version, action).value);
  }

  lemma SegmentsReadOrder(t: Tools, f: Fields, g: Fields, order: seq<string>)
    requires forall k :: k in order ==> JsString(f, k) == JsString(g, k)
    ensures Segments(t, f, order) == Segments(t, g, order)
  {
    assert forall i :: 0 <= i < |order| ==> order[i] in order;
  }

  // ---------------------------------------------------------------------
  // The validator (`IPAYServletValidator`)

  /** `Number(value) < bound` on a non-empty value: a numeral is read in
      decimal; anything else is the collaborator's reading (NaN compares
      false). */
  function NumberBelow(t: Tools, v: string, bound: nat): bool
  {
    if IsNumeral(v) then DecimalValue(v) < bound else t.numberBelow(v, bound)
  }

  /** `/^[0-9a-f]+$/i`. */
  predicate IsHex(v: string) { |v| > 0 && forall i :: 0 <= i < |v| ==> IsHexDigit(v[i]) }

  /** `/^[A-Z]{3}$/i`. */
  predicate IsCurrencyCode(v: string) { |v| == 3 && forall i :: 0 <= i < 3 ==> IsAsciiLetter(v[i]) }

  /** `validate_ver`; the first call also warns about the deprecated 002. */
  function VersionCheck(f: Fields, initial: bool): (c: Check)
    ensures c.error.None? <==> KnownVersion(Get(f, "ver"))
    ensures c.warnings != [] <==> initial && Get(f, "ver") == "002"
  {
    var v := Get(f, "ver");
    if v == "" then Fail(Missing)
    else if !KnownVersion(v) then Fail(Unsupported)
    else if initial && v == "002" then Check([Issue("ver", v, Deprecated)], None)
    else Pass
  }

  /** `validate_action`. */
  function ActionCheck(f: Fields, version: string): (c: Check)
    ensures c.warnings == []
    ensures KnownVersion(version) ==> (c.error.None? <==> KnownAction(Get(f, "action")))
  {
    var v := Get(f, "action");
    if v == "" then Fail(Missing)
    else if SignatureOrder(version, v).None? then Fail(Unsupported)
    else Pass
  }

  /** `bank.allowedCharsets || [bank.defaultCharset || config.ec.defaultCharset]`. */
  function AllowedCharsets(bank: Bank, config: Config): seq<string>
  {
    if bank.allowedCharsets.Some? then bank.allowedCharsets.value else [DefaultCharset(bank, config)]
  }

  /** A field the 004 protocol requires and the 002 protocol forbids. */
  function VersionGated(v: string, version: string): Option<Reason>
  {
    if v != "" && version == "002" then Some(NotAllowedInVersion(version))
    else if v == "" && version == "004" then Some(RequiredInVersion(version))
    else None
  }

  /** The fields that have a `validate_<field>` method. */
  predicate HasValidator(field: string)
  {
    field in ["action", "ver", "id", "ecuno", "eamount", "cur", "datetime", "lang", "mac", "charEncoding",
              "feedBackUrl", "delivery"]
  }

  /** `validate_<field>`, or `None` when there is no such method and the call
      throws. */
  function FieldCheck(t: Tools, bank: Bank, config: Config, f: Fields, version: string, field: string): (r: Option<Check>)
    ensures r.Some? <==> HasValidator(field)
    ensures r.Some? ==> r.value.warnings == []
  {
    var v := Get(f, field);
    if field == "action" then Some(ActionCheck(f, version))
    else if field == "ver" then Some(VersionCheck(f, false))
    else if field == "id" then Some(if v == "" then Fail(Missing) else Pass)
    else if field == "ecuno" then
      Some(if v == "" then Fail(Missing)
           else if NumberBelow(t, v, 100000) then Fail(ValueTooSmall)
           else if Utf16Length(v) > 12 then Fail(TooLong(Utf16Length(v), 12))
           else Pass)
    else if field == "eamount" then
      Some(if v == "" then Fail(Missing) else if !AllDigits(v) then Fail(NotNumeric) else Pass)
    else if field == "cur" then
      Some(if v == "" then Fail(Missing) else if !IsCurrencyCode(v) then Fail(BadCurrencyFormat) else Pass)
    else if field == "datetime" then
      Some(if v == "" then Fail(Missing) else if |v| != 14 || !AllDigits(v) then Fail(BadDateTime) else Pass)
    else if field == "lang" then
      Some(if v != "" && Upper(v) !in Languages then Fail(UnknownLanguage) else Pass)
    else if field == "mac" then
      Some(if v == "" then Fail(Missing)
           else if !IsHex(v) then Fail(NotHex)
           else if (|v| / 2) % 128 != 0 then Fail(BadKeyLength(|v| / 2 * 8))
           else Pass)
    else if field == "charEncoding" then
      Some(if v == "" then Pass
           else if version == "002" then Fail(NotAllowedInVersion(version))
           else if Upper(v) !in AllowedCharsets(bank, config) then Fail(CharsetNotAllowed)
           else Pass)
    else if field == "feedBackUrl" then
      Some(match VersionGated(v, version) case Some(e) => Fail(e) case None => Pass)
    else if field == "delivery" then
      Some(match VersionGated(v, version)
           case Some(e) => Fail(e)
           case None => if v != "" && Upper(Trim(v)) !in ["S", "T"] then Fail(BadDelivery) else Pass)
    else None
  }

  predicate FieldAccepted(t: Tools, bank: Bank, config: Config, f: Fields, version: string, field: string)
  {
    var c := FieldCheck(t, bank, config, f, version, field);
    c.Some? && c.value.error.None?
  }

  /** One iteration of the field loop: the error, or else a warning when the
      value is longer than the bank recommends. */
  function FieldReport(bank: Bank, f: Fields, field: string, c: Check): (r: Report)
    ensures r.Success() <==> c.error.None?
    ensures |r.errors| <= 1 && AllAbout(r.errors, field)
    ensures r.warnings == c.warnings || (c.error.None? && !WithinLength(bank, field, Get(f, field)) &&
              r.warnings == c.warnings + [Issue(field, Get(f, field), TooLong(Utf16Length(Get(f, field)), bank.fieldLength[field]))])
  {
    var v := Get(f, field);
    if c.error.Some? then Report([Issue(field, v, c.error.value)], c.warnings)
    else if !WithinLength(bank, field, v) then Report([], c.warnings + [Issue(field, v, TooLong(Utf16Length(v), bank.fieldLength[field]))])
    else Report([], c.warnings)
  }

  /** Each listed field's validator outcome, in order. */
  function Checks(t: Tools, bank: Bank, config: Config, f: Fields, version: string, list: seq<string>): (r: seq<Option<Check>>)
    ensures |r| == |list|
    ensures forall i :: 0 <= i < |list| ==> r[i] == FieldCheck(t, bank, config, f, version, list[i])
  {
    if |list| == 0 then [] else [FieldCheck(t, bank, config, f, version, list[0])] + Checks(t, bank, config, f, version, list[1..])
  }

  /** The field loop over the validators' outcomes: it throws at the first
      field without a validator. */
  function ReportChecks(bank: Bank, f: Fields, list: seq<string>, checks: seq<Option<Check>>): (r: Res<Report>)
    requires |checks| == |list|
    ensures r.Err? <==> exists i :: 0 <= i < |list| && checks[i].None?
    ensures r.Ok? ==> (r.value.Success() <==> forall i :: 0 <= i < |list| ==> checks[i].value.error.None?)
    ensures r.Ok? ==> AllAboutSome(r.value.errors, list)
  {
    if |list| == 0 then Ok(NoIssues)
    else
      assert forall i :: 1 <= i < |list| ==> list[i] == list[1..][i - 1] && checks[i] == checks[1..][i - 1];
      match checks[0]
      case None => Err(Threw("validate_" + list[0] + " is not a function"))
      case Some(c) =>
        var head := FieldReport(bank, f, list[0], c);
        match ReportChecks(bank, f, list[1..], checks[1..])
        case Err(e) => Err(e)
        case Ok(rest) => Ok(head.Then(rest))
  }

  /** The field loop: it throws at the first field without a validator. */
  function FieldsReport(t: Tools, bank: Bank, config: Config, f: Fields, version: string, list: seq<string>): (r: Res<Report>)
    ensures r.Err? <==> exists i :: 0 <= i < |list| && !HasValidator(list[i])
    ensures r.Ok? ==> (r.value.Success() <==> forall i :: 0 <= i < |list| ==> FieldAccepted(t, bank, config, f, version, list[i]))
    ensures r.Ok? ==> AllAboutSome(r.value.errors, list)
  {
    ReportChecks(bank, f, list, Checks(t, bank, config, f, version, list))
  }

  /** `validateFields`: the version, then the action, each stopping at its
      error; then every field of the action. */
  function ValidateFields(t: Tools, bank: Bank, config: Config, f: Fields): (r: Res<Report>)
    ensures !KnownVersion(Get(f, "ver")) ==>
              r.Ok? && r.value.warnings == [] && |r.value.errors| == 1 && r.value.errors[0].field == "ver"
              && r.value.errors[0].value == DetectVersion(f)
    ensures KnownVersion(Get(f, "ver")) && !KnownAction(Get(f, "action")) ==>
              r.Ok? && |r.value.errors| == 1 && r.value.errors[0].field == "action"
    ensures r.Ok? && Get(f, "ver") == "002" ==> |r.value.warnings| > 0 && r.value.warnings[0] == Issue("ver", "002", Deprecated)
    ensures r.Err? <==> KnownVersion(Get(f, "ver")) && Get(f, "action") == "afb"
    ensures KnownVersion(Get(f, "ver")) && Get(f, "action") == "gaf" ==>
              r.Ok? && (r.value.Success() <==>
                        forall i :: 0 <= i < |ListedFields("gaf")| ==>
                          FieldAccepted(t, bank, config, f, Get(f, "ver"), ListedFields("gaf")[i]))
  {
    var vc := VersionCheck(f, true);
    if vc.error.Some? then Ok(Report([Issue("ver", DetectVersion(f), vc.error.value)], []))
    else
      var version := DetectVersion(f);
      var action := Get(f, "action");
      var ac := ActionCheck(f, version);
      if ac.error.Some? then Ok(Report([Issue("action", action, ac.error.value)], vc.warnings))
      else ActionFields(t, bank, config, f, version, action, vc.warnings)
  }

  /** The field walk of a known action, after the version's warnings: `afb`
      lists a field without a validator and throws. */
  function ActionFields(t: Tools, bank: Bank, config: Config, f: Fields, version: string, action: string,
                        warnings: seq<Issue>): (r: Res<Report>)
    requires KnownAction(action)
    ensures r.Err? <==> action == "afb"
    ensures r.Ok? ==> warnings <= r.value.warnings
    ensures action == "gaf" ==>
              r.Ok? && (r.value.Success() <==>
                        forall i :: 0 <= i < |ListedFields("gaf")| ==>
                          FieldAccepted(t, bank, config, f, version, ListedFields("gaf")[i]))
  {
    ListedValidators();
    match FieldsReport(t, bank, config, f, version, ListedFields(action))
    case Err(e) => Err(e)
    case Ok(rest) => Ok(Report([], warnings).Then(rest))
  }

  /** Every field `gaf` lists has a validator; `afb` lists `receipt_no`,
      which has none. */
  lemma ListedValidators()
    ensures forall i :: 0 <= i < |ListedFields("gaf")| ==> HasValidator(ListedFields("gaf")[i])
    ensures |ListedFields("afb")| > 4 && !HasValidator(ListedFields("afb")[4])
  {
    GafValidators();
    var receipt := "receipt_no";
    assert ListedFields("afb")[4] == receipt;
    assert !HasValidator(receipt) by {
      assert |receipt| == 10 && receipt[0] == 'r';
    }
  }

  lemma GafValidators()
    ensures forall i :: 0 <= i < |ListedFields("gaf")| ==> HasValidator(ListedFields("gaf")[i])
  {
    var gaf := ListedFields("gaf");
    forall i | 0 <= i < |gaf|
      ensures HasValidator(gaf[i])
    {
    }
  }

  /** A request the validator accepts cannot overflow the widths of its
      version, transaction number, currency, time or delivery method. */
  lemma AcceptedFieldsFit(t: Tools, bank: Bank, config: Config, f: Fields)
    requires ValidateFields(t, bank, config, f).Ok? && ValidateFields(t, bank, config, f).value.Success()
    requires Get(f, "action") == "gaf"
    ensures |Get(f, "ver")| == 3 && |Get(f, "ecuno")| <= 12 && |Get(f, "cur")| == 3 && |Get(f, "datetime")| == 14
  {
    var version := Get(f, "ver");
    var list := ListedFields("gaf");
    assert KnownVersion(version);
    GafListsWidthFields();
    assert FieldAccepted(t, bank, config, f, version, list[3]);
    assert FieldAccepted(t, bank, config, f, version, list[5]);
    assert FieldAccepted(t, bank, config, f, version, list[6]);
    AcceptedWidths(t, bank, config, f, version);
  }

  lemma GafListsWidthFields()
    ensures |ListedFields("gaf")| > 6
    ensures ListedFields("gaf")[3] == "ecuno" && ListedFields("gaf")[5] == "cur" && ListedFields("gaf")[6] == "datetime"
  {
  }

  lemma AcceptedWidths(t: Tools, bank: Bank, config: Config, f: Fields, version: string)
    ensures FieldAccepted(t, bank, config, f, version, "ecuno") ==> |Get(f, "ecuno")| <= 12
    ensures FieldAccepted(t, bank, config, f, version, "cur") ==> |Get(f, "cur")| == 3
    ensures FieldAccepted(t, bank, config, f, version, "datetime") ==> |Get(f, "datetime")| == 14
  {
    Utf16LengthBounds(Get(f, "ecuno"));
  }

  // ---------------------------------------------------------------------
  // The replay guard

  /** The store key of a merchant's transaction number. */
  function ReplayKey(id: string, ecuno: string): string { "ipay-" + id + ":" + ecuno }

  /** `checkEcuno`: `seen` holds the keys marked within the last day and
      `storeUp` is false when the store reports an error. Whether the number
      is unseen, and the store after marking it. */
  function CheckEcuno(f: Fields, seen: set<string>, storeUp: bool): (r: Res<(bool, set<string>)>)
    ensures Get(f, "id") == "" || Get(f, "ecuno") == "" ==> r == Ok((true, seen))
    ensures Get(f, "id") != "" && Get(f, "ecuno") != "" ==>
              var key := ReplayKey(Get(f, "id"), Get(f, "ecuno"));
              && (r.Err? <==> !storeUp)
              && (r.Ok? ==> (r.value.0 <==> key !in seen) && key in r.value.1 && seen <= r.value.1
                            && r.value.1 - seen <= {key})
  {
    var id := Get(f, "id");
    var ecuno := Get(f, "ecuno");
    if id == "" || ecuno == "" then Ok((true, seen))
    else if !storeUp then Err(ReplayStoreFailed)
    else
      var key := ReplayKey(id, ecuno);
      Ok((key !in seen, seen + {key}))
  }

  /** Presenting the same transaction number twice: the second check finds
      it seen and leaves the store as it was. */
  lemma ReplaySecondTimeSeen(f: Fields, seen: set<string>)
    requires Get(f, "id") != "" && Get(f, "ecuno") != ""
    ensures var first := CheckEcuno(f, seen, true).value.1;
            CheckEcuno(f, first, true) == Ok((false, first))
  {
  }

  /** The key joins id and number with a colon that either may contain, so
      two different pairs can share a key. */
  lemma ReplayKeysCollide()
    ensures ReplayKey("a:1", "2") == ReplayKey("a", "1:2")
  {
    assert "ipay-" + "a:1" + ":" + "2" == "ipay-a:1:2";
    assert "ipay-" + "a" + ":" + "1:2" == "ipay-a:1:2";
  }

  // ---------------------------------------------------------------------
  // The pipeline stages and getters

  /** `validateRequest`: the validator's report, plus one warning when the
      transaction number was already used. */
  function ValidateRequest(t: Tools, config: Config, a: Adapter, seen: set<string>, storeUp: bool): (r: Res<(Report, set<string>)>)
    ensures ValidateFields(t, a.bank, config, a.fields).Err? ==> r.Err?
    ensures r.Ok? ==>
              var v := ValidateFields(t, a.bank, config, a.fields);
              var unseen := CheckEcuno(a.fields, seen, storeUp);
              && v.Ok? && unseen.Ok? && r.value.1 == unseen.value.1
              && r.value.0.errors == v.value.errors
              && r.value.0.warnings == v.value.warnings
                   + (if unseen.value.0 then [] else [Issue("ecuno", Get(a.fields, "ecuno"), AlreadyUsed)])
  {
    match ValidateFields(t, a.bank, config, a.fields)
    case Err(e) => Err(e)
    case Ok(v) =>
      match CheckEcuno(a.fields, seen, storeUp)
      case Err(e) => Err(e)
      case Ok((unseen, after)) =>
        if unseen then Ok((v, after))
        else Ok((Report(v.errors, v.warnings + [Issue("ecuno", Get(a.fields, "ecuno"), AlreadyUsed)]), after))
  }

  /** A repeated transaction number costs one warning and never an error:
      the request's success is the validator's. */
  lemma {:induction false} DuplicateOnlyWarns(t: Tools, config: Config, a: Adapter, seen: set<string>)
    requires ValidateFields(t, a.bank, config, a.fields).Ok?
    requires Get(a.fields, "id") != "" && Get(a.fields, "ecuno") != ""
    requires ReplayKey(Get(a.fields, "id"), Get(a.fields, "ecuno")) in seen
    ensures var r := ValidateRequest(t, config, a, seen, true);
            var v := ValidateFields(t, a.bank, config, a.fields).value;
            && r.Ok? && r.value.0.Success() == v.Success()
            && r.value.0.warnings == v.warnings + [Issue("ecuno", Get(a.fields, "ecuno"), AlreadyUsed)]
  {
    var r := ValidateRequest(t, config, a, seen, true);
    assert CheckEcuno(a.fields, seen, true).Ok?;
    assert r.Ok?;
  }

  /** `validateClient`: the project registered under `id` must exist and
      belong to this bank. */
  function ValidateClient(a: Adapter, lookup: StoreAnswer<Project>): (r: Res<(Adapter, Report)>)
    ensures lookup.StoreError? <==> r.Err?
    ensures r.Ok? ==> (r.value.1.Success() <==> lookup.Found? && lookup.value.bank == a.bank.key)
    ensures r.Ok? ==> r.value.1.warnings == [] && |r.value.1.errors| <= 1 && AllAbout(r.value.1.errors, "id")
    ensures r.Ok? && r.value.1.Success() ==> r.value.0 == a.(record := Some(lookup.value))
    ensures r.Ok? && !r.value.1.Success() ==> r.value.0 == a
  {
    match lookup
    case StoreError => Err(StoreFailed)
    case NotFound => Ok((a, Report([Issue("id", Get(a.fields, "id"), ClientNotFound)], [])))
    case Found(p) =>
      if a.bank.key != p.bank then Ok((a, Report([Issue("id", Get(a.fields, "id"), BankMismatch(p.bank))], [])))
      else Ok((a.(record := Some(p)), NoIssues))
  }

  /** `validateSignature`: compute the signing string and verify `mac` over
      it with the merchant's certificate. */
  function ValidateSignature(t: Tools, a: Adapter): (r: Res<(Adapter, Report)>)
    ensures a.record.None? ==> r.Err?
    ensures a.record.Some? ==>
              var ok := t.opensslVerify(CalculateHash(t, a), Get(a.fields, "mac"), Trim(a.record.value.userCertificate),
                                        a.charset, "hex");
              && (r.Ok? <==> ok.Some?)
              && (r.Ok? ==> r.value.0 == a.(sourceHash := CalculateHash(t, a))
                            && (r.value.1.Success() <==> ok.value)
                            && r.value.1.warnings == [] && AllAbout(r.value.1.errors, "mac"))
  {
    match a.record
    case None => Err(Threw("this.record is undefined"))
    case Some(p) =>
      var hash := CalculateHash(t, a);
      match t.opensslVerify(hash, Get(a.fields, "mac"), Trim(p.userCertificate), a.charset, "hex")
      case None => Err(SigningFailed)
      case Some(ok) =>
        Ok((a.(sourceHash := hash), if ok then NoIssues else Report([Issue("mac", "", SignatureMismatch)], [])))
  }

  /** `getUid`. */
  function GetUid(a: Adapter): string { Get(a.fields, "id") }

  /** `getSuccessTarget`: version 004 prefers `feedBackUrl`; otherwise the
      project's address. Reading the project before a client check set it
      throws. */
  function SuccessTarget(a: Adapter): (r: Res<string>)
    ensures r.Err? <==> a.record.None? && !(a.version == "004" && Get(a.fields, "feedBackUrl") != "")
    ensures r.Ok? && a.version == "004" && Get(a.fields, "feedBackUrl") != "" ==> r.value == Get(a.fields, "feedBackUrl")
    ensures r.Ok? && !(a.version == "004" && Get(a.fields, "feedBackUrl") != "") ==> r.value == a.record.value.ecUrl
  {
    if a.version == "004" && Get(a.fields, "feedBackUrl") != "" then Ok(Get(a.fields, "feedBackUrl"))
    else if a.record.None? then Err(Threw("this.record is undefined"))
    else Ok(a.record.value.ecUrl)
  }

  /** The getters `logPayment` reads; the cancel and reject targets are the
      success target. */
  function Describe(t: Tools, a: Adapter): (r: Res<Summary>)
    ensures r.Ok? <==> SuccessTarget(a).Ok?
    ensures r.Ok? ==> r.value.successTarget == r.value.cancelTarget == r.value.rejectTarget == SuccessTarget(a).value
    ensures r.Ok? ==> r.value.currency == Trim(Upper(Or(Get(a.fields, "cur"), "EUR")))
    ensures r.Ok? ==> r.value.paymentType == Some("PAYMENT") && r.value.hash == a.sourceHash
                      && r.value.referenceCode.None? && r.value.message.None?
  {
    match SuccessTarget(a)
    case Err(e) => Err(e)
    case Ok(url) =>
      Ok(Summary(a.charset, Or(ValueOr(t.languageName(a.language), ""), "et"), Some("PAYMENT"),
                 t.centsToAmount(Get(a.fields, "eamount")), None, None, None, None,
                 Trim(Upper(Or(Get(a.fields, "cur"), "EUR"))), url, url, url,
                 Display(true, false, false, false, false, false), a.sourceHash))
  }

  // ---------------------------------------------------------------------
  // The reply

  /** The fields of the `afb` reply before normalisation, in the order the
      reply lists them. */
  const ReplyKeys: seq<string> :=
    ["action", "ver", "id", "ecuno", "receipt_no", "eamount", "cur", "respcode", "datetime", "msgdata", "actiontext"]

  function ReplyValues(pf: Fields, state: PaymentState, decision: Decision, n: nat): (r: seq<string>)
    ensures |r| == |ReplyKeys|
  {
    var payed := state == Payed;
    ["afb", Get(pf, "ver"), Get(pf, "id"), Get(pf, "ecuno"), if payed then NatToString(n) else "0",
     Get(pf, "eamount"), Get(pf, "cur"), if payed then "000" else "111", Get(pf, "datetime"),
     decision.senderName, if payed then "OK, tehing autoriseeritud" else "Tehing katkestatud"]
  }

  /** The reply's transaction: the reply fields through the constructor, the
      project attached, and the request's charset name copied over when it
      had one. */
  function Transaction(config: Config, bank: Bank, project: Project, payment: Payment, decision: Decision, n: nat): (a: Adapter)
    ensures Keys(a.pairs) == ReplyKeys || Keys(a.pairs) == ReplyKeys + ["charEncoding"]
    ensures a.fields == ToMap(a.pairs) && a.record == Some(project) && a.sourceHash.None?
    ensures forall i :: 0 <= i < |ReplyKeys| ==>
              a.pairs[i] == (ReplyKeys[i], Trim(ReplyValues(ToMap(payment.fields), payment.state, decision, n)[i]))
  {
    var pf := ToMap(payment.fields);
    var base := Zip(ReplyKeys, ReplyValues(pf, payment.state, decision, n));
    var a := New(bank, config, StoredBody(base), payment.charset);
    StoredReply(bank, config, base, payment.charset);
    var enc := Get(pf, "charEncoding");
    ReplyKeysDistinct();
    var pairs := CopyOver(a.pairs, "charEncoding", enc);
    assert enc != "" ==> pairs == a.pairs + [("charEncoding", enc)] by {
      if enc != "" {
        PutNew(a.pairs, "charEncoding", enc);
      }
    }
    a.(pairs := pairs, fields := ToMap(pairs), record := Some(project))
  }

  /** Stored reply fields read back with their keys in place and their
      values trimmed. */
  lemma StoredReply(bank: Bank, config: Config, base: Pairs, charset: string)
    ensures var a := New(bank, config, StoredBody(base), charset);
            a.pairs == TrimValues(base) && Keys(a.pairs) == Keys(base)
  {
    NormalizeStored(base);
  }

  lemma ReplyKeysDistinct()
    ensures forall i, j :: 0 <= i < j < |ReplyKeys| ==> ReplyKeys[i] != ReplyKeys[j]
    ensures "charEncoding" !in ReplyKeys && "mac" !in ReplyKeys && "auto" !in ReplyKeys
    ensures forall k :: k in AfbOrder ==> k in ReplyKeys
  {
  }

  /** `sign`, the notification and the recorded reply, for a built
      transaction. */
  function SignedReply(t: Tools, project: Project, payment: Payment, a: Adapter): (r: Res<Form>)
    requires a.record == Some(project) && a.fields == ToMap(a.pairs)
    ensures var hash := HashOf(t, a.version, "afb", a.fields);
            r.Ok? <==> t.opensslSign(hash, Trim(project.bankClientKey), a.charset, "hex").Some?
    ensures r.Ok? ==>
              var url := if payment.state == Payed then payment.successTarget else payment.cancelTarget;
              && r.value.httpMethod == "POST" && r.value.url == url
              && r.value.payload == Some(t.stringifyQuery(Put(r.value.responseFields, "auto", "Y"), payment.charset))
              && r.value.responseHash == HashOf(t, a.version, "afb", a.fields)
              && Lookup(r.value.responseFields, "auto") == Some("N")
              && Lookup(r.value.responseFields, "mac").Some?
              && (forall k :: k != "mac" && k != "auto" ==> Lookup(r.value.responseFields, k) == Lookup(a.pairs, k))
              && (r.value.autoResponse.Sent? <==> payment.state == Payed && !IsLocalHost(t, url))
              && (r.value.autoResponse == LocalhostRefused <==> IsLocalHost(t, url))
  {
    var hash := HashOf(t, a.version, "afb", a.fields);
    match t.opensslSign(hash, Trim(project.bankClientKey), a.charset, "hex")
    case None => Err(SigningFailed)
    case Some(mac) =>
      var sent := Put(Put(a.pairs, "mac", mac), "auto", "Y");
      var recorded := Put(sent, "auto", "N");
      RecordedPairs(a.pairs, mac);
      var payload := t.stringifyQuery(sent, payment.charset);
      var url := if payment.state == Payed then payment.successTarget else payment.cancelTarget;
      var local := IsLocalHost(t, url);
      var auto := if payment.state == Payed && !local then Sent(url, "POST", if payload != "" then Some(payload) else None)
                  else if local then LocalhostRefused
                  else NotAttempted;
      Ok(Form("POST", url, Some(payload), recorded, hash, auto))
  }

  /** The signed fields as posted (`auto=Y`) and as recorded (`auto=N`):
      setting `auto` back to "Y" on the record gives what was posted. */
  lemma RecordedPairs(p: Pairs, mac: string)
    ensures var sent := Put(Put(p, "mac", mac), "auto", "Y");
            var recorded := Put(sent, "auto", "N");
            && Put(recorded, "auto", "Y") == sent
            && Lookup(recorded, "auto") == Some("N") && Lookup(recorded, "mac") == Some(mac)
            && forall k :: k != "mac" && k != "auto" ==> Lookup(recorded, k) == Lookup(p, k)
  {
    var m, a := "mac", "auto";
    assert |m| == 3 && |a| == 4;
    SignedThenRecorded(p, m, mac, a, "Y", "N");
  }

  /** Setting a signature, then a flag to `y`, then the flag to `n`. */
  lemma SignedThenRecorded(p: Pairs, macKey: string, mac: string, flagKey: string, y: string, n: string)
    requires macKey != flagKey
    ensures var sent := Put(Put(p, macKey, mac), flagKey, y);
            var recorded := Put(sent, flagKey, n);
            && Put(recorded, flagKey, y) == sent
            && Lookup(recorded, flagKey) == Some(n) && Lookup(recorded, macKey) == Some(mac)
            && forall k :: k != macKey && k != flagKey ==> Lookup(recorded, k) == Lookup(p, k)
  {
    var signed := Put(p, macKey, mac);
    PutTwice(signed, flagKey, y, n);
    PutTwice(signed, flagKey, n, y);
  }

  /** The recorded reply reproduces the signed string: its extra fields
      (`mac`, `auto`, the charset name) are outside the signature order. */
  lemma RecordedReplyHash(t: Tools, project: Project, payment: Payment, a: Adapter)
    requires a.record == Some(project) && a.fields == ToMap(a.pairs)
    requires Keys(a.pairs) == ReplyKeys || Keys(a.pairs) == ReplyKeys + ["charEncoding"]
    requires SignedReply(t, project, payment, a).Ok?
    ensures var r := SignedReply(t, project, payment, a).value;
            r.responseHash == HashOf(t, a.version, "afb", ToMap(r.responseFields))
  {
    var r := SignedReply(t, project, payment, a).value;
    var rf := r.responseFields;
    if KnownVersion(a.version) {
      assert SignatureOrder(a.version, "afb").value == AfbOrder;
      ReplyKeysDistinct();
      forall k | k in AfbOrder
        ensures JsString(a.fields, k) == JsString(ToMap(rf), k)
      {
        assert k != "mac" && k != "auto";
        SameReads(a.pairs, rf, k);
      }
      HashReadsOrder(t, a.version, "afb", a.fields, ToMap(rf));
    }
  }

  /** Two lists that agree on a key give their bags the same reading of it. */
  lemma SameReads(p: Pairs, q: Pairs, k: string)
    requires Lookup(q, k) == Lookup(p, k)
    ensures JsString(ToMap(p), k) == JsString(ToMap(q), k)
  {
    LookupSome(p, k);
    LookupSome(q, k);
  }

  /** `generateForm`: take a transaction number, build and sign the `afb`
      reply, post it to the merchant when paid, and record it with
      `auto=N`. A rejected payment goes to the cancel address. */
  function GenerateForm(t: Tools, config: Config, bank: Bank, project: Project, payment: Payment,
                        decision: Decision, counter: Option<nat>): (r: Res<Form>)
    ensures counter.None? ==> r == Err(CounterFailed)
    ensures r.Err? ==> r == Err(CounterFailed) || r == Err(SigningFailed)
    ensures r.Ok? ==>
              var url := if payment.state == Payed then payment.successTarget else payment.cancelTarget;
              && r.value.httpMethod == "POST" && r.value.url == url
              && r.value.payload == Some(t.stringifyQuery(Put(r.value.responseFields, "auto", "Y"), payment.charset))
              && Lookup(r.value.responseFields, "auto") == Some("N")
              && (r.value.autoResponse.Sent? <==> payment.state == Payed && !IsLocalHost(t, url))
              && (r.value.autoResponse == LocalhostRefused <==> IsLocalHost(t, url))
    ensures r.Ok? ==>
              var a := Transaction(config, bank, project, payment, decision, counter.value);
              && r.value.responseHash == HashOf(t, a.version, "afb", ToMap(r.value.responseFields))
              && (r.value.responseHash.Some? <==> KnownVersion(a.version))
              && Lookup(r.value.responseFields, "action") == Some("afb")
              && Lookup(r.value.responseFields, "respcode") == Some(if payment.state == Payed then "000" else "111")
              && Lookup(r.value.responseFields, "receipt_no")
                   == Some(if payment.state == Payed then NatToString(counter.value) else "0")
  {
    match counter
    case None => Err(CounterFailed)
    case Some(n) =>
      var a := Transaction(config, bank, project, payment, decision, n);
      var r := SignedReply(t, project, payment, a);
      if r.Ok? then
        RecordedReplyHash(t, project, payment, a);
        ReplyFieldValues(config, bank, project, payment, decision, n);
        ReplyKeepsFields(a, r.value.responseFields);
        r
      else r
  }

  /** A numeral has nothing to trim. */
  lemma NumeralTrimmed(s: string)
    requires IsNumeral(s)
    ensures Trim(s) == s
  {
    TrimOfTrimmed(s);
  }

  /** The action, response code and receipt number the transaction carries. */
  lemma ReplyFieldValues(config: Config, bank: Bank, project: Project, payment: Payment, decision: Decision, n: nat)
    ensures var a := Transaction(config, bank, project, payment, decision, n);
            && Lookup(a.pairs, "action") == Some("afb")
            && Lookup(a.pairs, "respcode") == Some(if payment.state == Payed then "000" else "111")
            && Lookup(a.pairs, "receipt_no") == Some(if payment.state == Payed then NatToString(n) else "0")
  {
    ReplyAction(config, bank, project, payment, decision, n);
    ReplyCode(config, bank, project, payment, decision, n);
    ReplyReceipt(config, bank, project, payment, decision, n);
  }

  lemma ReplyAction(config: Config, bank: Bank, project: Project, payment: Payment, decision: Decision, n: nat)
    ensures Lookup(Transaction(config, bank, project, payment, decision, n).pairs, "action") == Some("afb")
  {
    ReplyValueAt(ToMap(payment.fields), payment.state, decision, n);
    ReplyKeyNames();
    CodesTrimmed();
    TransactionField(config, bank, project, payment, decision, n, 0);
  }

  lemma ReplyCode(config: Config, bank: Bank, project: Project, payment: Payment, decision: Decision, n: nat)
    ensures Lookup(Transaction(config, bank, project, payment, decision, n).pairs, "respcode")
              == Some(if payment.state == Payed then "000" else "111")
  {
    var v := ReplyValues(ToMap(payment.fields), payment.state, decision, n);
    ReplyValueAt(ToMap(payment.fields), payment.state, decision, n);
    ReplyKeyNames();
    CodesTrimmed();
    assert Trim(v[7]) == v[7];
    TransactionField(config, bank, project, payment, decision, n, 7);
  }

  lemma ReplyReceipt(config: Config, bank: Bank, project: Project, payment: Payment, decision: Decision, n: nat)
    ensures Lookup(Transaction(config, bank, project, payment, decision, n).pairs, "receipt_no")
              == Some(if payment.state == Payed then NatToString(n) else "0")
  {
    var v := ReplyValues(ToMap(payment.fields), payment.state, decision, n);
    ReplyValueAt(ToMap(payment.fields), payment.state, decision, n);
    ReplyKeyNames();
    NumeralTrimmed(NatToString(n));
    CodesTrimmed();
    assert Trim(v[4]) == v[4];
    TransactionField(config, bank, project, payment, decision, n, 4);
  }

  lemma ReplyValueAt(pf: Fields, state: PaymentState, decision: Decision, n: nat)
    ensures var v := ReplyValues(pf, state, decision, n);
            && v[0] == "afb"
            && v[4] == (if state == Payed then NatToString(n) else "0")
            && v[7] == (if state == Payed then "000" else "111")
  {
  }

  lemma ReplyKeyNames()
    ensures ReplyKeys[0] == "action" && ReplyKeys[4] == "receipt_no" && ReplyKeys[7] == "respcode"
  {
  }

  /** The fixed reply values need no trimming. */
  lemma CodesTrimmed()
    ensures Trim("afb") == "afb" && Trim("000") == "000" && Trim("111") == "111" && Trim("0") == "0"
  {
    TrimOfTrimmed("afb");
    TrimOfTrimmed("000");
    TrimOfTrimmed("111");
    TrimOfTrimmed("0");
  }

  lemma TransactionField(config: Config, bank: Bank, project: Project, payment: Payment, decision: Decision, n: nat, i: nat)
    requires i < |ReplyKeys|
    ensures Lookup(Transaction(config, bank, project, payment, decision, n).pairs, ReplyKeys[i])
              == Some(Trim(ReplyValues(ToMap(payment.fields), payment.state, decision, n)[i]))
  {
    var a := Transaction(config, bank, project, payment, decision, n);
    ReplyField(a.pairs, ReplyValues(ToMap(payment.fields), payment.state, decision, n), i);
  }

  /** A list that starts with the reply keys finds each at its own place. */
  lemma ReplyField(pairs: Pairs, values: seq<string>, i: nat)
    requires |values| == |ReplyKeys| <= |pairs| && i < |ReplyKeys|
    requires forall j :: 0 <= j < |ReplyKeys| ==> pairs[j] == (ReplyKeys[j], Trim(values[j]))
    ensures Lookup(pairs, ReplyKeys[i]) == Some(Trim(values[i]))
  {
    ReplyKeysDistinct();
    LookupFirst(pairs, i);
  }

  /** Signing and recording leave the action, response code and receipt
      number as the transaction had them. */
  lemma ReplyKeepsFields(a: Adapter, reply: Pairs)
    requires forall k :: k != "mac" && k != "auto" ==> Lookup(reply, k) == Lookup(a.pairs, k)
    ensures Lookup(reply, "action") == Lookup(a.pairs, "action")
    ensures Lookup(reply, "respcode") == Lookup(a.pairs, "respcode")
    ensures Lookup(reply, "receipt_no") == Lookup(a.pairs, "receipt_no")
  {
    var k1, k2, k3 := "action", "respcode", "receipt_no";
    assert |k1| == 6 && |k2| == 8 && |k3| == 10;
    assert Lookup(reply, k1) == Lookup(a.pairs, k1);
    assert Lookup(reply, k2) == Lookup(a.pairs, k2);
    assert Lookup(reply, k3) == Lookup(a.pairs, k3);
  }
}

=== FILE: external.dfy ===
/** Collaborators the adapters call but whose code is not part of this model:
    the crypto backend, the `tools` helpers, URL/IBAN parsing and the
    query-string encoder. Each is a function-typed field, so every property
    proved below holds for whatever those collaborators compute. */
module External {
  import opened Text
  import opened FieldBag

  datatype Tools = Tools(
    /** `String.prototype.lpad(w)` on a value at least `w` long. */
    lpadLong: (string, nat) -> string,
    /** `String.prototype.rpad(w, " ")` on a value at least `w` long. */
    rpadLong: (string, nat) -> string,
    /** `tools.getReferenceCode`: the base number with its check digit appended. */
    referenceCode: string -> string,
    /** `tools.validateUrl`. */
    validateUrl: string -> bool,
    /** `tools.validateReturnURL`: the `VK_` query parameters a URL carries. */
    returnUrlVkParams: string -> seq<string>,
    /** `IBAN.isValid`. */
    ibanValid: string -> bool,
    /** `urllib.parse(url).query || ""`. */
    urlQuery: string -> string,
    /** `urllib.parse(url).hostname || ""`. */
    urlHostname: string -> string,
    /** `tools.stringifyQuery(fields, charset)`. */
    stringifyQuery: (Pairs, string) -> string,
    /** `crypto.createHash(algo).update(data).digest("hex")` on a string;
        `None` when it throws (an unknown algorithm). */
    hexDigest: (string, string) -> Option<string>,
    /** `tools.opensslVerify(data, signature, certificate, charset, encoding)`;
        `None` is the error callback. */
    opensslVerify: (Option<string>, string, string, string, string) -> Option<bool>,
    /** `tools.opensslSign(data, key, charset, encoding)`; `None` is the error callback. */
    opensslSign: (Option<string>, string, string, string) -> Option<string>,
    /** `new Buffer(value, "base64").length`. */
    base64Length: string -> nat,
    /** `Number(value) < bound` for a value that is not a plain numeral. */
    numberBelow: (string, nat) -> bool,
    /** `tools.languages[code]`. */
    languageName: string -> Option<string>,
    /** `((Number(eamount) || 0) / 100).toString()`. */
    centsToAmount: string -> string
  )

  /** `String(s).lpad(w)`: zeros on the left up to `w` characters. What it does
      to a longer value is the collaborator's business. */
  function LPad(t: Tools, s: string, w: nat): (r: string)
    ensures |s| <= w ==> |r| == w && r[w - |s|..] == s
    ensures |s| <= w ==> forall i :: 0 <= i < w - |s| ==> r[i] == '0'
  {
    if |s| <= w then Repeat('0', w - |s|) + s else t.lpadLong(s, w)
  }

  /** `String(s).rpad(w, " ")`: spaces on the right up to `w` characters. */
  function RPad(t: Tools, s: string, w: nat): (r: string)
    ensures |s| <= w ==> |r| == w && r[..|s|] == s
    ensures |s| <= w ==> forall i :: |s| <= i < w ==> r[i] == ' '
  {
    if |s| <= w then s + Repeat(' ', w - |s|) else t.rpadLong(s, w)
  }

  /** The regular expression `/^utf[\-_]?8$/i`. */
  predicate IsUtf8Name(charset: string)
  {
    var u := Upper(charset);
    u == "UTF8" || u == "UTF-8" || u == "UTF_8"
  }

  /** The regular expression `/^utf[\-_]?8/i` (no end anchor). */
  predicate StartsUtf8Name(charset: string)
  {
    var u := Upper(charset);
    StartsWith(u, "UTF8") || StartsWith(u, "UTF-8") || StartsWith(u, "UTF_8")
  }

  /** `/^localhost|127\.0\.0\.1$/` on the lower-cased, trimmed host name:
      the alternation binds the anchors to one side each. */
  predicate IsLocalHost(t: Tools, url: string)
  {
    var host := Trim(Lower(t.urlHostname(url)));
    StartsWith(host, "localhost") || EndsWith(host, "127.0.0.1")
  }

  /** `url += (url.match(/\?/) ? "&" : "?") + payload`. */
  function AppendQuery(url: string, payload: string): (r: string)
    ensures StartsWith(r, url) && EndsWith(r, payload)
    ensures |r| == |url| + 1 + |payload|
    ensures r[|url|] == (if '?' in url then '&' else '?')
  {
    var r := url + [if '?' in url then '&' else '?'] + payload;
    assert r[..|url|] == url;
    assert r[|r| - |payload|..] == payload;
    r
  }
}

=== FILE: fields.dfy ===
/** Field bags. Validators read a normalised bag as a map; anything whose key
    order is observable (a payload, a stored field list) is an ordered list of
    pairs, as a JavaScript object keeps its insertion order. */
module FieldBag {
  import opened Text

  type Fields = map<string, string>

  type Pairs = seq<(string, string)>

  /** `fields[key] || ""` on a normalised bag: a missing key reads as "". */
  function Get(f: Fields, key: string): string
  {
    if key in f then f[key] else ""
  }

  /** JavaScript's `a || b` on strings: the first one unless it is empty. */
  function Or(a: string, b: string): string
  {
    if a != "" then a else b
  }

  function Keys(p: Pairs): seq<string>
    ensures |Keys(p)| == |p|
    ensures forall i :: 0 <= i < |p| ==> Keys(p)[i] == p[i].0
  {
    if |p| == 0 then [] else [p[0].0] + Keys(p[1..])
  }

  predicate UniqueKeys(p: Pairs)
  {
    forall i, j :: 0 <= i < j < |p| ==> p[i].0 != p[j].0
  }

  function Lookup(p: Pairs, key: string): Option<string>
  {
    if |p| == 0 then None
    else if p[0].0 == key then Some(p[0].1)
    else Lookup(p[1..], key)
  }

  /** `object[key] = value`: an existing key keeps its place, a new key goes last. */
  function Put(p: Pairs, key: string, value: string): (r: Pairs)
    ensures Lookup(r, key) == Some(value)
    ensures forall k :: k != key ==> Lookup(r, k) == Lookup(p, k)
    ensures key in Keys(p) ==> Keys(r) == Keys(p)
    ensures key !in Keys(p) ==> Keys(r) == Keys(p) + [key]
  {
    if |p| == 0 then [(key, value)]
    else if p[0].0 == key then [(key, value)] + p[1..]
    else
      var rest := Put(p[1..], key, value);
      assert Keys(p) == [p[0].0] + Keys(p[1..]);
      [p[0]] + rest
  }

  /** The bag a JavaScript object with these own properties reads as. */
  function ToMap(p: Pairs): (m: Fields)
    ensures forall k :: k in m <==> k in Keys(p)
    ensures forall k :: k in m ==> Lookup(p, k) == Some(m[k])
  {
    if |p| == 0 then map[]
    else
      var rest := ToMap(p[1..]);
      assert Keys(p) == [p[0].0] + Keys(p[1..]);
      rest[p[0].0 := p[0].1]
  }

  /** Every pair whose value is non-empty, in order: how a form is built from
      the truthy entries of a key list. */
  function NonEmpty(p: Pairs): (r: Pairs)
    ensures forall i :: 0 <= i < |r| ==> r[i].1 != "" && r[i] in p
    ensures forall i :: 0 <= i < |p| && p[i].1 != "" ==> p[i] in r
  {
    if |p| == 0 then []
    else if p[0].1 == "" then NonEmpty(p[1..])
    else [p[0]] + NonEmpty(p[1..])
  }

  /** The first non-empty string of a list, or "" when all are empty: a chain
      of JavaScript `||` over strings. */
  function FirstNonEmpty(options: seq<string>): (r: string)
    ensures r == "" <==> forall i :: 0 <= i < |options| ==> options[i] == ""
    ensures r != "" ==> exists i :: 0 <= i < |options| && r == options[i]
                         && forall j :: 0 <= j < i ==> options[j] == ""
  {
    if |options| == 0 then ""
    else if options[0] != "" then options[0]
    else
      var r := FirstNonEmpty(options[1..]);
      assert forall i :: 1 <= i < |options| ==> options[i] == options[1..][i - 1];
      if r != "" then
        var i :| 0 <= i < |options[1..]| && r == options[1..][i] && forall j :: 0 <= j < i ==> options[1..][j] == "";
        assert r == options[i + 1];
        r
      else r
  }

  /** The values of `order`'s fields, in order; a missing field reads "". */
  function OrderedValues(f: Fields, order: seq<string>): (r: seq<string>)
    ensures |r| == |order|
    ensures forall i :: 0 <= i < |order| ==> r[i] == Get(f, order[i])
  {
    if |order| == 0 then [] else [Get(f, order[0])] + OrderedValues(f, order[1..])
  }

  /** Setting a property and then reading the bag as a map is the same as
      updating the map. */
  lemma ToMapPut(p: Pairs, key: string, value: string)
    ensures ToMap(Put(p, key, value)) == ToMap(p)[key := value]
  {
    var r := Put(p, key, value);
    var a := ToMap(r);
    var b := ToMap(p)[key := value];
    forall x | x in a
      ensures a[x] == b[x]
    {
      assert Lookup(r, x) == Some(a[x]);
      if x != key {
        assert Lookup(p, x) == Some(ToMap(p)[x]);
      }
    }
  }

  /** A property other than `key` reads the same after `key` is set. */
  lemma GetAfterPut(p: Pairs, key: string, value: string, other: string)
    requires other != key
    ensures Get(ToMap(Put(p, key, value)), other) == Get(ToMap(p), other)
  {
    ToMapPut(p, key, value);
  }

  /** An optional string, or `d` when there is none. */
  function ValueOr(o: Option<string>, d: string): string
  {
    if o.Some? then o.value else d
  }

  /** `a || rest` over a list of alternatives. */
  lemma FirstNonEmptyCons(a: string, rest: seq<string>)
    ensures FirstNonEmpty([a] + rest) == Or(a, FirstNonEmpty(rest))
  {
    assert ([a] + rest)[1..] == rest;
  }

  /** A key reads the value of its first occurrence. */
  lemma {:induction false} LookupFirst(p: Pairs, i: nat)
    requires i < |p| && forall j :: 0 <= j < i ==> p[j].0 != p[i].0
    ensures Lookup(p, p[i].0) == Some(p[i].1)
  {
    if i > 0 {
      assert p[1..][i - 1] == p[i];
      LookupFirst(p[1..], i - 1);
    }
  }

  /** Pairs each key with the value at the same position. */
  function Zip(keys: seq<string>, values: seq<string>): (r: Pairs)
    requires |keys| == |values|
    ensures |r| == |keys| && Keys(r) == keys
    ensures forall i :: 0 <= i < |keys| ==> r[i] == (keys[i], values[i])
  {
    if |keys| == 0 then [] else [(keys[0], values[0])] + Zip(keys[1..], values[1..])
  }

  /** `if (value) object[key] = value`. */
  function CopyOver(p: Pairs, key: string, value: string): (r: Pairs)
    ensures forall k :: k != key ==> Lookup(r, k) == Lookup(p, k)
    ensures value != "" ==> Lookup(r, key) == Some(value)
    ensures value == "" ==> r == p
  {
    if value != "" then Put(p, key, value) else p
  }

  /** A key has a value exactly when it is one of the keys. */
  lemma {:induction false} LookupSome(p: Pairs, k: string)
    ensures Lookup(p, k).Some? <==> k in Keys(p)
  {
    if |p| > 0 {
      LookupSome(p[1..], k);
      assert Keys(p) == [p[0].0] + Keys(p[1..]);
    }
  }

  /** Reading a key of the bag a list makes is looking it up in the list. */
  lemma GetToMap(p: Pairs, k: string)
    ensures Get(ToMap(p), k) == ValueOr(Lookup(p, k), "")
  {
    LookupSome(p, k);
  }

  /** In a list without repeated keys every pair is found by its key. */
  lemma LookupUnique(p: Pairs, i: nat)
    requires UniqueKeys(p) && i < |p|
    ensures Lookup(p, p[i].0) == Some(p[i].1)
  {
    LookupFirst(p, i);
  }

  /** A new property goes last. */
  lemma {:induction false} PutNew(p: Pairs, key: string, value: string)
    requires key !in Keys(p)
    ensures Put(p, key, value) == p + [(key, value)]
  {
    if |p| > 0 {
      assert Keys(p)[0] == p[0].0;
      assert forall i :: 0 <= i < |p| - 1 ==> Keys(p[1..])[i] == Keys(p)[i + 1];
      PutNew(p[1..], key, value);
      assert Put(p, key, value) == [p[0]] + Put(p[1..], key, value);
      assert p == [p[0]] + p[1..];
    }
  }

  /** Setting a property twice leaves the second value in the first one's place. */
  lemma {:induction false} PutTwice(p: Pairs, key: string, v1: string, v2: string)
    ensures Put(Put(p, key, v1), key, v2) == Put(p, key, v2)
  {
    if |p| > 0 && p[0].0 != key {
      PutTwice(p[1..], key, v1, v2);
      assert Put(p, key, v1)[1..] == Put(p[1..], key, v1);
    }
  }
}

=== FILE: ipizza.dfy ===
/** The iPizza protocol adapter (`lib/banks/ipizza.js`): the Baltic `VK_*`
    bank-link used by most Estonian banks. Requests carry service 1001 or
    1002; replies are 1101 (paid), 1901 (cancelled) or 1902 (rejected). */
module IPizza {
  import opened Text
  import opened FieldBag
  import opened External
  import opened Records
  import opened Normalize
  import opened Rules

  const Languages: seq<string> := ["EST", "ENG", "RUS", "LAT", "LIT", "FIN", "SWE"]
  const DefaultLanguage := "EST"
  const AllowedCurrencies: seq<string> := ["EUR", "LVL", "LTL"]

  function ServiceType(service: string): Option<string>
  {
    if service == "1001" || service == "1002" then Some("PAYMENT")
    else if service == "4001" || service == "4002" then Some("IDENTIFICATION")
    else None
  }

  /** The fields each request service is validated for, in validation order. */
  function ServiceFields(service: string): Option<seq<string>>
  {
    if service == "1001" then
      Some(["VK_SERVICE", "VK_VERSION", "VK_SND_ID", "VK_STAMP", "VK_AMOUNT", "VK_CURR", "VK_ACC", "VK_NAME",
            "VK_REF", "VK_MSG", "VK_MAC", "VK_RETURN", "VK_ENCODING", "VK_CHARSET", "VK_CANCEL", "VK_LANG"])
    else if service == "1002" then
      Some(["VK_SERVICE", "VK_VERSION", "VK_SND_ID", "VK_STAMP", "VK_AMOUNT", "VK_CURR",
            "VK_REF", "VK_MSG", "VK_MAC", "VK_RETURN", "VK_ENCODING", "VK_CHARSET", "VK_CANCEL", "VK_LANG"])
    else None
  }

  /** Fields a service must not carry: 1002 takes the receiver from the contract. */
  function BlockedFields(service: string): seq<string>
  {
    if service == "1002" then ["VK_ACC", "VK_NAME"] else []
  }

  /** The fields whose values the signing string covers, per service. */
  function SignatureOrder(service: string): Option<seq<string>>
  {
    if service == "1001" then
      Some(["VK_SERVICE", "VK_VERSION", "VK_SND_ID", "VK_STAMP", "VK_AMOUNT", "VK_CURR", "VK_ACC", "VK_NAME", "VK_REF", "VK_MSG"])
    else if service == "1002" then
      Some(["VK_SERVICE", "VK_VERSION", "VK_SND_ID", "VK_STAMP", "VK_AMOUNT", "VK_CURR", "VK_REF", "VK_MSG"])
    else if service == "1101" then
      Some(["VK_SERVICE", "VK_VERSION", "VK_SND_ID", "VK_REC_ID", "VK_STAMP", "VK_T_NO", "VK_AMOUNT", "VK_CURR",
            "VK_REC_ACC", "VK_REC_NAME", "VK_SND_ACC", "VK_SND_NAME", "VK_REF", "VK_MSG", "VK_T_DATE"])
    else if service == "1901" then
      Some(["VK_SERVICE", "VK_VERSION", "VK_SND_ID", "VK_REC_ID", "VK_STAMP", "VK_REF", "VK_MSG"])
    else if service == "1902" then
      Some(["VK_SERVICE", "VK_VERSION", "VK_SND_ID", "VK_REC_ID", "VK_STAMP", "VK_REF", "VK_MSG", "VK_ERROR_CODE"])
    else None
  }

  /** One inbound or outbound message: the normalised fields (in arrival order
      and as a map), the detected language and charset, the project found by
      `validateClient` and the last signing string computed. */
  datatype Adapter = Adapter(
    bank: Bank,
    pairs: Pairs,
    fields: Fields,
    language: string,
    charset: string,
    record: Option<Project>,
    sourceHash: Option<string>
  )

  /** `new IPizza(bank, fields, charset)`: normalise, then detect the language
      and, unless one is given, the charset. */
  function New(bank: Bank, config: Config, body: seq<(string, RawValue)>, charset: string): (a: Adapter)
    ensures IsNormalized(a.pairs) && a.fields == ToMap(a.pairs)
    ensures a.language in Languages
    ensures charset != "" ==> a.charset == charset
    ensures a.record.None? && a.sourceHash.None?
  {
    var pairs := NormalizeBody(body);
    NormalizeBodySpec(body);
    var f := ToMap(pairs);
    Adapter(bank, pairs, f, DetectLanguage(f), Or(charset, DetectCharset(bank, config, f)), None, None)
  }

  /** `VK_LANG` upper-cased when it is a supported language, otherwise EST. */
  function DetectLanguage(f: Fields): (r: string)
    ensures r in Languages
    ensures Upper(Get(f, "VK_LANG")) in Languages ==> r == Upper(Get(f, "VK_LANG"))
    ensures Upper(Get(f, "VK_LANG")) !in Languages ==> r == DefaultLanguage
  {
    var language := Upper(Or(Get(f, "VK_LANG"), "EST"));
    if language in Languages then language else DefaultLanguage
  }

  /** The bank's own charset field, then `VK_CHARSET`, then `VK_ENCODING`,
      then the bank's default, then the configured default. */
  function DetectCharset(bank: Bank, config: Config, f: Fields): (r: string)
    ensures r == FirstNonEmpty([Get(f, JsKey(bank.charset)), Get(f, "VK_CHARSET"), Get(f, "VK_ENCODING"),
                                bank.defaultCharset, config.ipizzaCharset])
  {
    var d := Or(bank.defaultCharset, config.ipizzaCharset);
    FirstNonEmptyCons(config.ipizzaCharset, []);
    FirstNonEmptyCons(bank.defaultCharset, [config.ipizzaCharset]);
    FirstNonEmptyCons(Get(f, "VK_ENCODING"), [bank.defaultCharset, config.ipizzaCharset]);
    FirstNonEmptyCons(Get(f, "VK_CHARSET"), [Get(f, "VK_ENCODING"), bank.defaultCharset, config.ipizzaCharset]);
    FirstNonEmptyCons(Get(f, JsKey(bank.charset)), [Get(f, "VK_CHARSET"), Get(f, "VK_ENCODING"), bank.defaultCharset, config.ipizzaCharset]);
    Or(Get(f, JsKey(bank.charset)), Or(Get(f, "VK_CHARSET"), Or(Get(f, "VK_ENCODING"), d)))
  }

  // ---------------------------------------------------------------------
  // The signing string

  /** Whether lengths are counted in UTF-8 bytes rather than UTF-16 code
      units. */
  predicate CountsBytes(bank: Bank, charset: string)
  {
    bank.utf8length == "bytes" && IsUtf8Name(charset)
  }

  /** The length the signing string records for a value. */
  function MeasuredLength(bank: Bank, charset: string, v: string): nat
  {
    if CountsBytes(bank, charset) then Utf8Length(v) else Utf16Length(v)
  }

  /** One value preceded by its length, zero-padded to three digits. */
  function Entry(t: Tools, n: nat, v: string): string
  {
    LPad(t, NatToString(n), 3) + v
  }

  function Entries(t: Tools, bank: Bank, charset: string, vals: seq<string>): string
  {
    if |vals| == 0 then "" else Entry(t, MeasuredLength(bank, charset, vals[0]), vals[0]) + Entries(t, bank, charset, vals[1..])
  }

  /** `calculateHash`: the length-prefixed values of the service's signature
      fields with no separator; `None` (`false`) for a service without one. */
  function CalculateHash(t: Tools, bank: Bank, charset: string, f: Fields): (r: Option<string>)
    ensures r.Some? <==> SignatureOrder(Get(f, "VK_SERVICE")).Some?
  {
    match SignatureOrder(Get(f, "VK_SERVICE"))
    case None => None
    case Some(order) => Some(Entries(t, bank, charset, OrderedValues(f, order)))
  }

  /** The total length the signing string should have when every length fits
      in three digits. */
  function EntriesSize(vals: seq<string>): nat
  {
    if |vals| == 0 then 0 else 3 + |vals[0]| + EntriesSize(vals[1..])
  }

  predicate ShortValues(bank: Bank, charset: string, vals: seq<string>)
  {
    forall i :: 0 <= i < |vals| ==> MeasuredLength(bank, charset, vals[i]) < 1000
  }

  /** A length below 1000 is written as exactly three digits. */
  lemma PaddedLength(t: Tools, n: nat)
    requires n < 1000
    ensures var p := LPad(t, NatToString(n), 3);
              |p| == 3 && AllDigits(p) && DecimalValue(p) == n
  {
    NatToStringBelow1000(n);
    var s := NatToString(n);
    var p := LPad(t, s, 3);
    assert p == Repeat('0', 3 - |s|) + s;
    DecimalLeadingZeros(3 - |s|, s);
    DecimalOfNatToString(n);
  }

  /** With every length below 1000, each value adds three characters plus
      itself to the signing string. */
  lemma {:induction false} EntriesLength(t: Tools, bank: Bank, charset: string, vals: seq<string>)
    requires ShortValues(bank, charset, vals)
    ensures |Entries(t, bank, charset, vals)| == EntriesSize(vals)
  {
    if |vals| > 0 {
      PaddedLength(t, MeasuredLength(bank, charset, vals[0]));
      EntriesLength(t, bank, charset, vals[1..]);
    }
  }

  /** How much one character adds to the recorded length. */
  function MeasuredWidth(bank: Bank, charset: string, c: char): nat
  {
    if CountsBytes(bank, charset) then Utf8Width(c) else Utf16Width(c)
  }

  /** A recorded length is the sum of the widths of the characters. */
  lemma MeasuredLengthCons(bank: Bank, charset: string, v: string)
    requires |v| > 0
    ensures MeasuredLength(bank, charset, v) == MeasuredWidth(bank, charset, v[0]) + MeasuredLength(bank, charset, v[1..])
    ensures MeasuredWidth(bank, charset, v[0]) >= 1
  {
  }

  /** The number of characters at the start of `s` whose recorded length is
      `len`; `None` when no prefix measures exactly `len`. */
  function TakeMeasured(bank: Bank, charset: string, s: string, len: nat): (r: Option<nat>)
    ensures r.Some? ==> r.value <= |s| && MeasuredLength(bank, charset, s[..r.value]) == len
    decreases |s|
  {
    if len == 0 then Some(0)
    else if |s| == 0 then None
    else
      var w := MeasuredWidth(bank, charset, s[0]);
      if w > len then None
      else
        match TakeMeasured(bank, charset, s[1..], len - w)
        case None => None
        case Some(k) =>
          assert s[..k + 1][1..] == s[1..][..k];
          MeasuredLengthCons(bank, charset, s[..k + 1]);
          Some(k + 1)
  }

  /** Every character counts, so the only prefix of `v + rest` that measures
      as much as `v` is `v` itself. */
  lemma {:induction false} TakeMeasuredValue(bank: Bank, charset: string, v: string, rest: string)
    ensures TakeMeasured(bank, charset, v + rest, MeasuredLength(bank, charset, v)) == Some(|v|)
  {
    if |v| > 0 {
      MeasuredLengthCons(bank, charset, v);
      assert (v + rest)[1..] == v[1..] + rest;
      TakeMeasuredValue(bank, charset, v[1..], rest);
    }
  }

  /** Reading `n` length-prefixed values back from a signing string: three
      digits give the recorded length, in the bank's unit, of the value that
      follows. */
  function ReadEntries(bank: Bank, charset: string, s: string, n: nat): Option<seq<string>>
    decreases n
  {
    if n == 0 then (if |s| == 0 then Some([]) else None)
    else if |s| < 3 || !AllDigits(s[..3]) then None
    else
      match TakeMeasured(bank, charset, s[3..], DecimalValue(s[..3]))
      case None => None
      case Some(k) =>
        match ReadEntries(bank, charset, s[3 + k..], n - 1)
        case None => None
        case Some(rest) => Some([s[3..3 + k]] + rest)
  }

  /** When every recorded length fits in three digits, the signing string
      determines the values it was built from, whether lengths are counted in
      UTF-8 bytes or in UTF-16 code units. */
  lemma {:induction false} EntriesRoundTrip(t: Tools, bank: Bank, charset: string, vals: seq<string>)
    requires ShortValues(bank, charset, vals)
    ensures ReadEntries(bank, charset, Entries(t, bank, charset, vals), |vals|) == Some(vals)
  {
    if |vals| > 0 {
      var v := vals[0];
      var len := MeasuredLength(bank, charset, v);
      var s := Entries(t, bank, charset, vals);
      var p := LPad(t, NatToString(len), 3);
      PaddedLength(t, len);
      var rest := Entries(t, bank, charset, vals[1..]);
      assert s == p + (v + rest);
      assert s[..3] == p;
      assert s[3..] == v + rest;
      TakeMeasuredValue(bank, charset, v, rest);
      assert s[3..3 + |v|] == v;
      assert s[3 + |v|..] == rest;
      assert ShortValues(bank, charset, vals[1..]) by {
        forall i | 0 <= i < |vals[1..]| ensures MeasuredLength(bank, charset, vals[1..][i]) < 1000 {
          assert vals[1..][i] == vals[i + 1];
        }
      }
      EntriesRoundTrip(t, bank, charset, vals[1..]);
      assert [v] + vals[1..] == vals;
    }
  }

  /** An ASCII value is as long in bytes as in characters, so byte counting
      only matters for non-ASCII text. */
  lemma AsciiMeasuredLength(bank: Bank, charset: string, v: string)
    requires forall i :: 0 <= i < |v| ==> IsAscii(v[i])
    ensures MeasuredLength(bank, charset, v) == |v|
  {
    Utf8LengthBounds(v);
    Utf16LengthBounds(v);
  }

  /** Counting UTF-16 code units, a value is recorded as longer than its
      character count exactly when it holds a character outside the Basic
      Multilingual Plane: such a character is a surrogate pair. */
  lemma SurrogatePairsCountTwice(bank: Bank, charset: string, v: string)
    requires !CountsBytes(bank, charset)
    ensures |v| <= MeasuredLength(bank, charset, v) <= 2 * |v|
    ensures MeasuredLength(bank, charset, v) == |v| <==> forall i :: 0 <= i < |v| ==> v[i] as int < 0x10000
  {
    Utf16LengthBounds(v);
  }

  /** The signing string ignores every field outside the service's order. */
  lemma HashIgnoresOtherFields(t: Tools, bank: Bank, charset: string, p: Pairs, key: string, value: string)
    requires key != "VK_SERVICE"
    requires var service := Get(ToMap(p), "VK_SERVICE");
             SignatureOrder(service).Some? ==> key !in SignatureOrder(service).value
    ensures CalculateHash(t, bank, charset, ToMap(Put(p, key, value))) == CalculateHash(t, bank, charset, ToMap(p))
  {
    var f := ToMap(p);
    var g := ToMap(Put(p, key, value));
    GetAfterPut(p, key, value, "VK_SERVICE");
    var service := Get(f, "VK_SERVICE");
    if SignatureOrder(service).Some? {
      OrderedValuesAfterPut(p, key, value, SignatureOrder(service).value);
    }
  }

  /** Setting a key outside `order` leaves the ordered values as they were. */
  lemma OrderedValuesAfterPut(p: Pairs, key: string, value: string, order: seq<string>)
    requires key !in order
    ensures OrderedValues(ToMap(Put(p, key, value)), order) == OrderedValues(ToMap(p), order)
  {
    forall i | 0 <= i < |order|
      ensures Get(ToMap(Put(p, key, value)), order[i]) == Get(ToMap(p), order[i])
    {
      GetAfterPut(p, key, value, order[i]);
    }
  }

  // ---------------------------------------------------------------------
  // Field validation

  /** The service check run before anything else. */
  function ServiceReason(bank: Bank, f: Fields): (r: Option<Reason>)
    ensures r.None? <==> (Get(f, "VK_SERVICE") == "1001" || Get(f, "VK_SERVICE") == "1002")
                         && (bank.allowedServices.Some? ==> Get(f, "VK_SERVICE") in bank.allowedServices.value)
    ensures r.None? ==> ServiceFields(Get(f, "VK_SERVICE")).Some?
  {
    var v := Get(f, "VK_SERVICE");
    if v == "" then Some(Missing)
    else if !(|v| == 4 && AllDigits(v)) then Some(NotFourDigits)
    else if ServiceFields(v).None? || (bank.allowedServices.Some? && v !in bank.allowedServices.value) then Some(Unsupported)
    else None
  }

  predicate IsBase64Char(c: char)
  {
    c == '-' || IsAsciiLetter(c) || IsDigit(c) || c == '+' || c == '/'
  }

  /** `s[i..j]` is a run of characters of the class `[^\-A-Za-z0-9+\/]`. */
  predicate OutsideRun(s: string, i: int, j: int)
    requires 0 <= i <= j <= |s|
  {
    forall k :: i <= k < j ==> !IsBase64Char(s[k])
  }

  /** The pattern `[^\-A-Za-z0-9+\/]+(={0,2})?$` read literally: somewhere a
      non-empty run outside the class, then at most two `=`, then the end. */
  predicate MacPattern(s: string)
  {
    exists i, j :: 0 <= i < j <= |s| && OutsideRun(s, i, j) && s[j..] in {"", "=", "=="}
  }

  /** What the pattern actually accepts: a value whose last character is not a
      base64 letter (`=` included, since it is outside the class). An
      unpadded base64 value is refused and `"%%%%"` is accepted. */
  lemma MacPatternMeaning(s: string)
    ensures MacPattern(s) <==> |s| > 0 && !IsBase64Char(s[|s| - 1])
  {
    if |s| > 0 && !IsBase64Char(s[|s| - 1]) {
      assert OutsideRun(s, |s| - 1, |s|) && s[|s|..] == "";
    }
    if MacPattern(s) {
      var i, j :| 0 <= i < j <= |s| && OutsideRun(s, i, j) && s[j..] in {"", "=", "=="};
      if j < |s| {
        assert s[|s| - 1] == '=';
      } else {
        assert !IsBase64Char(s[j - 1]);
      }
    }
  }

  /** `validate_VK_ENCODING` and `validate_VK_CHARSET`: a charset parameter is
      accepted only under the name the bank uses and only with an allowed value;
      an empty one is an error carrying `forceCharset` when the bank forces one. */
  function CharsetCheck(bank: Bank, param: string, allowed: seq<string>, v: string): (c: Check)
    ensures c.warnings == []
    ensures v != "" && c.error.None? ==> bank.charset == Some(param) && Upper(v) in allowed
  {
    if v == "" && bank.charset == Some(param) && bank.forceCharset != "" then Fail(ForcedCharset(bank.forceCharset))
    else if v == "" then Pass
    else if bank.charset.None? || bank.charset.value == "" then Fail(CharsetParamNotSupported)
    else if bank.charset.value != param then Fail(CharsetParamWrongName(bank.charset.value))
    else if Upper(v) !in allowed then Fail(CharsetNotAllowed)
    else Pass
  }

  /** `value && tools.validateReturnURL(value) || []`. */
  function VkParams(t: Tools, v: string): seq<string>
  {
    if v != "" then t.returnUrlVkParams(v) else []
  }

  /** The `validate_<field>` method for one field. */
  function FieldCheck(bank: Bank, config: Config, t: Tools, f: Fields, field: string): (c: Check)
    ensures AllAbout(c.warnings, field)
    ensures forall i :: 0 <= i < |c.warnings| ==> !c.warnings[i].reason.FieldNotAllowed?
  {
    var v := Get(f, field);
    if field == "VK_SERVICE" then
      Check([], ServiceReason(bank, f))
    else if field == "VK_VERSION" then
      if v == "" then Fail(Missing) else if v != "008" then Fail(WrongValue("008")) else Pass
    else if field == "VK_SND_ID" || field == "VK_NAME" then
      if v == "" then Fail(Missing) else Pass
    else if field == "VK_STAMP" then
      if v == "" then Fail(Missing) else if !AllDigits(v) then Fail(NotNumeric) else Pass
    else if field == "VK_AMOUNT" then
      if v == "" then Fail(Missing) else if !IsAmount(v) then Fail(BadAmount) else Pass
    else if field == "VK_CURR" then
      if v == "" then Fail(Missing) else if v !in AllowedCurrencies then Fail(UnknownCurrency) else Pass
    else if field == "VK_ACC" then
      if v == "" then Fail(Missing)
      else if !t.ibanValid(v) then Check([Issue(field, v, NotIban)], None)
      else Pass
    else if field == "VK_REF" then
      ReferenceCheck(t, v)
    else if field == "VK_RETURN" then
      if v == "" then Fail(Missing)
      else if |VkParams(t, v)| > 0 then Fail(ReturnUrlHasVkParams(VkParams(t, v)))
      else if bank.disallowQueryParams && |t.urlQuery(v)| > 0 then Check([Issue(field, v, QueryParamsNotAllowed)], None)
      else Pass
    else if field == "VK_CANCEL" then
      Check(if "VK_CANCEL" in f && bank.cancelAddress != Some("VK_CANCEL") then [Issue(field, v, CancelAddressNotSupported)] else [],
            if v != "" && |VkParams(t, v)| > 0 then Some(ReturnUrlHasVkParams(VkParams(t, v))) else None)
    else if field == "VK_ENCODING" then
      CharsetCheck(bank, "VK_ENCODING",
                   if bank.allowedCharsets.Some? then bank.allowedCharsets.value else [Or(bank.defaultCharset, config.ipizzaCharset)], v)
    else if field == "VK_CHARSET" then
      CharsetCheck(bank, "VK_CHARSET", if bank.allowedCharsets.Some? then bank.allowedCharsets.value else ["ISO-8859-1"], v)
    else if field == "VK_LANG" then
      if v != "" && Trim(Upper(v)) !in Languages then Fail(UnknownLanguage) else Pass
    else if field == "VK_MAC" then
      if v == "" then Fail(Missing)
      else if !MacPattern(v) then Fail(NotBase64)
      else if t.base64Length(v) % 128 != 0 then Fail(BadKeyLength(t.base64Length(v) * 8))
      else Pass
    else
      Pass
  }

  /** The field matches the bank's pattern for it, if there is one. */
  predicate MatchesPattern(bank: Bank, field: string, v: string)
  {
    field !in bank.fieldRegex || bank.fieldRegex[field](v)
  }

  /** A field passes when its validator finds no error and the bank's pattern
      matches; the pattern is not consulted for an over-long value. */
  predicate FieldAccepted(bank: Bank, config: Config, t: Tools, f: Fields, field: string)
  {
    FieldCheck(bank, config, t, f, field).error.None?
    && (!WithinLength(bank, field, Get(f, field)) || MatchesPattern(bank, field, Get(f, field)))
  }

  /** One iteration of the field loop of `validateFields`. */
  function FieldReport(bank: Bank, config: Config, t: Tools, f: Fields, field: string): (r: Report)
    ensures r.Success() <==> FieldAccepted(bank, config, t, f, field)
    ensures |r.errors| <= 1
    ensures AllAbout(r.errors, field) && AllAbout(r.warnings, field)
    ensures forall i :: 0 <= i < |r.warnings| ==> !r.warnings[i].reason.FieldNotAllowed?
    ensures FieldCheck(bank, config, t, f, field).error.None? && !WithinLength(bank, field, Get(f, field))
            ==> r.Success() && Issue(field, Get(f, field), TooLong(Utf16Length(Get(f, field)), bank.fieldLength[field])) in r.warnings
  {
    var c := FieldCheck(bank, config, t, f, field);
    var v := Get(f, field);
    if c.error.Some? then Report([Issue(field, v, c.error.value)], c.warnings)
    else if !WithinLength(bank, field, v) then Report([], c.warnings + [Issue(field, v, TooLong(Utf16Length(v), bank.fieldLength[field]))])
    else if !MatchesPattern(bank, field, v) then Report([Issue(field, v, InvalidCharacters)], c.warnings)
    else Report([], c.warnings)
  }

  /** The field loop: each field's issues in list order. */
  function FieldsReport(bank: Bank, config: Config, t: Tools, f: Fields, list: seq<string>): (r: Report)
    ensures r.Success() <==> forall i :: 0 <= i < |list| ==> FieldAccepted(bank, config, t, f, list[i])
    ensures AllAboutSome(r.errors, list) && AllAboutSome(r.warnings, list)
    ensures forall i :: 0 <= i < |r.warnings| ==> !r.warnings[i].reason.FieldNotAllowed?
  {
    if |list| == 0 then NoIssues
    else
      var head := FieldReport(bank, config, t, f, list[0]);
      var rest := FieldsReport(bank, config, t, f, list[1..]);
      assert forall i :: 1 <= i < |list| ==> list[i] == list[1..][i - 1];
      head.Then(rest)
  }

  /** One warning per blocked field that carries a value. */
  function BlockedReport(f: Fields, service: string, list: seq<string>): (r: Report)
    ensures r.errors == []
    ensures forall i :: 0 <= i < |r.warnings| ==>
              r.warnings[i].reason == FieldNotAllowed(service) && r.warnings[i].field in list
              && r.warnings[i].value == Get(f, r.warnings[i].field) != ""
    ensures forall b :: b in list && Get(f, b) != "" ==> Issue(b, Get(f, b), FieldNotAllowed(service)) in r.warnings
  {
    if |list| == 0 then NoIssues
    else
      var rest := BlockedReport(f, service, list[1..]);
      if Get(f, list[0]) != "" then Report([], [Issue(list[0], Get(f, list[0]), FieldNotAllowed(service))]).Then(rest)
      else rest
  }

  /** `IPizzaValidator.validateFields`. */
  function ValidateFields(bank: Bank, config: Config, t: Tools, f: Fields): (r: Report)
    ensures ServiceReason(bank, f).Some? ==>
              r == Report([Issue("VK_SERVICE", Get(f, "VK_SERVICE"), ServiceReason(bank, f).value)], [])
    ensures ServiceReason(bank, f).None? ==>
              var list := ServiceFields(Get(f, "VK_SERVICE")).value;
              && (r.Success() <==> forall i :: 0 <= i < |list| ==> FieldAccepted(bank, config, t, f, list[i]))
              && AllAboutSome(r.errors, list)
  {
    var service := Get(f, "VK_SERVICE");
    match ServiceReason(bank, f)
    case Some(reason) => Report([Issue("VK_SERVICE", service, reason)], [])
    case None =>
      FieldsReport(bank, config, t, f, ServiceFields(service).value).Then(BlockedReport(f, service, BlockedFields(service)))
  }

  /** For a valid service, a blocked field draws a warning exactly when it
      carries a value, and never an error. */
  lemma BlockedFieldsWarn(bank: Bank, config: Config, t: Tools, f: Fields, b: string)
    requires ServiceReason(bank, f).None?
    requires b in BlockedFields(Get(f, "VK_SERVICE"))
    ensures var r := ValidateFields(bank, config, t, f);
            Issue(b, Get(f, b), FieldNotAllowed(Get(f, "VK_SERVICE"))) in r.warnings <==> Get(f, b) != ""
  {
    var service := Get(f, "VK_SERVICE");
    var a := FieldsReport(bank, config, t, f, ServiceFields(service).value);
    var c := BlockedReport(f, service, BlockedFields(service));
    var w := Issue(b, Get(f, b), FieldNotAllowed(service));
    assert ValidateFields(bank, config, t, f).warnings == a.warnings + c.warnings;
  }

  // ---------------------------------------------------------------------
  // The pipeline stages

  /** `validateClient`: the project registered under `VK_SND_ID` must exist
      and belong to this bank. `lookup` is the store's answer for that uid. */
  function ValidateClient(a: Adapter, lookup: StoreAnswer<Project>): (r: Res<(Adapter, Report)>)
    ensures lookup.StoreError? <==> r.Err?
    ensures r.Ok? ==> (r.value.1.Success() <==> lookup.Found? && lookup.value.bank == a.bank.key)
    ensures r.Ok? ==> r.value.1.warnings == [] && AllAbout(r.value.1.errors, "VK_SND_ID")
    ensures r.Ok? && r.value.1.Success() ==> r.value.0 == a.(record := Some(lookup.value))
    ensures r.Ok? && !r.value.1.Success() ==> r.value.0 == a
  {
    var uid := Get(a.fields, "VK_SND_ID");
    match lookup
    case StoreError => Err(StoreFailed)
    case NotFound => Ok((a, Report([Issue("VK_SND_ID", uid, ClientNotFound)], [])))
    case Found(p) =>
      if a.bank.key != p.bank then Ok((a, Report([Issue("VK_SND_ID", uid, BankMismatch(p.bank))], [])))
      else Ok((a.(record := Some(p)), NoIssues))
  }

  /** `validateSignature`: the signing string is verified against `VK_MAC`
      with the project's certificate. */
  function ValidateSignature(a: Adapter, t: Tools): (r: Res<(Adapter, Report)>)
    ensures a.record.None? ==> r.Err?
    ensures r.Ok? ==> r.value.0 == a.(sourceHash := CalculateHash(t, a.bank, a.charset, a.fields))
    ensures r.Ok? ==> (r.value.1.Success() <==>
              t.opensslVerify(CalculateHash(t, a.bank, a.charset, a.fields), Get(a.fields, "VK_MAC"),
                              Trim(a.record.value.userCertificate), a.charset, "") == Some(true))
  {
    match a.record
    case None => Err(Threw("this.record is undefined"))
    case Some(p) =>
      var hash := CalculateHash(t, a.bank, a.charset, a.fields);
      var b := a.(sourceHash := hash);
      match t.opensslVerify(hash, Get(a.fields, "VK_MAC"), Trim(p.userCertificate), a.charset, "")
      case None => Err(SigningFailed)
      case Some(ok) =>
        Ok((b, if ok then NoIssues else Report([Issue("VK_MAC", Get(a.fields, "VK_MAC"), SignatureMismatch)], [])))
  }

  /** `validateRequest`. */
  function ValidateRequest(a: Adapter, config: Config, t: Tools): (r: Report)
    ensures r.Success() <==> ServiceReason(a.bank, a.fields).None?
                             && forall i :: 0 <= i < |ServiceFields(Get(a.fields, "VK_SERVICE")).value| ==>
                                  FieldAccepted(a.bank, config, t, a.fields, ServiceFields(Get(a.fields, "VK_SERVICE")).value[i])
  {
    ValidateFields(a.bank, config, t, a.fields)
  }

  function GetUid(a: Adapter): string { Get(a.fields, "VK_SND_ID") }

  /** The receiver: the contract's for 1002 (which needs the project), the
      request's otherwise. */
  function ReceiverName(a: Adapter): (r: Res<Option<string>>)
    ensures Get(a.fields, "VK_SERVICE") != "1002" ==> r == Ok(OrFalse(Get(a.fields, "VK_NAME")))
    ensures Get(a.fields, "VK_SERVICE") == "1002" ==> (r.Ok? <==> a.record.Some?)
  {
    if Get(a.fields, "VK_SERVICE") == "1002" then
      match a.record
      case None => Err(Threw("this.record is undefined"))
      case Some(p) => Ok(Some(Or(p.ipizzaReceiverName, p.name)))
    else Ok(OrFalse(Get(a.fields, "VK_NAME")))
  }

  function ReceiverAccount(a: Adapter): (r: Res<Option<string>>)
    ensures Get(a.fields, "VK_SERVICE") != "1002" ==> r == Ok(OrFalse(Get(a.fields, "VK_ACC")))
    ensures Get(a.fields, "VK_SERVICE") == "1002" ==> (r.Ok? <==> a.record.Some?)
  {
    if Get(a.fields, "VK_SERVICE") == "1002" then
      match a.record
      case None => Err(Threw("this.record is undefined"))
      case Some(p) => Ok(Some(Or(p.ipizzaReceiverAccount, a.bank.accountNr)))
    else Ok(OrFalse(Get(a.fields, "VK_ACC")))
  }

  /** The three return addresses: cancel and reject fall back to the return
      address when the bank has no separate field or it is empty. */
  function Targets(a: Adapter): (r: (string, string, string))
    ensures r.0 == Get(a.fields, JsKey(a.bank.returnAddress))
    ensures r.1 == FirstNonEmpty([Get(a.fields, JsKey(a.bank.cancelAddress)), r.0])
    ensures r.2 == FirstNonEmpty([Get(a.fields, JsKey(a.bank.rejectAddress)), r.0])
  {
    var success := Get(a.fields, JsKey(a.bank.returnAddress));
    var cancel := Or(Get(a.fields, JsKey(a.bank.cancelAddress)), success);
    var reject := Or(Get(a.fields, JsKey(a.bank.rejectAddress)), success);
    assert [Get(a.fields, JsKey(a.bank.cancelAddress)), success][1..] == [success];
    assert [Get(a.fields, JsKey(a.bank.rejectAddress)), success][1..] == [success];
    (success, cancel, reject)
  }

  const Screen := Display(true, false, true, false, true, true)

  /** The getters `logPayment` reads. */
  function Describe(a: Adapter, t: Tools): (r: Res<Summary>)
    ensures r.Ok? ==> r.value.amount == Or(Get(a.fields, "VK_AMOUNT"), "0")
                      && r.value.currency == Or(Get(a.fields, "VK_CURR"), "EUR")
                      && r.value.paymentType == ServiceType(Get(a.fields, "VK_SERVICE"))
                      && r.value.hash == a.sourceHash
    ensures r.Ok? <==> Get(a.fields, "VK_SERVICE") != "1002" || a.record.Some?
  {
    var targets := Targets(a);
    match ReceiverName(a)
    case Err(e) => Err(e)
    case Ok(name) =>
      match ReceiverAccount(a)
      case Err(e) => Err(e)
      case Ok(account) =>
        Ok(Summary(a.charset, Or(ValueOr(t.languageName(a.language), ""), "et"), ServiceType(Get(a.fields, "VK_SERVICE")),
                   Or(Get(a.fields, "VK_AMOUNT"), "0"), OrFalse(Get(a.fields, "VK_REF")), name, account,
                   OrFalse(Get(a.fields, "VK_MSG")), Or(Get(a.fields, "VK_CURR"), "EUR"),
                   targets.0, targets.1, targets.2, Screen, a.sourceHash))
  }

  // ---------------------------------------------------------------------
  // The reply

  /** The reply's service code for a payment state. */
  function ReplyService(state: PaymentState): string
  {
    if state == Payed then "1101" else if state == Rejected then "1902" else "1901"
  }

  /** The reply's signature fields, which are also its fields. */
  function ReplyOrder(state: PaymentState): (r: seq<string>)
    ensures SignatureOrder(ReplyService(state)) == Some(r)
    ensures |r| >= 7 && r[0] == "VK_SERVICE" && r[1] == "VK_VERSION" && r[2] == "VK_SND_ID" && r[3] == "VK_REC_ID"
    ensures state == Rejected ==> |r| == 8 && r[4] == "VK_STAMP" && r[5] == "VK_REF" && r[6] == "VK_MSG" && r[7] == "VK_ERROR_CODE"
  {
    if state == Payed then
      ["VK_SERVICE", "VK_VERSION", "VK_SND_ID", "VK_REC_ID", "VK_STAMP", "VK_T_NO", "VK_AMOUNT", "VK_CURR",
       "VK_REC_ACC", "VK_REC_NAME", "VK_SND_ACC", "VK_SND_NAME", "VK_REF", "VK_MSG", "VK_T_DATE"]
    else if state == Rejected then
      ["VK_SERVICE", "VK_VERSION", "VK_SND_ID", "VK_REC_ID", "VK_STAMP", "VK_REF", "VK_MSG", "VK_ERROR_CODE"]
    else
      ["VK_SERVICE", "VK_VERSION", "VK_SND_ID", "VK_REC_ID", "VK_STAMP", "VK_REF", "VK_MSG"]
  }

  /** The reply fields before the charset, language, signature and `VK_AUTO`
      are added, named as the reply's signature fields. */
  function ReplyFields(bankId: string, project: Project, state: PaymentState, pf: Fields, decision: Decision,
                       transactionId: nat, today: string): (r: Pairs)
    ensures |r| == |ReplyOrder(state)| && forall i :: 0 <= i < |r| ==> r[i].0 == ReplyOrder(state)[i]
    ensures r[0].1 == ReplyService(state) && r[3].1 == Get(pf, "VK_SND_ID")
    ensures state == Rejected ==> r[7].1 == "1234"
  {
    if state == Payed then
      [("VK_SERVICE", "1101"), ("VK_VERSION", "008"), ("VK_SND_ID", bankId), ("VK_REC_ID", Get(pf, "VK_SND_ID")),
       ("VK_STAMP", Get(pf, "VK_STAMP")), ("VK_T_NO", NatToString(transactionId)), ("VK_AMOUNT", Get(pf, "VK_AMOUNT")),
       ("VK_CURR", Get(pf, "VK_CURR")), ("VK_REC_ACC", Or(Get(pf, "VK_ACC"), project.ipizzaReceiverAccount)),
       ("VK_REC_NAME", Or(Get(pf, "VK_NAME"), project.ipizzaReceiverName)), ("VK_SND_ACC", decision.senderAccount),
       ("VK_SND_NAME", decision.senderName), ("VK_REF", Get(pf, "VK_REF")), ("VK_MSG", Get(pf, "VK_MSG")),
       ("VK_T_DATE", today)]
    else if state == Rejected then
      [("VK_SERVICE", "1902"), ("VK_VERSION", "008"), ("VK_SND_ID", bankId), ("VK_REC_ID", Get(pf, "VK_SND_ID")),
       ("VK_STAMP", Get(pf, "VK_STAMP")), ("VK_REF", Get(pf, "VK_REF")), ("VK_MSG", Get(pf, "VK_MSG")),
       ("VK_ERROR_CODE", "1234")]
    else
      [("VK_SERVICE", "1901"), ("VK_VERSION", "008"), ("VK_SND_ID", bankId), ("VK_REC_ID", Get(pf, "VK_SND_ID")),
       ("VK_STAMP", Get(pf, "VK_STAMP")), ("VK_REF", Get(pf, "VK_REF")), ("VK_MSG", Get(pf, "VK_MSG"))]
  }

  /** The reply fields with their values trimmed, as the constructor's
      normalisation leaves them. */
  function TrimmedReply(bank: Bank, project: Project, payment: Payment, decision: Decision,
                        transactionId: nat, today: string): (r: Pairs)
    ensures Lookup(r, "VK_SERVICE") == Some(ReplyService(payment.state))
    ensures Lookup(r, "VK_REC_ID") == Some(Trim(Get(ToMap(payment.fields), "VK_SND_ID")))
    ensures payment.state == Rejected ==> Lookup(r, "VK_ERROR_CODE") == Some("1234")
  {
    var fields := ReplyFields(bank.id, project, payment.state, ToMap(payment.fields), decision, transactionId, today);
    FixedValuesTrimmed(payment.state);
    var order := ReplyOrder(payment.state);
    assert fields[0].0 == order[0] && fields[1].0 == order[1] && fields[2].0 == order[2] && fields[3].0 == order[3];
    assert payment.state == Rejected ==> fields[4].0 == order[4] && fields[5].0 == order[5] && fields[6].0 == order[6] && fields[7].0 == order[7];
    ServiceLookup(fields);
    ReceiverLookup(fields);
    if payment.state == Rejected then ErrorCodeLookup(fields); TrimValues(fields) else TrimValues(fields)
  }

  /** The service code and the error code need no trimming. */
  lemma FixedValuesTrimmed(state: PaymentState)
    ensures Trim(ReplyService(state)) == ReplyService(state) && Trim("1234") == "1234"
  {
    TrimOfTrimmed(ReplyService(state));
    TrimOfTrimmed("1234");
  }

  /** A reply reads its service from the first position. */
  lemma ServiceLookup(p: Pairs)
    requires |p| >= 1 && p[0].0 == "VK_SERVICE"
    ensures Lookup(TrimValues(p), "VK_SERVICE") == Some(Trim(p[0].1))
  {
    LookupTrimmed(p, 0);
  }

  /** A reply reads its receiver from the fourth position. */
  lemma ReceiverLookup(p: Pairs)
    requires |p| >= 4 && p[0].0 == "VK_SERVICE" && p[1].0 == "VK_VERSION" && p[2].0 == "VK_SND_ID" && p[3].0 == "VK_REC_ID"
    ensures Lookup(TrimValues(p), "VK_REC_ID") == Some(Trim(p[3].1))
  {
    LookupTrimmed(p, 3);
  }

  /** A rejection reply reads its error code from the eighth position. */
  lemma ErrorCodeLookup(p: Pairs)
    requires |p| >= 8 && p[0].0 == "VK_SERVICE" && p[1].0 == "VK_VERSION" && p[2].0 == "VK_SND_ID" && p[3].0 == "VK_REC_ID"
    requires p[4].0 == "VK_STAMP" && p[5].0 == "VK_REF" && p[6].0 == "VK_MSG" && p[7].0 == "VK_ERROR_CODE"
    ensures Lookup(TrimValues(p), "VK_ERROR_CODE") == Some(Trim(p[7].1))
  {
    LookupTrimmed(p, 7);
  }

  lemma LookupTrimmed(p: Pairs, i: nat)
    requires i < |p| && forall j :: 0 <= j < i ==> p[j].0 != p[i].0
    ensures Lookup(TrimValues(p), p[i].0) == Some(Trim(p[i].1))
  {
    LookupFirst(TrimValues(p), i);
  }

  /** The reply before the signature: the trimmed fields plus the request's
      charset field and `VK_LANG`, copied over when they carry a value. */
  function UnsignedReply(bank: Bank, project: Project, payment: Payment, decision: Decision,
                         transactionId: nat, today: string): (r: Pairs)
    ensures JsKey(bank.charset) != "VK_SERVICE" ==> Lookup(r, "VK_SERVICE") == Some(ReplyService(payment.state))
    ensures JsKey(bank.charset) != "VK_REC_ID" ==> Lookup(r, "VK_REC_ID") == Some(Trim(Get(ToMap(payment.fields), "VK_SND_ID")))
    ensures payment.state == Rejected && JsKey(bank.charset) != "VK_ERROR_CODE" ==> Lookup(r, "VK_ERROR_CODE") == Some("1234")
  {
    var pf := ToMap(payment.fields);
    var base := TrimmedReply(bank, project, payment, decision, transactionId, today);
    CopyOver(CopyOver(base, JsKey(bank.charset), Get(pf, JsKey(bank.charset))), "VK_LANG", Get(pf, "VK_LANG"))
  }

  /** The outbound request: the target, plus the payload when the bank
      returns with GET; a paid payment whose target is not local is posted to
      the merchant directly. */
  function Notification(t: Tools, bank: Bank, payment: Payment, payload: string): (r: (AutoResponse, Option<string>))
    ensures r.0.Sent? <==> payment.state == Payed && !IsLocalHost(t, StateTarget(payment))
    ensures r.0.Sent? && r.0.httpMethod == "GET" ==> r.0.url == AppendQuery(StateTarget(payment), payload) && r.0.payload.None?
    ensures r.1.None? <==> bank.returnMethod == "GET"
  {
    var returnMethod := Or(bank.returnMethod, "POST");
    var target := StateTarget(payment);
    var fetchUrl := if returnMethod == "GET" then AppendQuery(target, payload) else target;
    var formPayload := if returnMethod == "GET" then None else Some(payload);
    var local := IsLocalHost(t, target);
    (if payment.state == Payed && !local then Sent(fetchUrl, returnMethod, formPayload)
     else if local then LocalhostRefused
     else NotAttempted,
     formPayload)
  }

  /** `IPizza.generateForm`: build the reply for the decided payment, sign it
      with the bank's key, notify the merchant server-to-server for a paid
      payment whose target is not local, and send the browser back with POST. */
  function GenerateForm(t: Tools, config: Config, bank: Bank, project: Project, payment: Payment, decision: Decision,
                        counter: Option<nat>, today: string): (r: Res<Form>)
    ensures counter.None? ==> r == Err(CounterFailed)
    ensures r.Ok? ==> r.value.httpMethod == "POST" && r.value.url == StateTarget(payment)
    ensures r.Ok? ==> Lookup(r.value.responseFields, "VK_AUTO") == Some("N")
    ensures r.Ok? && JsKey(bank.charset) != "VK_SERVICE" ==>
              Lookup(r.value.responseFields, "VK_SERVICE") == Some(ReplyService(payment.state))
    ensures r.Ok? && JsKey(bank.charset) != "VK_REC_ID" ==>
              Lookup(r.value.responseFields, "VK_REC_ID") == Some(Trim(Get(ToMap(payment.fields), "VK_SND_ID")))
    ensures r.Ok? && payment.charset != "" ==>
              r.value.responseHash == CalculateHash(t, bank, payment.charset, ToMap(r.value.responseFields))
    ensures r.Ok? ==> (r.value.autoResponse.Sent? <==> payment.state == Payed && !IsLocalHost(t, StateTarget(payment)))
  {
    match counter
    case None => Err(CounterFailed)
    case Some(transactionId) =>
      var base := TrimmedReply(bank, project, payment, decision, transactionId, today);
      var charset := Or(payment.charset, DetectCharset(bank, config, ToMap(base)));
      var unsigned := UnsignedReply(bank, project, payment, decision, transactionId, today);
      var hash := CalculateHash(t, bank, charset, ToMap(unsigned));
      match t.opensslSign(hash, Trim(project.bankClientKey), charset, "")
      case None => Err(SigningFailed)
      case Some(signature) =>
        var auto := Put(Put(unsigned, "VK_MAC", signature), "VK_AUTO", "Y");
        var sent := Notification(t, bank, payment, t.stringifyQuery(auto, payment.charset));
        ReplyFieldsSigned(t, bank, unsigned, signature, charset);
        SignedReplyLookups(unsigned, signature);
        Ok(Form("POST", StateTarget(payment), sent.1, Put(auto, "VK_AUTO", "N"), hash, sent.0))
  }

  /** The recorded reply reads `VK_AUTO` as N and its service and receiver
      as the unsigned reply has them. */
  lemma SignedReplyLookups(unsigned: Pairs, signature: string)
    ensures var response := Put(Put(Put(unsigned, "VK_MAC", signature), "VK_AUTO", "Y"), "VK_AUTO", "N");
            && Lookup(response, "VK_AUTO") == Some("N")
            && Lookup(response, "VK_SERVICE") == Lookup(unsigned, "VK_SERVICE")
            && Lookup(response, "VK_REC_ID") == Lookup(unsigned, "VK_REC_ID")
  {
    var mac, auto, service, receiver := "VK_MAC", "VK_AUTO", "VK_SERVICE", "VK_REC_ID";
    assert |mac| == 6 && |auto| == 7 && |service| == 10 && |receiver| == 9;
    PutThriceOthers(unsigned, mac, signature, auto, "Y", "N", service);
    PutThriceOthers(unsigned, mac, signature, auto, "Y", "N", receiver);
  }

  lemma PutThriceOthers(p: Pairs, key1: string, v1: string, key2: string, v2: string, v3: string, k: string)
    requires k != key1 && k != key2
    ensures Lookup(Put(Put(Put(p, key1, v1), key2, v2), key2, v3), k) == Lookup(p, k)
  {
  }

  /** Neither the signature nor `VK_AUTO` is part of any signing string. */
  lemma ExtraKeysUnsigned(service: string)
    ensures SignatureOrder(service).Some? ==>
              "VK_MAC" !in SignatureOrder(service).value && "VK_AUTO" !in SignatureOrder(service).value
  {
  }

  /** Adding the signature and `VK_AUTO` does not change the signing string,
      so the recorded hash is the hash of the recorded reply. */
  lemma ReplyFieldsSigned(t: Tools, bank: Bank, unsigned: Pairs, signature: string, charset: string)
    ensures var response := Put(Put(Put(unsigned, "VK_MAC", signature), "VK_AUTO", "Y"), "VK_AUTO", "N");
            CalculateHash(t, bank, charset, ToMap(unsigned)) == CalculateHash(t, bank, charset, ToMap(response))
  {
    var signed := Put(unsigned, "VK_MAC", signature);
    var auto := Put(signed, "VK_AUTO", "Y");
    var service := Get(ToMap(unsigned), "VK_SERVICE");
    ExtraKeysUnsigned(service);
    GetAfterPut(unsigned, "VK_MAC", signature, "VK_SERVICE");
    GetAfterPut(signed, "VK_AUTO", "Y", "VK_SERVICE");
    HashIgnoresOtherFields(t, bank, charset, unsigned, "VK_MAC", signature);
    HashIgnoresOtherFields(t, bank, charset, signed, "VK_AUTO", "Y");
    HashIgnoresOtherFields(t, bank, charset, auto, "VK_AUTO", "N");
  }
}

=== FILE: normalize.dfy ===
/** The field normaliser every adapter runs first (`normalizeValues`): each
    value becomes its trimmed string form, falsy values become "", and the
    number zero becomes "0". */
module Normalize {
  import opened Text
  import opened FieldBag

  /** An inbound value as the body parser delivers it. */
  datatype RawValue =
    | RawString(s: string)
    | RawInt(n: int)
    | RawBool(b: bool)
    | RawList(items: seq<string>)
    | RawNull

  /** `Number.prototype.toString` on an integer. */
  function IntToString(n: int): (r: string)
    ensures n >= 0 ==> r == NatToString(n)
    ensures n < 0 ==> r == "-" + NatToString(-n)
  {
    if n >= 0 then NatToString(n) else "-" + NatToString(-n)
  }

  /** JavaScript truthiness of the raw value. */
  predicate Truthy(v: RawValue)
  {
    match v
    case RawString(s) => s != ""
    case RawInt(n) => n != 0
    case RawBool(b) => b
    case RawList(_) => true
    case RawNull => false
  }

  /** `value.toString()`. */
  function ToJsString(v: RawValue): string
  {
    match v
    case RawString(s) => s
    case RawInt(n) => IntToString(n)
    case RawBool(b) => if b then "true" else "false"
    case RawList(items) => Join(items, ",")
    case RawNull => "null"
  }

  /** One step of `normalizeValues`. */
  function NormalizeValue(v: RawValue): string
  {
    if Truthy(v) || v == RawInt(0) then Trim(ToJsString(v)) else ""
  }

  /** The normalised value is always trimmed; falsy values other than the
      number zero become "", zero becomes "0", and a string is trimmed. */
  lemma NormalizeValueSpec(v: RawValue)
    ensures IsTrimmed(NormalizeValue(v))
    ensures !Truthy(v) && v != RawInt(0) ==> NormalizeValue(v) == ""
    ensures v == RawInt(0) ==> NormalizeValue(v) == "0"
    ensures v.RawString? ==> NormalizeValue(v) == Trim(v.s)
    ensures v.RawInt? && v.n > 0 ==> NormalizeValue(v) == NatToString(v.n)
  {
    if v.RawInt? {
      var s := IntToString(v.n);
      assert IsCanonicalNumeral(NatToString(if v.n >= 0 then v.n else -v.n));
      if v.n >= 0 {
        assert !IsSpace(s[0]) && !IsSpace(s[|s| - 1]);
        TrimOfTrimmed(s);
      }
    }
  }

  /** Normalising an already normalised value changes nothing. */
  lemma {:induction false} NormalizeIdempotent(v: RawValue)
    ensures NormalizeValue(RawString(NormalizeValue(v))) == NormalizeValue(v)
  {
    var n := NormalizeValue(v);
    NormalizeValueSpec(v);
    if n != "" {
      TrimOfTrimmed(n);
    }
  }

  /** `normalizeValues` over a whole body: keys and their order are kept. */
  function NormalizeBody(body: seq<(string, RawValue)>): (r: Pairs)
    ensures |r| == |body|
    ensures forall i :: 0 <= i < |body| ==> r[i] == (body[i].0, NormalizeValue(body[i].1))
  {
    if |body| == 0 then [] else [(body[0].0, NormalizeValue(body[0].1))] + NormalizeBody(body[1..])
  }

  predicate IsNormalized(p: Pairs)
  {
    forall i :: 0 <= i < |p| ==> IsTrimmed(p[i].1)
  }

  /** Every value of a normalised body is trimmed, and the keys are exactly
      the body's keys in the body's order. */
  lemma NormalizeBodySpec(body: seq<(string, RawValue)>)
    ensures IsNormalized(NormalizeBody(body))
    ensures forall i :: 0 <= i < |body| ==> NormalizeBody(body)[i].0 == body[i].0
  {
    forall i | 0 <= i < |body| {
      NormalizeValueSpec(body[i].1);
    }
  }

  /** A normalised bag read as a map: every value is trimmed. */
  lemma NormalizedMap(p: Pairs)
    requires IsNormalized(p)
    ensures forall k :: k in ToMap(p) ==> IsTrimmed(ToMap(p)[k])
  {
    forall k | k in ToMap(p)
      ensures IsTrimmed(ToMap(p)[k])
    {
      LookupIn(p, k, ToMap(p)[k]);
    }
  }

  lemma {:induction false} LookupIn(p: Pairs, k: string, v: string)
    requires Lookup(p, k) == Some(v)
    ensures exists i :: 0 <= i < |p| && p[i] == (k, v)
  {
    if p[0].0 != k {
      LookupIn(p[1..], k, v);
      var i :| 0 <= i < |p[1..]| && p[1..][i] == (k, v);
      assert p[i + 1] == (k, v);
    }
  }

  /** `normalizeValues` on a stored field list, whose values are all strings:
      every value is trimmed. */
  function TrimValues(p: Pairs): (r: Pairs)
    ensures |r| == |p|
    ensures forall i :: 0 <= i < |p| ==> r[i] == (p[i].0, Trim(p[i].1))
  {
    if |p| == 0 then [] else [(p[0].0, Trim(p[0].1))] + TrimValues(p[1..])
  }

  /** A stored field list handed back to a constructor: every value is a string. */
  function StoredBody(p: Pairs): (r: seq<(string, RawValue)>)
    ensures |r| == |p|
    ensures forall i :: 0 <= i < |p| ==> r[i] == (p[i].0, RawString(p[i].1))
  {
    if |p| == 0 then [] else [(p[0].0, RawString(p[0].1))] + StoredBody(p[1..])
  }

  /** Normalising a stored list trims its values and nothing else. */
  lemma NormalizeStored(p: Pairs)
    ensures NormalizeBody(StoredBody(p)) == TrimValues(p)
  {
    forall i | 0 <= i < |p|
      ensures NormalizeValue(RawString(p[i].1)) == Trim(p[i].1)
    {
      if p[i].1 == "" {
        TrimOfTrimmed("");
      }
    }
  }
}

=== FILE: records.dfy ===
/** The records every adapter and the orchestrator share: bank definitions,
    merchant projects, validation reports, payments and outbound forms. */
module Records {
  import opened Text
  import opened FieldBag

  /** A bank definition from the static bank table. Optional settings that
      the source reads with `||` are "" when absent; settings whose absence
      the source treats differently are `Option`s. */
  datatype Bank = Bank(
    key: string,
    name: string,
    /** The bank's own identifier, sent as `VK_SND_ID` in replies. */
    id: string,
    /** The field that carries the charset (`bank.charset`). */
    charset: Option<string>,
    defaultCharset: string,
    allowedCharsets: Option<seq<string>>,
    forceCharset: string,
    /** Recommended maximum lengths; 0 means no limit. */
    fieldLength: map<string, nat>,
    /** Per-field regular expressions, as predicates. */
    fieldRegex: map<string, string -> bool>,
    allowedServices: Option<seq<string>>,
    utf8length: string,
    returnAddress: Option<string>,
    cancelAddress: Option<string>,
    rejectAddress: Option<string>,
    returnMethod: string,
    disallowQueryParams: bool,
    accountNr: string,
    allowGet: bool
  )

  /** A property name as JavaScript computes it: an undefined name reads the
      property "undefined". */
  function JsKey(name: Option<string>): string
  {
    match name
    case Some(n) => n
    case None => "undefined"
  }

  /** The configured default charsets, one per protocol family. */
  datatype Config = Config(
    ipizzaCharset: string,
    soloCharset: string,
    aabCharset: string,
    ecCharset: string
  )

  /** A merchant project, as the provisioning subsystem stored it. */
  datatype Project = Project(
    id: string,
    uid: string,
    bank: string,
    name: string,
    secret: string,
    soloAlgo: string,
    aabAlgo: string,
    soloAutoResponse: bool,
    ecUrl: string,
    ipizzaReceiverName: string,
    ipizzaReceiverAccount: string,
    userCertificate: string,
    bankClientKey: string
  )

  /** A store lookup: found, not found, or the store reported an error. */
  datatype StoreAnswer<+T> = Found(value: T) | NotFound | StoreError

  /** Why a field was flagged. */
  datatype Reason =
    | Missing
    | NotFourDigits
    | Unsupported
    | WrongValue(expected: string)
    | NotNumeric
    | BadAmount
    | UnknownCurrency
    | NotIban
    | BadReferenceFormat
    | BadReferenceChecksum(expected: string)
    | ReturnUrlHasVkParams(params: seq<string>)
    | QueryParamsNotAllowed
    | CancelAddressNotSupported
    | ForcedCharset(charset: string)
    | CharsetParamNotSupported
    | CharsetParamWrongName(expected: string)
    | CharsetNotAllowed
    | UnknownLanguage
    | NotBase64
    | BadKeyLength(bits: nat)
    | TooLong(length: nat, limit: nat)
    | InvalidCharacters
    | FieldNotAllowed(service: string)
    | NotUpperHex
    | LooksLikeSha1
    | LooksLikeMd5
    | NotOneDigit
    | MissingForVersion(version: string)
    | MessageTooLong(length: nat)
    | BadUrl
    | PrefixRequired
    | PrefixForbidden
    | Deprecated
    | ValueTooSmall
    | NotHex
    | BadDateTime
    | BadCurrencyFormat
    | NotAllowedInVersion(version: string)
    | RequiredInVersion(version: string)
    | BadDelivery
    | AlreadyUsed
    | ClientNotFound
    | BankMismatch(registeredBank: string)
    | SignatureMismatch
    | PostOnly
    | GetDiscouraged
    | NoBanklinkData
    | StorageFailure

  datatype Issue = Issue(field: string, value: string, reason: Reason)

  /** The errors (blocking) and warnings (advisory) a validation collected. */
  datatype Report = Report(errors: seq<Issue>, warnings: seq<Issue>)
  {
    /** `success: !errors.length`. */
    predicate Success() { |errors| == 0 }

    /** This report's issues followed by `other`'s. */
    function Then(other: Report): Report
    {
      Report(errors + other.errors, warnings + other.warnings)
    }
  }

  const NoIssues := Report([], [])

  /** What one field validator produced: the warnings it pushed while running
      and the error it returned, if any. */
  datatype Check = Check(warnings: seq<Issue>, error: Option<Reason>)

  const Pass := Check([], None)

  function Fail(r: Reason): Check { Check([], Some(r)) }

  /** Every issue of the list is reported against `field`. */
  predicate AllAbout(issues: seq<Issue>, field: string)
  {
    forall i :: 0 <= i < |issues| ==> issues[i].field == field
  }

  /** Every issue of the list is reported against one of `fields`. */
  predicate AllAboutSome(issues: seq<Issue>, fields: seq<string>)
  {
    forall i :: 0 <= i < |issues| ==> issues[i].field in fields
  }

  /** The lifecycle state of a payment. */
  datatype PaymentState = ErrorState | InProcess | Payed | Cancelled | Rejected

  function StateName(s: PaymentState): string
  {
    match s
    case ErrorState => "ERROR"
    case InProcess => "IN PROCESS"
    case Payed => "PAYED"
    case Cancelled => "CANCELLED"
    case Rejected => "REJECTED"
  }

  predicate IsFinal(s: PaymentState) { s == Payed || s == Cancelled || s == Rejected }

  /** The merchant's decision form (`options` of `makePayment`). */
  datatype Decision = Decision(pay: string, cancel: string, reject: string, senderName: string, senderAccount: string)

  /** What became of the server-to-server notification: only whether it was
      sent, where and how; its reply is not modelled. */
  datatype AutoResponse =
    | NotAttempted
    | LocalhostRefused
    | Sent(url: string, httpMethod: string, payload: Option<string>)

  /** The outcome of `generateForm`: the browser-facing redirect and what was
      recorded on the payment. */
  datatype Form = Form(
    httpMethod: string,
    url: string,
    payload: Option<string>,
    responseFields: Pairs,
    responseHash: Option<string>,
    autoResponse: AutoResponse
  )

  /** Why an asynchronous step failed or a synchronous one threw. */
  datatype Failure =
    | CounterFailed
    | SigningFailed
    | StoreFailed
    | ReplayStoreFailed
    | Threw(what: string)

  datatype Res<+T> = Ok(value: T) | Err(failure: Failure)

  /** Which sender and receiver fields the payment page shows and lets the
      tester edit. */
  datatype Display = Display(
    editSenderName: bool,
    showSenderName: bool,
    editSenderAccount: bool,
    showSenderAccount: bool,
    showReceiverName: bool,
    showReceiverAccount: bool
  )

  /** The values an adapter's getters report for the payment log. */
  datatype Summary = Summary(
    charset: string,
    language: string,
    paymentType: Option<string>,
    amount: string,
    referenceCode: Option<string>,
    receiverName: Option<string>,
    receiverAccount: Option<string>,
    message: Option<string>,
    currency: string,
    successTarget: string,
    cancelTarget: string,
    rejectTarget: string,
    display: Display,
    hash: Option<string>
  )

  /** A falsy string getter (`value || false`). */
  function OrFalse(s: string): Option<string>
  {
    if s == "" then None else Some(s)
  }

  /** A stored payment, as `logPayment` shapes it and `makePayment` updates it. */
  datatype Payment = Payment(
    id: string,
    project: string,
    date: string,
    state: PaymentState,
    done: bool,
    bank: string,
    charset: string,
    language: string,
    paymentType: Option<string>,
    amount: string,
    referenceCode: Option<string>,
    receiverName: Option<string>,
    receiverAccount: Option<string>,
    message: Option<string>,
    currency: string,
    successTarget: string,
    cancelTarget: string,
    rejectTarget: string,
    display: Display,
    senderName: string,
    senderAccount: string,
    url: string,
    autoSubmit: bool,
    httpMethod: string,
    errors: seq<Issue>,
    warnings: seq<Issue>,
    headers: Pairs,
    fields: Pairs,
    hash: Option<string>,
    decision: Option<Decision>,
    response: Option<Form>
  )
}

=== FILE: routes.dfy ===
/** The pure helpers of the web routes: the authorised-users list, paging,
    the project form's validation rules and the project uid. */
module Routes {
  import opened Text
  import opened External

  // ---------------------------------------------------------------------
  // processAuthorized

  /** What `processAuthorized` receives: a text area's contents (one entry
      per line) or an already-processed list. */
  datatype Authorized = AsText(text: string) | AsList(lines: seq<string>)

  function Lines(a: Authorized): seq<string>
  {
    match a
    case AsText(s) => Split(Trim(s), '\n')
    case AsList(l) => l
  }

  /** `line.toLowerCase().trim()`. */
  function Clean(line: string): string
  {
    Trim(Lower(line))
  }

  /** An entry as the list keeps it: non-empty, lower-case, trimmed. */
  predicate IsClean(s: string)
  {
    s != "" && IsLower(s) && Trim(s) == s
  }

  predicate Distinct(s: seq<string>)
  {
    forall i, j :: 0 <= i < j < |s| ==> s[i] != s[j]
  }

  /** A cleaned line that is not empty is clean, and cleaning a clean entry
      changes nothing. */
  lemma CleanIsClean(line: string)
    ensures Clean(line) != "" ==> IsClean(Clean(line))
    ensures IsClean(line) ==> Clean(line) == line
  {
    var l := Lower(line);
    LowerIsLower(line);
    TrimSlice(l);
    TrimIdempotent(l);
    if IsClean(line) {
      LowerIsLower(line);
    }
  }

  /** The non-empty cleaned lines, each kept at its first occurrence. */
  function Collect(lines: seq<string>): (r: seq<string>)
    ensures forall i :: 0 <= i < |r| ==> IsClean(r[i])
    ensures Distinct(r)
    ensures |r| <= |lines|
    decreases |lines|
  {
    if |lines| == 0 then []
    else
      var d := Collect(lines[..|lines| - 1]);
      var x := Clean(lines[|lines| - 1]);
      CleanIsClean(lines[|lines| - 1]);
      if x == "" || x in d then d else d + [x]
  }

  /** Every line, cleaned. */
  function Cleaned(lines: seq<string>): (r: seq<string>)
    ensures |r| == |lines|
    ensures forall i :: 0 <= i < |lines| ==> r[i] == Clean(lines[i])
  {
    if |lines| == 0 then [] else Cleaned(lines[..|lines| - 1]) + [Clean(lines[|lines| - 1])]
  }

  /** The collected entries are exactly the non-empty cleaned lines. */
  lemma {:induction false} CollectMembers(lines: seq<string>, x: string)
    ensures x in Collect(lines) <==> x != "" && x in Cleaned(lines)
    decreases |lines|
  {
    if |lines| > 0 {
      var n := |lines| - 1;
      CollectMembers(lines[..n], x);
      assert Cleaned(lines) == Cleaned(lines[..n]) + [Clean(lines[n])];
    }
  }

  /** A list that is already clean and free of duplicates is collected
      unchanged. */
  lemma {:induction false} CollectClean(s: seq<string>)
    requires forall i :: 0 <= i < |s| ==> IsClean(s[i])
    requires Distinct(s)
    ensures Collect(s) == s
    decreases |s|
  {
    if |s| > 0 {
      var n := |s| - 1;
      var init := s[..n];
      assert Collect(init) == init by {
        CleanPrefix(s, n);
        CollectClean(init);
      }
      assert Clean(s[n]) == s[n] != "" && s[n] !in init by {
        CleanPrefix(s, n);
        CleanIsClean(s[n]);
      }
      CollectNew(s);
      SplitLast(s);
    }
  }

  lemma SplitLast<T>(s: seq<T>)
    requires |s| > 0
    ensures s == s[..|s| - 1] + [s[|s| - 1]]
  {
  }

  /** A last line that cleans to a new entry is appended. */
  lemma CollectNew(lines: seq<string>)
    requires |lines| > 0
    requires Clean(lines[|lines| - 1]) != "" && Clean(lines[|lines| - 1]) !in Collect(lines[..|lines| - 1])
    ensures Collect(lines) == Collect(lines[..|lines| - 1]) + [Clean(lines[|lines| - 1])]
  {
  }

  /** A prefix of a clean list without duplicates is one too, and does not
      hold the entry that follows it. */
  lemma CleanPrefix(s: seq<string>, n: nat)
    requires forall i :: 0 <= i < |s| ==> IsClean(s[i])
    requires Distinct(s) && n < |s|
    ensures forall i :: 0 <= i < n ==> IsClean(s[..n][i])
    ensures Distinct(s[..n]) && s[n] !in s[..n] && IsClean(s[n])
  {
    assert forall k :: 0 <= k < n ==> s[..n][k] == s[k];
  }

  /** Code-point order on strings, the stand-in for `localeCompare`. */
  predicate StrLe(a: string, b: string)
  {
    |a| == 0 || (|b| > 0 && (a[0] < b[0] || (a[0] == b[0] && StrLe(a[1..], b[1..]))))
  }

  lemma {:induction false} StrLeReflexive(a: string)
    ensures StrLe(a, a)
  {
    if |a| > 0 {
      StrLeReflexive(a[1..]);
    }
  }

  lemma {:induction false} StrLeTotal(a: string, b: string)
    ensures StrLe(a, b) || StrLe(b, a)
  {
    if |a| > 0 && |b| > 0 && a[0] == b[0] {
      StrLeTotal(a[1..], b[1..]);
    }
  }

  lemma {:induction false} StrLeAntisymmetric(a: string, b: string)
    requires StrLe(a, b) && StrLe(b, a)
    ensures a == b
  {
    if |a| > 0 {
      StrLeAntisymmetric(a[1..], b[1..]);
      assert a == [a[0]] + a[1..] && b == [b[0]] + b[1..];
    }
  }

  lemma {:induction false} StrLeTransitive(a: string, b: string, c: string)
    requires StrLe(a, b) && StrLe(b, c)
    ensures StrLe(a, c)
  {
    if |a| > 0 && a[0] == b[0] && b[0] == c[0] {
      StrLeTransitive(a[1..], b[1..], c[1..]);
    }
  }

  /** `entry.split("@")[1]`, absent when the entry holds no "@". */
  function Domain(s: string): Option<string>
  {
    var parts := Split(s, '@');
    if |parts| >= 2 then Some(parts[1]) else None
  }

  /** `entry.split("@")[0]`. */
  function LocalPart(s: string): string
  {
    Split(s, '@')[0]
  }

  /** Domains in code-point order; an entry without a domain sorts first. */
  predicate DomainLe(a: Option<string>, b: Option<string>)
  {
    a.None? || (b.Some? && StrLe(a.value, b.value))
  }

  /** The comparator: by domain, then by local part. */
  predicate EntryLe(a: string, b: string)
  {
    if Domain(a) != Domain(b) then DomainLe(Domain(a), Domain(b)) else StrLe(LocalPart(a), LocalPart(b))
  }

  lemma EntryLeTotal(a: string, b: string)
    ensures EntryLe(a, b) || EntryLe(b, a)
  {
    var da, db := Domain(a), Domain(b);
    if da.Some? && db.Some? {
      StrLeTotal(da.value, db.value);
    }
    StrLeTotal(LocalPart(a), LocalPart(b));
  }

  lemma DomainLeAntisymmetric(a: Option<string>, b: Option<string>)
    requires DomainLe(a, b) && DomainLe(b, a)
    ensures a == b
  {
    if a.Some? {
      StrLeAntisymmetric(a.value, b.value);
    }
  }

  lemma DomainLeTransitive(a: Option<string>, b: Option<string>, c: Option<string>)
    requires DomainLe(a, b) && DomainLe(b, c)
    ensures DomainLe(a, c)
  {
    if a.Some? {
      StrLeTransitive(a.value, b.value, c.value);
    }
  }

  lemma EntryLeTransitive(a: string, b: string, c: string)
    requires EntryLe(a, b) && EntryLe(b, c)
    ensures EntryLe(a, c)
  {
    var da, db, dc := Domain(a), Domain(b), Domain(c);
    if da == db && db == dc {
      StrLeTransitive(LocalPart(a), LocalPart(b), LocalPart(c));
    } else if da != db && db != dc {
      DomainLeTransitive(da, db, dc);
      if da == dc {
        DomainLeAntisymmetric(da, db);
      }
    }
  }

  predicate Sorted(s: seq<string>)
  {
    forall i, j :: 0 <= i < j < |s| ==> EntryLe(s[i], s[j])
  }

  /** Places `x` after the last entry that does not sort after it, so that
      equal keys keep their order as a stable sort does. */
  function Insert(p: seq<string>, x: string): (r: seq<string>)
    ensures multiset(r) == multiset(p) + multiset{x}
    decreases |p|
  {
    if |p| == 0 then [x]
    else if EntryLe(p[|p| - 1], x) then
      assert p == p[..|p| - 1] + [p[|p| - 1]];
      p + [x]
    else
      var init := p[..|p| - 1];
      assert p == init + [p[|p| - 1]];
      Insert(init, x) + [p[|p| - 1]]
  }

  lemma {:induction false} InsertSorted(p: seq<string>, x: string)
    requires Sorted(p)
    ensures Sorted(Insert(p, x))
    decreases |p|
  {
    if |p| > 0 {
      var last := p[|p| - 1];
      if EntryLe(last, x) {
        forall i | 0 <= i < |p|
          ensures EntryLe(p[i], x)
        {
          if i < |p| - 1 {
            EntryLeTransitive(p[i], last, x);
          }
        }
      } else {
        var init := p[..|p| - 1];
        InsertSorted(init, x);
        EntryLeTotal(last, x);
        var q := Insert(init, x);
        forall k | 0 <= k < |q|
          ensures EntryLe(q[k], last)
        {
          assert q[k] in multiset(q);
          if q[k] != x {
            assert q[k] in multiset(init);
            var m :| 0 <= m < |init| && init[m] == q[k];
            assert p[m] == q[k];
          }
        }
      }
    }
  }

  lemma {:induction false} InsertDistinct(p: seq<string>, x: string)
    requires Distinct(p) && x !in p
    ensures Distinct(Insert(p, x))
    decreases |p|
  {
    if |p| > 0 && !EntryLe(p[|p| - 1], x) {
      var init := p[..|p| - 1];
      assert x !in init;
      InsertDistinct(init, x);
      var last := p[|p| - 1];
      assert last !in init;
      assert last !in multiset(Insert(init, x));
    }
  }

  /** A stable insertion sort under `EntryLe`. */
  function Sort(s: seq<string>): (r: seq<string>)
    ensures multiset(r) == multiset(s)
    decreases |s|
  {
    if |s| == 0 then []
    else
      assert s == s[..|s| - 1] + [s[|s| - 1]];
      Insert(Sort(s[..|s| - 1]), s[|s| - 1])
  }

  lemma {:induction false} SortSorted(s: seq<string>)
    ensures Sorted(Sort(s))
    decreases |s|
  {
    if |s| > 0 {
      SortSorted(s[..|s| - 1]);
      InsertSorted(Sort(s[..|s| - 1]), s[|s| - 1]);
    }
  }

  lemma {:induction false} SortDistinct(s: seq<string>)
    requires Distinct(s)
    ensures Distinct(Sort(s))
    decreases |s|
  {
    if |s| > 0 {
      var init := s[..|s| - 1];
      SortDistinct(init);
      assert s[|s| - 1] !in init;
      assert s[|s| - 1] !in multiset(Sort(init));
      InsertDistinct(Sort(init), s[|s| - 1]);
    }
  }

  /** Sorting a sorted list changes nothing. */
  lemma {:induction false} SortOfSorted(s: seq<string>)
    requires Sorted(s)
    ensures Sort(s) == s
    decreases |s|
  {
    if |s| > 0 {
      var n := |s| - 1;
      var init := s[..n];
      SortedPrefix(s, n);
      SortOfSorted(init);
      if n > 0 {
        assert EntryLe(s[n - 1], s[n]);
      }
      InsertAfterLast(init, s[n]);
      assert s == init + [s[n]];
    }
  }

  lemma SortedPrefix(s: seq<string>, n: nat)
    requires Sorted(s) && n <= |s|
    ensures Sorted(s[..n])
  {
    forall i, j | 0 <= i < j < n
      ensures EntryLe(s[..n][i], s[..n][j])
    {
      assert s[..n][i] == s[i] && s[..n][j] == s[j];
    }
  }

  /** An entry that sorts after the last one goes at the end. */
  lemma InsertAfterLast(p: seq<string>, x: string)
    requires |p| == 0 || EntryLe(p[|p| - 1], x)
    ensures Insert(p, x) == p + [x]
  {
  }

  /** `processAuthorized`: the entries cleaned, deduplicated and sorted by
      domain, then local part. */
  function ProcessAuthorized(a: Authorized): (r: seq<string>)
    ensures |r| <= |Lines(a)|
  {
    Sort(Collect(Lines(a)))
  }

  /** Every entry is non-empty, lower-case and trimmed, and none repeats. */
  lemma ProcessAuthorizedClean(a: Authorized)
    ensures var r := ProcessAuthorized(a);
            (forall i :: 0 <= i < |r| ==> IsClean(r[i])) && Distinct(r)
  {
    var c := Collect(Lines(a));
    SortDistinct(c);
    forall i | 0 <= i < |Sort(c)|
      ensures IsClean(Sort(c)[i])
    {
      assert Sort(c)[i] in multiset(c);
    }
  }

  /** The list is sorted. */
  lemma ProcessAuthorizedSorted(a: Authorized)
    ensures Sorted(ProcessAuthorized(a))
  {
    SortSorted(Collect(Lines(a)));
  }

  lemma SortMembers(s: seq<string>, x: string)
    ensures x in Sort(s) <==> x in s
  {
    assert x in Sort(s) <==> x in multiset(Sort(s));
  }

  /** The list holds exactly the non-empty cleaned lines. */
  lemma ProcessAuthorizedMembers(a: Authorized, x: string)
    ensures x in ProcessAuthorized(a) <==> x != "" && x in Cleaned(Lines(a))
  {
    var lines := Lines(a);
    SortMembers(Collect(lines), x);
    CollectMembers(lines, x);
  }

  /** Processing the processed list again gives it back unchanged. */
  lemma ProcessAuthorizedIdempotent(a: Authorized)
    ensures ProcessAuthorized(AsList(ProcessAuthorized(a))) == ProcessAuthorized(a)
  {
    var r := ProcessAuthorized(a);
    ProcessAuthorizedClean(a);
    ProcessAuthorizedSorted(a);
    CollectClean(r);
    SortOfSorted(r);
  }

  /** Entries are ordered by the text after "@", then by the text before
      it. */
  lemma ProcessAuthorizedOrder(a: Authorized, i: nat, j: nat)
    requires i < j < |ProcessAuthorized(a)|
    ensures var r := ProcessAuthorized(a);
            && DomainLe(Domain(r[i]), Domain(r[j]))
            && (Domain(r[i]) == Domain(r[j]) ==> StrLe(LocalPart(r[i]), LocalPart(r[j])))
  {
    ProcessAuthorizedSorted(a);
    SortedPair(ProcessAuthorized(a), i, j);
  }

  lemma SortedPair(r: seq<string>, i: nat, j: nat)
    requires Sorted(r) && i < j < |r|
    ensures DomainLe(Domain(r[i]), Domain(r[j]))
    ensures Domain(r[i]) == Domain(r[j]) ==> StrLe(LocalPart(r[i]), LocalPart(r[j]))
  {
    assert EntryLe(r[i], r[j]);
    if Domain(r[i]).Some? {
      StrLeReflexive(Domain(r[i]).value);
    }
  }

  // ---------------------------------------------------------------------
  // Paging

  /** `Number(param) || 1`: a missing or zero page number reads as 1. */
  function PageNumber(requested: int): (r: int)
    ensures r != 0
    ensures requested != 0 ==> r == requested
  {
    if requested != 0 then requested else 1
  }

  /** `Math.ceil(total / pagingCount)`. */
  function PageCount(total: nat, pagingCount: nat): (r: nat)
    requires pagingCount > 0
    ensures (r - 1) * pagingCount < total || total == 0
    ensures total <= r * pagingCount
  {
    (total + pagingCount - 1) / pagingCount
  }

  /** A page past the last one becomes the last one, or 1 when there are no
      records. */
  function ClampPage(page: int, total: nat, pagingCount: nat): (r: int)
    requires pagingCount > 0
    ensures page <= PageCount(total, pagingCount) ==> r == page
    ensures page > PageCount(total, pagingCount) ==> r == (if total == 0 then 1 else PageCount(total, pagingCount))
  {
    var count := PageCount(total, pagingCount);
    if page > count then (if count != 0 then count else 1) else page
  }

  /** `start_index = (pageNumber - 1) * pagingCount`. */
  function StartIndex(page: int, pagingCount: nat): (r: int)
    ensures page >= 1 ==> r >= 0
    ensures pagingCount > 0 && page < 1 ==> r < 0
  {
    (page - 1) * pagingCount
  }

  /** A clamped page from 1 on starts at a record that exists, or at 0 when
      there are none. */
  lemma {:induction false} ClampedPageStartsInside(page: int, total: nat, pagingCount: nat)
    requires pagingCount > 0 && page >= 1
    ensures var r := ClampPage(page, total, pagingCount);
            && 1 <= r
            && 0 <= StartIndex(r, pagingCount)
            && (total == 0 ==> StartIndex(r, pagingCount) == 0)
            && (total > 0 ==> StartIndex(r, pagingCount) < total)
  {
    var count := PageCount(total, pagingCount);
    var r := ClampPage(page, total, pagingCount);
    if total > 0 {
      assert 1 <= r <= count;
      MulMonotone(r - 1, count - 1, pagingCount);
    } else {
      assert count == 0;
    }
  }

  lemma MulMonotone(a: int, b: int, c: nat)
    requires 0 <= a <= b
    ensures a * c <= b * c
  {
  }

  /** The API list's window start: past the total it falls back to the last
      multiple of 20 not above the total, and a negative start becomes 0. */
  function ListStart(start: int, total: nat): (r: nat)
    ensures r <= total
    ensures 0 <= start <= total ==> r == start
    ensures start > total ==> r % 20 == 0 && total - 20 < r
    ensures start < 0 ==> r == 0
  {
    if start > total then total / 20 * 20 else if start < 0 then 0 else start
  }

  /** The API's list page: the total, the window's bounds and the records
      in it, out of the owner's full sorted list of `all` records. */
  datatype ListPage<T> = ListPage(total: nat, startIndex: nat, endIndex: int, list: seq<T>)

  /** `apiActionList`: at most 20 records from the clamped start. */
  function ApiList<T>(all: seq<T>, start: int): (r: ListPage<T>)
    ensures r.total == |all| && r.startIndex == ListStart(start, |all|)
    ensures |r.list| <= 20 && r.startIndex + |r.list| <= |all| && r.list == all[r.startIndex..r.startIndex + |r.list|]
    ensures r.endIndex == r.startIndex + |r.list| - 1 && r.endIndex < r.total
    ensures r.startIndex + 20 <= |all| ==> |r.list| == 20
  {
    var s := ListStart(start, |all|);
    var e := if s + 20 <= |all| then s + 20 else |all|;
    ListPage(|all|, s, s + (e - s) - 1, all[s..e])
  }

  /** A start past the end, with a total that is a multiple of 20, yields an
      empty page that starts at the total. */
  lemma ApiListPastEnd<T>(all: seq<T>, start: int)
    requires start > |all| && |all| % 20 == 0
    ensures ApiList(all, start).list == [] && ApiList(all, start).startIndex == |all|
  {
  }

  // ---------------------------------------------------------------------
  // The project form

  /** The settings the form and the API both submit, named as the form names
      them (the API calls them type, key_size, algo and return_url). */
  datatype Settings = Settings(name: string, bank: string, keyBitsize: int, soloAlgo: string, ecUrl: string)

  /** A field the validation flags. */
  datatype SettingField = NameField | BankField | KeyBitsizeField | AlgoField | EcUrlField

  const KeySizes: seq<int> := [1024, 2048, 4096]

  const Algorithms: seq<string> := ["md5", "sha1", "sha256"]

  /** The submitted settings trimmed (the algorithm also lower-cased, a
      missing key size read as 1024), then cleared where they do not apply
      to the bank: the algorithm belongs to `nordea` only and the return
      address to `ec` only. `keyBitsize` is the submitted number, 0 when
      missing. */
  function Normalized(submitted: Settings): (s: Settings)
    ensures s.name == Trim(submitted.name) && s.bank == Trim(submitted.bank)
    ensures s.keyBitsize != 0 && (submitted.keyBitsize != 0 ==> s.keyBitsize == submitted.keyBitsize)
    ensures s.soloAlgo != "" ==> s.bank == "nordea"
    ensures s.bank == "nordea" ==> s.soloAlgo == Trim(Lower(submitted.soloAlgo))
    ensures s.ecUrl != "" ==> s.bank == "ec"
    ensures s.bank == "ec" ==> s.ecUrl == Trim(submitted.ecUrl)
  {
    var bank := Trim(submitted.bank);
    Settings(Trim(submitted.name), bank, if submitted.keyBitsize != 0 then submitted.keyBitsize else 1024,
             if bank != "nordea" then "" else Trim(Lower(submitted.soloAlgo)),
             if bank != "ec" then "" else Trim(submitted.ecUrl))
  }

  /** The fields the checks flag. The algorithm and return-address checks
      look only at `nordea` and `ec` projects, whose values clearing keeps,
      so they read the same before and after it. `banks` is the set of
      configured bank keys. */
  function Flags(t: Tools, banks: set<string>, s: Settings): (r: set<SettingField>)
    ensures NameField in r <==> s.name == ""
    ensures BankField in r <==> s.bank !in banks
    ensures KeyBitsizeField in r <==> s.keyBitsize !in KeySizes
    ensures AlgoField in r <==> s.bank == "nordea" && s.soloAlgo !in Algorithms
    ensures EcUrlField in r <==> s.bank == "ec" && (s.ecUrl == "" || !t.validateUrl(s.ecUrl))
  {
    var name := if s.name == "" then {NameField} else {};
    var bank := if s.bank !in banks then {BankField} else {};
    var bits := if s.keyBitsize !in KeySizes then {KeyBitsizeField} else {};
    var algo := if s.bank == "nordea" && (s.soloAlgo == "" || s.soloAlgo !in Algorithms) then {AlgoField} else {};
    var url := if s.bank == "ec" && (s.ecUrl == "" || !t.validateUrl(s.ecUrl)) then {EcUrlField} else {};
    name + bank + bits + algo + url
  }

  /** `handleAddProject` and `apiActionPost`: the flags and the settings
      kept. */
  function ValidateProject(t: Tools, banks: set<string>, submitted: Settings): (r: (set<SettingField>, Settings))
    ensures r.1 == Normalized(submitted) && Normalized(r.1) == r.1
    ensures r.0 == Flags(t, banks, r.1)
  {
    NormalizedStable(submitted);
    var s := Normalized(submitted);
    (Flags(t, banks, s), s)
  }

  /** Submitting the settings the validation gave back again changes
      nothing: the same flags and the same settings. */
  lemma ValidateProjectStable(t: Tools, banks: set<string>, submitted: Settings)
    ensures var r := ValidateProject(t, banks, submitted);
            ValidateProject(t, banks, r.1) == r
  {
    NormalizedStable(submitted);
  }

  lemma NormalizedStable(submitted: Settings)
    ensures Normalized(Normalized(submitted)) == Normalized(submitted)
  {
    var s := Normalized(submitted);
    var again := Normalized(s);
    assert again.name == s.name by { TrimIdempotent(submitted.name); }
    assert again.bank == s.bank by { TrimIdempotent(submitted.bank); }
    assert again.soloAlgo == s.soloAlgo by {
      if s.bank == "nordea" {
        CleanStable(submitted.soloAlgo);
      }
    }
    assert again.ecUrl == s.ecUrl by { TrimIdempotent(submitted.ecUrl); }
  }

  /** Cleaning is idempotent. */
  lemma CleanStable(line: string)
    ensures Clean(Clean(line)) == Clean(line)
  {
    CleanIsClean(line);
    if Clean(line) == "" {
      assert Lower("") == "";
      TrimOfTrimmed("");
    }
  }

  // ---------------------------------------------------------------------
  // The project uid

  /** The uid a new project gets from its numeric id: the reference number
      plus 10000000 for `nordea`, "uid" and the reference number otherwise.
      A reference number that is not a numeral gives "NaN". */
  function ProjectUid(t: Tools, bank: string, id: nat): (r: string)
    ensures bank == "nordea" ==> r == "NaN" || IsCanonicalNumeral(r)
    ensures bank != "nordea" ==> |r| >= 3 && r[..3] == "uid"
  {
    var code := t.referenceCode(NatToString(id));
    if bank == "nordea" then
      (if AllDigits(code) then NatToString(10000000 + DecimalValue(code)) else "NaN")
    else "uid" + code
  }

  /** A `nordea` uid is a number of at least 10000000 from which the
      reference number can be read back; any other bank's uid is "uid"
      followed by the reference number. */
  lemma ProjectUidShape(t: Tools, bank: string, id: nat)
    ensures var r := ProjectUid(t, bank, id);
            var code := t.referenceCode(NatToString(id));
            && (bank == "nordea" && AllDigits(code) ==>
                  IsCanonicalNumeral(r) && DecimalValue(r) >= 10000000 && DecimalValue(r) - 10000000 == DecimalValue(code))
            && (bank != "nordea" ==> |r| >= 3 && r[..3] == "uid" && r[3..] == code)
  {
    var code := t.referenceCode(NatToString(id));
    if bank == "nordea" && AllDigits(code) {
      DecimalOfNatToString(10000000 + DecimalValue(code));
    }
  }

  /** The two families of uids never meet: a `nordea` uid holds only digits
      (or is "NaN") while every other bank's begins with "uid". */
  lemma ProjectUidFamiliesDisjoint(t: Tools, id1: nat, id2: nat, bank: string)
    requires bank != "nordea"
    ensures ProjectUid(t, "nordea", id1) != ProjectUid(t, bank, id2)
  {
    var a := ProjectUid(t, "nordea", id1);
    var b := ProjectUid(t, bank, id2);
    assert b[0] == 'u' && b[1] == 'i';
    var code := t.referenceCode(NatToString(id1));
    if AllDigits(code) {
      assert IsDigit(a[0]);
    } else {
      assert a[1] == 'a';
    }
  }
}

=== FILE: rules.dfy ===
/** Rules more than one adapter applies in the same way: the amount pattern,
    the reference-number check, the recommended field lengths, the digest of
    a signing string that may be missing, and where a decided payment sends
    the browser. */
module Rules {
  import opened Text
  import opened External
  import opened Records

  /** The regular expression `^\d{0,}(\.\d{1,2})?$`. */
  predicate IsAmount(s: string)
  {
    AllDigits(s)
    || ('.' in s && var i := IndexOf(s, '.'); AllDigits(s[..i]) && 1 <= |s| - i - 1 <= 2 && AllDigits(s[i + 1..]))
  }

  /** Whole units, a point and one or two digits of cents is an amount; a
      third decimal is not. */
  lemma AmountShapes(units: string, cents: string)
    requires AllDigits(units) && AllDigits(cents)
    ensures 1 <= |cents| <= 2 ==> IsAmount(units + "." + cents)
    ensures |cents| > 2 ==> !IsAmount(units + "." + cents)
  {
    var s := units + "." + cents;
    assert '.' !in units;
    assert s[|units|] == '.';
    assert IndexOf(s, '.') == |units|;
    assert s[..|units|] == units;
    assert s[|units| + 1..] == cents;
    assert !AllDigits(s) by {
      assert !IsDigit(s[|units|]);
    }
  }

  /** The reference-number check: an empty reference is allowed; otherwise it
      must be at least two digits and equal the reference the tools build
      from all but its last digit. */
  function ReferenceCheck(t: Tools, v: string): (c: Check)
    ensures c.warnings == []
    ensures c.error.None? <==> v == "" || (|v| >= 2 && AllDigits(v) && t.referenceCode(v[..|v| - 1]) == v)
    ensures c.error.Some? ==> c.error.value == BadReferenceFormat || c.error.value.BadReferenceChecksum?
  {
    if v == "" then Pass
    else if !(|v| >= 2 && AllDigits(v)) then Fail(BadReferenceFormat)
    else if t.referenceCode(v[..|v| - 1]) != v then Fail(BadReferenceChecksum(t.referenceCode(v[..|v| - 1])))
    else Pass
  }

  /** A reference the tools generate from a numeric base, by appending one
      check digit, passes the check. */
  lemma GeneratedReferenceAccepted(t: Tools, base: string)
    requires |base| >= 1 && AllDigits(base)
    requires |t.referenceCode(base)| == |base| + 1 && t.referenceCode(base)[..|base|] == base
    requires IsDigit(t.referenceCode(base)[|base|])
    ensures ReferenceCheck(t, t.referenceCode(base)).error.None?
  {
    var r := t.referenceCode(base);
    assert r[..|r| - 1] == base;
  }

  /** The field is within the bank's recommended length (0 means no limit),
      counted as JavaScript's `.length` counts. */
  predicate WithinLength(bank: Bank, field: string, v: string)
  {
    !(field in bank.fieldLength && bank.fieldLength[field] > 0 && Utf16Length(v) > bank.fieldLength[field])
  }

  /** The regular expression `^[A-F0-9]+$`. */
  predicate IsUpperHex(s: string)
  {
    |s| > 0 && forall i :: 0 <= i < |s| ==> IsUpperHexDigit(s[i])
  }

  /** `crypto.createHash(algo).update(data).digest("hex")`, where an undefined
      `data` throws. */
  function Digest(t: Tools, algo: string, data: Option<string>): (r: Option<string>)
    ensures data.None? ==> r.None?
    ensures data.Some? ==> r == t.hexDigest(algo, data.value)
  {
    if data.None? then None else t.hexDigest(algo, data.value)
  }

  /** The browser is sent back to the target matching the state. */
  function StateTarget(payment: Payment): (r: string)
    ensures payment.state == Payed ==> r == payment.successTarget
    ensures payment.state == Rejected ==> r == payment.rejectTarget
    ensures payment.state != Payed && payment.state != Rejected ==> r == payment.cancelTarget
  {
    if payment.state == Payed then payment.successTarget
    else if payment.state == Rejected then payment.rejectTarget
    else payment.cancelTarget
  }
}

=== FILE: solo.dfy ===
/** The Solo protocol adapter (`lib/banks/solo.js`, Nordea's bank-link) and
    its near-copy for Ålandsbanken (`lib/banks/aab.js`). Both read prefixed
    fields (`SOLOPMT_VERSION`, `AAB_VERSION`, ...), sign with a digest of the
    `&`-joined non-empty values followed by the merchant's secret, and reply
    with a PAYMENT-OUT field set in the query string of a GET redirect. The
    two files differ only in their tables and prefixes, so one model serves
    both, selected by a `Dialect`. */
module Solo {
  import opened Text
  import opened FieldBag
  import opened External
  import opened Records
  import opened Normalize
  import opened Rules

  /** Which of the two files is modelled. */
  datatype Dialect = SoloDialect | AabDialect

  function Versions(d: Dialect): seq<string>
  {
    match d
    case SoloDialect => ["0002", "0003", "0004"]
    case AabDialect => ["0002"]
  }

  function Currencies(d: Dialect): seq<string>
  {
    match d
    case SoloDialect => ["EUR", "LVL", "LTL"]
    case AabDialect => ["EUR"]
  }

  /** The language table: a one-digit code names a language. */
  function LanguageName(d: Dialect, code: string): Option<string>
  {
    match d
    case SoloDialect =>
      if code == "1" then Some("FIN") else if code == "2" then Some("SWE") else if code == "3" then Some("ENG")
      else if code == "4" then Some("EST") else if code == "5" then Some("RUS") else if code == "6" then Some("LAT")
      else if code == "7" then Some("LIT") else None
    case AabDialect =>
      if code == "1" then Some("FIN") else if code == "2" then Some("SWE") else None
  }

  function DefaultLanguage(d: Dialect): string
  {
    match d
    case SoloDialect => "EST"
    case AabDialect => "FIN"
  }

  /** The languages a detected language can be. */
  function Languages(d: Dialect): seq<string>
  {
    match d
    case SoloDialect => ["FIN", "SWE", "ENG", "EST", "RUS", "LAT", "LIT"]
    case AabDialect => ["FIN", "SWE"]
  }

  /** The fields of a payment request, unprefixed, in validation order. */
  const ServiceFields: seq<string> :=
    ["VERSION", "STAMP", "RCV_ID", "RCV_ACCOUNT", "RCV_NAME", "LANGUAGE", "AMOUNT", "REF", "TAX_CODE", "DATE",
     "MSG", "RETURN", "CANCEL", "REJECT", "MAC", "CONFIRM", "KEYVERS", "CUR"]

  /** The request fields that have a validator; the others are skipped. */
  function Validated(d: Dialect): seq<string>
  {
    match d
    case SoloDialect =>
      ["VERSION", "STAMP", "RCV_ID", "RCV_ACCOUNT", "LANGUAGE", "AMOUNT", "REF", "TAX_CODE", "DATE",
       "MSG", "RETURN", "CANCEL", "REJECT", "MAC", "CONFIRM", "KEYVERS", "CUR"]
    case AabDialect =>
      ["VERSION", "STAMP", "RCV_ID", "LANGUAGE", "AMOUNT", "REF", "TAX_CODE", "DATE",
       "MSG", "RETURN", "CANCEL", "REJECT", "MAC", "CONFIRM", "KEYVERS", "CUR"]
  }

  /** The fields whose values the signing string covers, per version and
      service; Solo's version 0003 shares the 0002 table. */
  function SignatureOrder(d: Dialect, version: string, service: string): Option<seq<string>>
  {
    match d
    case SoloDialect =>
      if (version == "0002" || version == "0003") && service == "PAYMENT-IN" then
        Some(["VERSION", "STAMP", "RCV_ID", "AMOUNT", "REF", "DATE", "CUR"])
      else if (version == "0002" || version == "0003") && service == "PAYMENT-OUT" then
        Some(["RETURN_VERSION", "RETURN_STAMP", "RETURN_REF", "RETURN_PAID"])
      else if version == "0004" && service == "PAYMENT-IN" then
        Some(["VERSION", "STAMP", "RCV_ID", "AMOUNT", "REF", "TAX_CODE", "DATE", "CUR"])
      else if version == "0004" && service == "PAYMENT-OUT" then
        Some(["RETURN_VERSION", "RETURN_STAMP", "RETURN_REF", "RETURN_PAYER_NAME", "RETURN_PAYER_ACCOUNT",
              "RETURN_TAX_CODE", "RETURN_MSG", "RETURN_PAID"])
      else None
    case AabDialect =>
      if version == "0002" && service == "PAYMENT-IN" then
        Some(["VERSION", "STAMP", "RCV_ID", "AMOUNT", "REF", "DATE", "CUR"])
      else if version == "0002" && service == "PAYMENT-OUT" then
        Some(["RETURN-VERSION", "RETURN-STAMP", "RETURN-REF", "RETURN-PAID"])
      else None
  }

  /** The project's digest algorithm for this bank. */
  function Algo(d: Dialect, p: Project): string
  {
    match d
    case SoloDialect => p.soloAlgo
    case AabDialect => p.aabAlgo
  }

  /** Whether a paid reply is also fetched server-to-server. */
  function AutoResponds(d: Dialect, p: Project): bool
  {
    match d
    case SoloDialect => p.soloAutoResponse
    case AabDialect => false
  }

  function ConfiguredCharset(d: Dialect, config: Config): string
  {
    match d
    case SoloDialect => config.soloCharset
    case AabDialect => config.aabCharset
  }

  /** One inbound or outbound message. `uid` is what `validateClient` looks
      the project up by; `keyPrefix` is put in front of every field name. */
  datatype Adapter = Adapter(
    dialect: Dialect,
    bank: Bank,
    pairs: Pairs,
    fields: Fields,
    version: string,
    language: string,
    charset: string,
    keyPrefix: string,
    uid: string,
    service: string,
    record: Option<Project>,
    sourceHash: Option<string>
  )

  /** `SOLOPMT_VERSION`, else `VERSION`, else 0002. */
  function DetectVersion(f: Fields): (r: string)
    ensures r != ""
    ensures Get(f, "SOLOPMT_VERSION") != "" ==> r == Get(f, "SOLOPMT_VERSION")
    ensures Get(f, "SOLOPMT_VERSION") == "" && Get(f, "VERSION") != "" ==> r == Get(f, "VERSION")
    ensures Get(f, "SOLOPMT_VERSION") == "" && Get(f, "VERSION") == "" ==> r == "0002"
  {
    Or(Get(f, "SOLOPMT_VERSION"), Or(Get(f, "VERSION"), "0002"))
  }

  /** The trimmed language code (`SOLOPMT_LANGUAGE`, else `LANGUAGE`, else
      4) named by the table, or the dialect's default language. */
  function DetectLanguage(d: Dialect, f: Fields): (r: string)
    ensures r in Languages(d)
    ensures var code := Trim(Or(Get(f, "SOLOPMT_LANGUAGE"), Or(Get(f, "LANGUAGE"), "4")));
            (LanguageName(d, code).Some? ==> r == LanguageName(d, code).value)
            && (LanguageName(d, code).None? ==> r == DefaultLanguage(d))
  {
    var code := Trim(Or(Get(f, "SOLOPMT_LANGUAGE"), Or(Get(f, "LANGUAGE"), "4")));
    match LanguageName(d, code)
    case Some(name) => name
    case None => DefaultLanguage(d)
  }

  /** Solo's prefix follows the version: `SOLOPMT_` when that field is set or
      the version is 0002, none otherwise. Ålandsbanken always uses `AAB_`. */
  function InboundPrefix(d: Dialect, f: Fields, version: string): (r: string)
    ensures d == SoloDialect ==> (r == "SOLOPMT_" <==> Get(f, "SOLOPMT_VERSION") != "" || version == "0002")
    ensures d == SoloDialect ==> r == "SOLOPMT_" || r == ""
    ensures d == AabDialect ==> r == "AAB_"
  {
    match d
    case SoloDialect => if Get(f, "SOLOPMT_VERSION") != "" || version == "0002" then "SOLOPMT_" else ""
    case AabDialect => "AAB_"
  }

  /** The prefix `generateForm` switches to: Ålandsbanken writes `AAB-`. */
  function OutboundPrefix(d: Dialect, inbound: string): string
  {
    match d
    case SoloDialect => inbound
    case AabDialect => "AAB-"
  }

  /** The constructor: normalise, detect the version, language, charset and
      prefix, and take the uid from `SOLOPMT_RCV_ID` or `RCV_ID`. */
  function New(d: Dialect, bank: Bank, config: Config, body: seq<(string, RawValue)>, charset: string): (a: Adapter)
    ensures IsNormalized(a.pairs) && a.fields == ToMap(a.pairs)
    ensures a.dialect == d && a.version == DetectVersion(a.fields)
    ensures a.keyPrefix == InboundPrefix(d, a.fields, a.version)
    ensures a.language in Languages(d)
    ensures charset != "" ==> a.charset == charset
    ensures charset == "" ==> a.charset == FirstNonEmpty([bank.defaultCharset, ConfiguredCharset(d, config)])
    ensures a.service == "PAYMENT-IN" && a.record.None? && a.sourceHash.None?
    ensures a.uid == FirstNonEmpty([Get(a.fields, "SOLOPMT_RCV_ID"), Get(a.fields, "RCV_ID")])
  {
    var pairs := NormalizeBody(body);
    NormalizeBodySpec(body);
    var f := ToMap(pairs);
    var version := DetectVersion(f);
    FirstNonEmptyCons(ConfiguredCharset(d, config), []);
    FirstNonEmptyCons(bank.defaultCharset, [ConfiguredCharset(d, config)]);
    FirstNonEmptyCons(Get(f, "RCV_ID"), []);
    FirstNonEmptyCons(Get(f, "SOLOPMT_RCV_ID"), [Get(f, "RCV_ID")]);
    Adapter(d, bank, pairs, f, version, DetectLanguage(d, f), Or(charset, Or(bank.defaultCharset, ConfiguredCharset(d, config))),
            InboundPrefix(d, f, version), Or(Get(f, "SOLOPMT_RCV_ID"), Get(f, "RCV_ID")), "PAYMENT-IN", None, None)
  }

  // ---------------------------------------------------------------------
  // The signing string

  /** Each name with the prefix in front. */
  function Prefixed(prefix: string, names: seq<string>): (r: seq<string>)
    ensures |r| == |names|
    ensures forall i :: 0 <= i < |names| ==> r[i] == prefix + names[i]
  {
    if |names| == 0 then [] else [prefix + names[0]] + Prefixed(prefix, names[1..])
  }

  /** The non-empty strings of a list, in order. */
  function NonEmptyStrings(s: seq<string>): (r: seq<string>)
    ensures |r| <= |s|
    ensures forall i :: 0 <= i < |r| ==> r[i] != ""
    ensures forall x :: x in r <==> x in s && x != ""
    ensures (forall i :: 0 <= i < |s| ==> s[i] != "") ==> r == s
  {
    if |s| == 0 then []
    else if s[0] == "" then NonEmptyStrings(s[1..])
    else [s[0]] + NonEmptyStrings(s[1..])
  }

  /** The values of the named fields that are set, in order. */
  function PresentValues(f: Fields, keys: seq<string>): seq<string>
  {
    NonEmptyStrings(OrderedValues(f, keys))
  }

  /** `calculateHash`: the set values of the signature fields, then the
      secret, then an empty segment, joined with `&`. `None` when the
      version or service has no signature fields; `sourceHash` is then left
      as it was. */
  function CalculateHash(a: Adapter, secret: string): (r: Option<string>)
    ensures r.Some? <==> SignatureOrder(a.dialect, a.version, a.service).Some?
    ensures r.Some? ==>
              var parts := PresentValues(a.fields, Prefixed(a.keyPrefix, SignatureOrder(a.dialect, a.version, a.service).value));
              && EndsWith(r.value, "&")
              && ((forall i :: 0 <= i < |parts| ==> '&' !in parts[i]) && '&' !in secret ==>
                    Split(r.value, '&') == parts + [secret, ""])
  {
    match SignatureOrder(a.dialect, a.version, a.service)
    case None => None
    case Some(order) =>
      var parts := PresentValues(a.fields, Prefixed(a.keyPrefix, order));
      JoinEndsWithEmpty(parts + [secret], "&");
      assert parts + [secret] + [""] == parts + [secret, ""];
      if (forall i :: 0 <= i < |parts| ==> '&' !in parts[i]) && '&' !in secret then
        SplitJoin(parts + [secret, ""], '&');
        Some(Join(parts + [secret, ""], "&"))
      else Some(Join(parts + [secret, ""], "&"))
  }

  /** A join whose last part is empty ends with the separator. */
  lemma {:induction false} JoinEndsWithEmpty(parts: seq<string>, sep: string)
    requires |parts| >= 1
    ensures Join(parts + [""], sep) == Join(parts, sep) + sep
    ensures EndsWith(Join(parts + [""], sep), sep)
    decreases |parts|
  {
    var s := parts + [""];
    if |parts| == 1 {
      assert s[1..] == [""];
    } else {
      assert s[1..] == parts[1..] + [""];
      JoinEndsWithEmpty(parts[1..], sep);
    }
    var j := Join(parts, sep) + sep;
    assert j[|j| - |sep|..] == sep;
  }

  /** The signing string depends on the signature fields only. */
  lemma HashReadsOrderedFields(a: Adapter, b: Adapter, secret: string)
    requires a.dialect == b.dialect && a.version == b.version && a.service == b.service && a.keyPrefix == b.keyPrefix
    requires SignatureOrder(a.dialect, a.version, a.service).Some? ==>
               forall k :: k in SignatureOrder(a.dialect, a.version, a.service).value ==>
                 Get(a.fields, a.keyPrefix + k) == Get(b.fields, a.keyPrefix + k)
    ensures CalculateHash(a, secret) == CalculateHash(b, secret)
  {
    match SignatureOrder(a.dialect, a.version, a.service)
    case None =>
    case Some(order) =>
      var keys := Prefixed(a.keyPrefix, order);
      assert forall i :: 0 <= i < |keys| ==> order[i] in order;
      assert OrderedValues(a.fields, keys) == OrderedValues(b.fields, keys);
  }

  // ---------------------------------------------------------------------
  // Signing and verifying

  /** The upper-case hex digest of the signing string, computed with the
      project's algorithm; the previous signing string is used when this
      version and service have none. */
  function ExpectedMac(t: Tools, a: Adapter, p: Project): Option<string>
  {
    var hash := CalculateHash(a, p.secret);
    match Digest(t, Algo(a.dialect, p), if hash.Some? then hash else a.sourceHash)
    case None => None
    case Some(hex) => Some(Upper(hex))
  }

  /** The adapter after `calculateHash`. */
  function Hashed(a: Adapter, p: Project): (b: Adapter)
    ensures b == a.(sourceHash := b.sourceHash)
    ensures CalculateHash(a, p.secret).Some? ==> b.sourceHash == CalculateHash(a, p.secret)
    ensures CalculateHash(a, p.secret).None? ==> b == a
  {
    var hash := CalculateHash(a, p.secret);
    if hash.Some? then a.(sourceHash := hash) else a
  }

  /** `validateSignature`: the digest must equal the prefixed `MAC` field
      exactly. The failure report names the MAC's value as its field. */
  function ValidateSignature(t: Tools, a: Adapter): (r: Res<(Adapter, Report)>)
    ensures a.record.None? ==> r.Err?
    ensures a.record.Some? ==> (r.Ok? <==> ExpectedMac(t, a, a.record.value).Some?)
    ensures r.Ok? ==> r.value.0 == Hashed(a, a.record.value) && r.value.1.warnings == [] && |r.value.1.errors| <= 1
    ensures r.Ok? ==> (r.value.1.Success() <==>
              a.keyPrefix + "MAC" in a.fields && a.fields[a.keyPrefix + "MAC"] == ExpectedMac(t, a, a.record.value).value)
  {
    match a.record
    case None => Err(Threw("this.record is undefined"))
    case Some(p) =>
      var key := a.keyPrefix + "MAC";
      match ExpectedMac(t, a, p)
      case None => Err(SigningFailed)
      case Some(mac) =>
        if key in a.fields && a.fields[key] == mac then Ok((Hashed(a, p), NoIssues))
        else Ok((Hashed(a, p), Report([Issue(Get(a.fields, key), "", SignatureMismatch)], [])))
  }

  /** Setting one field of an adapter, in both views. */
  function SetField(a: Adapter, key: string, value: string): (b: Adapter)
    ensures b == a.(pairs := b.pairs, fields := b.fields)
    ensures b.fields == a.fields[key := value]
    ensures a.fields == ToMap(a.pairs) ==> b.fields == ToMap(b.pairs)
  {
    ToMapPut(a.pairs, key, value);
    a.(pairs := Put(a.pairs, key, value), fields := a.fields[key := value])
  }

  /** `sign`: the same digest, stored in the prefixed `RETURN_MAC` field. */
  function Sign(t: Tools, a: Adapter): (r: Res<Adapter>)
    ensures a.record.None? ==> r.Err?
    ensures a.record.Some? ==> (r.Ok? <==> ExpectedMac(t, a, a.record.value).Some?)
    ensures r.Ok? ==> r.value == SetField(Hashed(a, a.record.value), a.keyPrefix + "RETURN_MAC",
                                          ExpectedMac(t, a, a.record.value).value)
  {
    match a.record
    case None => Err(Threw("this.record is undefined"))
    case Some(p) =>
      match ExpectedMac(t, a, p)
      case None => Err(SigningFailed)
      case Some(mac) => Ok(SetField(Hashed(a, p), a.keyPrefix + "RETURN_MAC", mac))
  }

  lemma PrefixCancels(prefix: string, x: string, y: string)
    ensures prefix + x == prefix + y <==> x == y
  {
    if prefix + x == prefix + y {
      assert (prefix + x)[|prefix|..] == x;
      assert (prefix + y)[|prefix|..] == y;
    }
  }

  /** Neither the signature nor its reply field is ever signed. */
  lemma MacFieldsUnsigned(d: Dialect, version: string, service: string)
    ensures SignatureOrder(d, version, service).Some? ==>
              "MAC" !in SignatureOrder(d, version, service).value
              && "RETURN_MAC" !in SignatureOrder(d, version, service).value
  {
  }

  /** A prefixed name is in the prefixed list exactly when the name is in the list. */
  lemma PrefixedMember(prefix: string, names: seq<string>, x: string)
    ensures prefix + x in Prefixed(prefix, names) <==> x in names
  {
    if x in names {
      var i :| 0 <= i < |names| && names[i] == x;
      assert Prefixed(prefix, names)[i] == prefix + x;
    }
    if prefix + x in Prefixed(prefix, names) {
      var i :| 0 <= i < |names| && Prefixed(prefix, names)[i] == prefix + x;
      PrefixCancels(prefix, names[i], x);
    }
  }

  /** A MAC made by `sign` passes `validateSignature` for the same fields,
      service and project: the signature fields never include `MAC`. */
  lemma SignThenValidate(t: Tools, a: Adapter)
    requires a.record.Some? && Sign(t, a).Ok?
    ensures var mac := Sign(t, a).value.fields[a.keyPrefix + "RETURN_MAC"];
            var request := a.(fields := a.fields[a.keyPrefix + "MAC" := mac]);
            ValidateSignature(t, request).Ok? && ValidateSignature(t, request).value.1.Success()
  {
    var p := a.record.value;
    var expected := ExpectedMac(t, a, p);
    assert Sign(t, a).value.fields == Hashed(a, p).fields[a.keyPrefix + "RETURN_MAC" := expected.value];
    var mac := Sign(t, a).value.fields[a.keyPrefix + "RETURN_MAC"];
    assert mac == expected.value;
    var request := a.(fields := a.fields[a.keyPrefix + "MAC" := mac]);
    MacFieldsUnsigned(a.dialect, a.version, a.service);
    if SignatureOrder(a.dialect, a.version, a.service).Some? {
      var order := SignatureOrder(a.dialect, a.version, a.service).value;
      forall k | k in order
        ensures Get(a.fields, a.keyPrefix + k) == Get(request.fields, a.keyPrefix + k)
      {
        PrefixCancels(a.keyPrefix, k, "MAC");
      }
    }
    HashReadsOrderedFields(a, request, p.secret);
    assert ExpectedMac(t, request, p) == expected;
  }

  // ---------------------------------------------------------------------
  // Field names and field validation

  /** `processFieldNames`: with a prefix, every unprefixed request field that
      is present is an error; without one, every `SOLOPMT_` field is. */
  function NameIssues(f: Fields, prefix: string, names: seq<string>): (r: seq<Issue>)
    ensures |r| <= |names|
    ensures prefix != "" ==> forall i :: 0 <= i < |r| ==>
              r[i].reason == PrefixRequired && r[i].field in names && r[i].field in f
    ensures prefix != "" ==> forall k :: k in names && k in f ==> Issue(k, Get(f, k), PrefixRequired) in r
    ensures prefix == "" ==> forall i :: 0 <= i < |r| ==>
              r[i].reason == PrefixForbidden && r[i].field in f && StartsWith(r[i].field, "SOLOPMT_")
    ensures prefix == "" ==> forall k :: k in names && "SOLOPMT_" + k in f ==>
              Issue("SOLOPMT_" + k, Get(f, k), PrefixForbidden) in r
  {
    if |names| == 0 then []
    else
      var k := names[0];
      var rest := NameIssues(f, prefix, names[1..]);
      assert StartsWith("SOLOPMT_" + k, "SOLOPMT_") by {
        assert ("SOLOPMT_" + k)[..8] == "SOLOPMT_";
      }
      if prefix != "" && k in f then [Issue(k, Get(f, k), PrefixRequired)] + rest
      else if prefix == "" && "SOLOPMT_" + k in f then [Issue("SOLOPMT_" + k, Get(f, k), PrefixForbidden)] + rest
      else rest
  }

  /** The `validate_<field>` method for one unprefixed field name. `algo` is
      the project's algorithm, upper-cased as the validator stores it. */
  function FieldCheck(d: Dialect, t: Tools, f: Fields, prefix: string, version: string, algo: string,
                      field: string): (c: Check)
    ensures AllAbout(c.warnings, prefix + field)
    ensures c.warnings != [] ==> field == "RCV_ACCOUNT"
  {
    var v := Get(f, prefix + field);
    if field == "VERSION" then
      if v == "" then Fail(Missing)
      else if !(|v| == 4 && AllDigits(v)) then Fail(NotFourDigits)
      else if v !in Versions(d) then Fail(Unsupported)
      else Pass
    else if field == "MAC" then
      if v == "" then Fail(Missing)
      else if !IsUpperHex(v) then Fail(NotUpperHex)
      else if algo == "md5" && Utf16Length(v) != 32 && Utf16Length(v) == 40 then Fail(LooksLikeSha1)
      else if algo == "sha1" && Utf16Length(v) != 40 && Utf16Length(v) == 32 then Fail(LooksLikeMd5)
      else Pass
    else if field == "STAMP" then
      if v == "" then Fail(Missing) else if !AllDigits(v) then Fail(NotNumeric) else Pass
    else if field == "RCV_ID" then
      if v == "" then Fail(Missing) else Pass
    else if field == "RCV_ACCOUNT" then
      if v != "" && !t.ibanValid(v) then Check([Issue(prefix + field, v, NotIban)], None) else Pass
    else if field == "LANGUAGE" then
      if v == "" then Fail(Missing) else if !(|v| == 1 && IsDigit(v[0])) then Fail(NotOneDigit) else Pass
    else if field == "AMOUNT" then
      if v == "" then Fail(Missing) else if !IsAmount(v) then Fail(BadAmount) else Pass
    else if field == "REF" then
      ReferenceCheck(t, v)
    else if field == "TAX_CODE" then
      if v == "" && version == "0004" then Fail(MissingForVersion("0004")) else Pass
    else if field == "DATE" then
      if v == "" then Fail(Missing) else if Upper(v) != "EXPRESS" then Fail(WrongValue("EXPRESS")) else Pass
    else if field == "MSG" then
      if v == "" then Fail(Missing) else if Utf16Length(v) > 210 then Fail(MessageTooLong(Utf16Length(v))) else Pass
    else if field == "RETURN" || field == "CANCEL" || field == "REJECT" then
      if v == "" then Fail(Missing) else if !t.validateUrl(v) then Fail(BadUrl) else Pass
    else if field == "CONFIRM" then
      if v == "" then Fail(Missing) else if Upper(v) != "YES" then Fail(WrongValue("YES")) else Pass
    else if field == "KEYVERS" then
      if v == "" then Fail(Missing) else if !(|v| == 4 && AllDigits(v)) then Fail(NotFourDigits) else Pass
    else if field == "CUR" then
      if v == "" then Fail(Missing) else if v !in Currencies(d) then Fail(UnknownCurrency) else Pass
    else
      Pass
  }

  /** The algorithm is upper-cased before it is compared with the lower-case
      names `md5` and `sha1`, so a MAC of the other algorithm's length is
      never reported: the MAC check fails only for a missing or non-hex MAC. */
  lemma MacLengthNeverChecked(d: Dialect, t: Tools, f: Fields, prefix: string, version: string, algo: string)
    ensures var c := FieldCheck(d, t, f, prefix, version, Upper(Or(algo, "md5")), "MAC");
            c.error.Some? ==> c.error.value == Missing || c.error.value == NotUpperHex
    ensures var c := FieldCheck(d, t, f, prefix, version, Upper(Or(algo, "md5")), "MAC");
            c.error.Some? <==> Get(f, prefix + "MAC") == "" || !IsUpperHex(Get(f, prefix + "MAC"))
  {
    var u := Upper(Or(algo, "md5"));
    if |u| > 0 {
      assert u[0] == UpperChar(Or(algo, "md5")[0]);
      assert u[0] != 'm' && u[0] != 's';
    }
    assert u != "md5" && u != "sha1";
  }

  /** A field passes when its validator returns no error. */
  predicate FieldAccepted(d: Dialect, t: Tools, f: Fields, prefix: string, version: string, algo: string, field: string)
  {
    FieldCheck(d, t, f, prefix, version, algo, field).error.None?
  }

  /** One iteration of the field loop: the validator's error, or else a
      warning when the value is longer than the bank recommends. */
  function FieldReport(d: Dialect, t: Tools, bank: Bank, f: Fields, prefix: string, version: string, algo: string,
                       field: string): (r: Report)
    ensures r.Success() <==> FieldAccepted(d, t, f, prefix, version, algo, field)
    ensures |r.errors| <= 1
    ensures AllAbout(r.errors, prefix + field) && AllAbout(r.warnings, prefix + field)
    ensures FieldAccepted(d, t, f, prefix, version, algo, field) && !WithinLength(bank, field, Get(f, prefix + field))
            ==> Issue(prefix + field, Get(f, prefix + field),
                      TooLong(Utf16Length(Get(f, prefix + field)), bank.fieldLength[field])) in r.warnings
  {
    var c := FieldCheck(d, t, f, prefix, version, algo, field);
    var v := Get(f, prefix + field);
    if c.error.Some? then Report([Issue(prefix + field, v, c.error.value)], c.warnings)
    else if !WithinLength(bank, field, v) then Report([], c.warnings + [Issue(prefix + field, v, TooLong(Utf16Length(v), bank.fieldLength[field]))])
    else Report([], c.warnings)
  }

  /** `SoloValidator.validateFields`: each listed field's issues in order. */
  function FieldsReport(d: Dialect, t: Tools, bank: Bank, f: Fields, prefix: string, version: string, algo: string,
                        list: seq<string>): (r: Report)
    ensures r.Success() <==> forall i :: 0 <= i < |list| ==> FieldAccepted(d, t, f, prefix, version, algo, list[i])
    ensures AllAboutSome(r.errors, Prefixed(prefix, list)) && AllAboutSome(r.warnings, Prefixed(prefix, list))
  {
    if |list| == 0 then NoIssues
    else
      var head := FieldReport(d, t, bank, f, prefix, version, algo, list[0]);
      var rest := FieldsReport(d, t, bank, f, prefix, version, algo, list[1..]);
      assert forall i :: 1 <= i < |list| ==> list[i] == list[1..][i - 1];
      assert Prefixed(prefix, list) == [prefix + list[0]] + Prefixed(prefix, list[1..]);
      head.Then(rest)
  }

  /** `validateRequest`: the name check, then, unless it found more than
      three errors, the field validators. */
  function ValidateRequest(t: Tools, a: Adapter): (r: Res<Report>)
    ensures var names := NameIssues(a.fields, a.keyPrefix, ServiceFields);
            |names| > 3 ==> r.Ok? && r.value.errors == names && r.value.warnings == []
    ensures var names := NameIssues(a.fields, a.keyPrefix, ServiceFields);
            |names| <= 3 ==> (r.Ok? <==> a.record.Some?)
    ensures r.Ok? ==>
              var names := NameIssues(a.fields, a.keyPrefix, ServiceFields);
              var list := Validated(a.dialect);
              (r.value.Success() <==> names == [] && forall i :: 0 <= i < |list| ==>
                 FieldAccepted(a.dialect, t, a.fields, a.keyPrefix, a.version,
                               Upper(Or(Algo(a.dialect, a.record.value), "md5")), list[i]))
  {
    var names := NameIssues(a.fields, a.keyPrefix, ServiceFields);
    if |names| > 3 then Ok(Report(names, []))
    else
      match a.record
      case None => Err(Threw("this.record is undefined"))
      case Some(p) =>
        var algo := Upper(Or(Algo(a.dialect, p), "md5"));
        Ok(Report(names, []).Then(FieldsReport(a.dialect, t, a.bank, a.fields, a.keyPrefix, a.version, algo, Validated(a.dialect))))
  }

  // ---------------------------------------------------------------------
  // The pipeline stages and getters

  /** `validateClient`: the project registered under `uid` must exist and
      belong to this bank. `lookup` is the store's answer for that uid. */
  function ValidateClient(a: Adapter, lookup: StoreAnswer<Project>): (r: Res<(Adapter, Report)>)
    ensures lookup.StoreError? <==> r.Err?
    ensures r.Ok? ==> (r.value.1.Success() <==> lookup.Found? && lookup.value.bank == a.bank.key)
    ensures r.Ok? ==> r.value.1.warnings == [] && AllAbout(r.value.1.errors, a.keyPrefix + "RCV_ID")
    ensures r.Ok? && r.value.1.Success() ==> r.value.0 == a.(record := Some(lookup.value))
    ensures r.Ok? && !r.value.1.Success() ==> r.value.0 == a
  {
    var field := a.keyPrefix + "RCV_ID";
    match lookup
    case StoreError => Err(StoreFailed)
    case NotFound => Ok((a, Report([Issue(field, Get(a.fields, field), ClientNotFound)], [])))
    case Found(p) =>
      if a.bank.key != p.bank then Ok((a, Report([Issue(field, Get(a.fields, field), BankMismatch(p.bank))], [])))
      else Ok((a.(record := Some(p)), NoIssues))
  }

  /** `getUid`: the prefixed `RCV_ID`. */
  function GetUid(a: Adapter): string { Get(a.fields, a.keyPrefix + "RCV_ID") }

  /** The three return addresses, read under the prefix; cancel and reject
      fall back to the return address. */
  function Targets(a: Adapter): (r: (string, string, string))
    ensures r.0 == Get(a.fields, a.keyPrefix + JsKey(a.bank.returnAddress))
    ensures r.1 == FirstNonEmpty([Get(a.fields, a.keyPrefix + JsKey(a.bank.cancelAddress)), r.0])
    ensures r.2 == FirstNonEmpty([Get(a.fields, a.keyPrefix + JsKey(a.bank.rejectAddress)), r.0])
  {
    var success := Get(a.fields, a.keyPrefix + JsKey(a.bank.returnAddress));
    var cancel := Get(a.fields, a.keyPrefix + JsKey(a.bank.cancelAddress));
    var reject := Get(a.fields, a.keyPrefix + JsKey(a.bank.rejectAddress));
    FirstNonEmptyCons(success, []);
    FirstNonEmptyCons(cancel, [success]);
    FirstNonEmptyCons(reject, [success]);
    (success, Or(cancel, success), Or(reject, success))
  }

  /** The getters `logPayment` reads. */
  function Describe(a: Adapter, t: Tools): (r: Summary)
    ensures r.amount == Or(Get(a.fields, a.keyPrefix + "AMOUNT"), "0")
    ensures r.currency == Or(Get(a.fields, a.keyPrefix + "CUR"), "EUR")
    ensures r.paymentType == Some("PAYMENT") && r.hash == a.sourceHash
    ensures r.display.showReceiverName <==> Get(a.fields, a.keyPrefix + "RCV_NAME") != ""
    ensures r.display.showReceiverAccount <==> Get(a.fields, a.keyPrefix + "RCV_ACCOUNT") != ""
  {
    var f := a.fields;
    var p := a.keyPrefix;
    var targets := Targets(a);
    Summary(a.charset, Or(ValueOr(t.languageName(a.language), ""), "et"), Some("PAYMENT"),
            Or(Get(f, p + "AMOUNT"), "0"), OrFalse(Get(f, p + "REF")), OrFalse(Get(f, p + "RCV_NAME")),
            OrFalse(Get(f, p + "RCV_ACCOUNT")), OrFalse(Get(f, p + "MSG")), Or(Get(f, p + "CUR"), "EUR"),
            targets.0, targets.1, targets.2,
            Display(true, false, true, false, Get(f, p + "RCV_NAME") != "", Get(f, p + "RCV_ACCOUNT") != ""),
            a.sourceHash)
  }

  // ---------------------------------------------------------------------
  // The reply

  /** `if (fields[key]) out[key] = fields[key]` over a list of keys. */
  function Collect(f: Fields, keys: seq<string>): (r: Pairs)
    ensures forall k :: k in keys ==> Lookup(r, k) == (if Get(f, k) != "" then Some(Get(f, k)) else None)
    ensures forall k :: k !in keys ==> Lookup(r, k) == None
  {
    if |keys| == 0 then []
    else
      var last := keys[|keys| - 1];
      var rest := Collect(f, keys[..|keys| - 1]);
      assert forall k :: k in keys && k != last ==> k in keys[..|keys| - 1];
      CopyOver(rest, last, Get(f, last))
  }

  /** The set fields of a key list followed by one more key, if set. */
  function CollectThen(f: Fields, keys: seq<string>, extra: string): (r: Pairs)
    requires extra !in keys
    ensures forall k :: k in keys ==> Lookup(r, k) == (if Get(f, k) != "" then Some(Get(f, k)) else None)
    ensures Lookup(r, extra) == (if Get(f, extra) != "" then Some(Get(f, extra)) else None)
    ensures forall k :: k !in keys && k != extra ==> Lookup(r, k) == None
  {
    CopyOver(Collect(f, keys), extra, Get(f, extra))
  }

  /** `getFields`: the set signature fields, then the signature. Reading the
      table of an unknown version or service throws. */
  function GetFields(a: Adapter): (r: Res<Pairs>)
    ensures r.Ok? <==> SignatureOrder(a.dialect, a.version, a.service).Some?
    ensures r.Ok? ==> forall k :: k in SignatureOrder(a.dialect, a.version, a.service).value ==>
              Lookup(r.value, a.keyPrefix + k)
                == (if Get(a.fields, a.keyPrefix + k) != "" then Some(Get(a.fields, a.keyPrefix + k)) else None)
    ensures r.Ok? ==> Lookup(r.value, a.keyPrefix + "RETURN_MAC")
                        == (if Get(a.fields, a.keyPrefix + "RETURN_MAC") != "" then Some(Get(a.fields, a.keyPrefix + "RETURN_MAC")) else None)
    ensures r.Ok? ==> forall k ::
              (k !in Prefixed(a.keyPrefix, SignatureOrder(a.dialect, a.version, a.service).value) && k != a.keyPrefix + "RETURN_MAC")
              ==> Lookup(r.value, k) == None
  {
    match SignatureOrder(a.dialect, a.version, a.service)
    case None => Err(Threw("signatureOrder[version][service] is undefined"))
    case Some(order) =>
      var keys := Prefixed(a.keyPrefix, order);
      MacFieldsUnsigned(a.dialect, a.version, a.service);
      PrefixedMember(a.keyPrefix, order, "RETURN_MAC");
      forall k | k in order
        ensures a.keyPrefix + k in keys
      {
        PrefixedMember(a.keyPrefix, order, k);
      }
      Ok(CollectThen(a.fields, keys, a.keyPrefix + "RETURN_MAC"))
  }

  /** The merchant recomputing the signing string from the returned fields
      gets the string that was signed. */
  lemma GetFieldsKeepHash(a: Adapter, secret: string)
    requires GetFields(a).Ok?
    ensures CalculateHash(a.(fields := ToMap(GetFields(a).value)), secret) == CalculateHash(a, secret)
  {
    var out := GetFields(a).value;
    var b := a.(fields := ToMap(out));
    var order := SignatureOrder(a.dialect, a.version, a.service).value;
    forall k | k in order
      ensures Get(a.fields, a.keyPrefix + k) == Get(b.fields, a.keyPrefix + k)
    {
      GetToMap(out, a.keyPrefix + k);
    }
    HashReadsOrderedFields(a, b, secret);
  }

  // ---------------------------------------------------------------------
  // The outbound reply

  /** The reply fields `generateForm` sets, in the order it sets them. */
  const ReturnNames: seq<string> :=
    ["RETURN_VERSION", "RETURN_STAMP", "RETURN_REF", "RETURN_PAYER_NAME",
     "RETURN_PAYER_ACCOUNT", "RETURN_TAX_CODE", "RETURN_MSG", "RETURN_PAID"]

  /** `genPaidCode`: PEPM, the date stamp, then the transaction number padded
      to twelve digits, or a random number when the counter is zero. */
  function PaidCode(t: Tools, today: string, n: nat, random: nat): (r: string)
    ensures StartsWith(r, "PEPM" + today)
    ensures n == 0 ==> r == "PEPM" + today + NatToString(random)
    ensures n != 0 && |NatToString(n)| <= 12 ==> r == "PEPM" + today + LPad(t, NatToString(n), 12)
  {
    var tail := if n != 0 then Or(LPad(t, NatToString(n), 12), NatToString(random)) else NatToString(random);
    var r := "PEPM" + today + tail;
    assert r[..|"PEPM" + today|] == "PEPM" + today;
    r
  }

  /** The values of `ReturnNames`: copies of the request's version, stamp,
      reference, tax code and message, the payer from the decision, and the
      paid code for a paid payment. */
  function ReturnValues(f: Fields, prefix: string, state: PaymentState, decision: Decision, paid: string): (r: seq<string>)
    ensures |r| == |ReturnNames|
  {
    [Get(f, prefix + "VERSION"), Get(f, prefix + "STAMP"), Get(f, prefix + "REF"),
     decision.senderName, decision.senderAccount,
     Get(f, prefix + "TAX_CODE"), Get(f, prefix + "MSG"),
     if state == Payed then paid else ""]
  }

  /** Setting the fields of a list one after another. */
  function SetAll(a: Adapter, p: Pairs): (b: Adapter)
    ensures b == a.(pairs := b.pairs, fields := b.fields)
    ensures a.fields == ToMap(a.pairs) ==> b.fields == ToMap(b.pairs)
    ensures UniqueKeys(p) ==> forall k :: Get(b.fields, k) == ValueOr(Lookup(p, k), Get(a.fields, k))
    decreases |p|
  {
    if |p| == 0 then a
    else
      var b := SetAll(SetField(a, p[0].0, p[0].1), p[1..]);
      if UniqueKeys(p) then
        forall k
          ensures Get(b.fields, k) == ValueOr(Lookup(p, k), Get(a.fields, k))
        {
          if k == p[0].0 {
            assert Keys(p[1..]) == Keys(p)[1..];
            LookupSome(p[1..], k);
          }
        }
        b
      else b
  }

  /** Distinct names stay distinct under a common prefix. */
  lemma PrefixedDistinct(prefix: string, names: seq<string>)
    requires forall i, j :: 0 <= i < j < |names| ==> names[i] != names[j]
    ensures forall i, j :: 0 <= i < j < |names| ==> Prefixed(prefix, names)[i] != Prefixed(prefix, names)[j]
  {
    forall i, j | 0 <= i < j < |names|
      ensures Prefixed(prefix, names)[i] != Prefixed(prefix, names)[j]
    {
      PrefixCancels(prefix, names[i], names[j]);
    }
  }

  /** Setting distinct keys to the values at the same positions. */
  function SetEach(a: Adapter, keys: seq<string>, values: seq<string>): (b: Adapter)
    requires |keys| == |values|
    requires forall i, j :: 0 <= i < j < |keys| ==> keys[i] != keys[j]
    ensures b == a.(pairs := b.pairs, fields := b.fields)
    ensures a.fields == ToMap(a.pairs) ==> b.fields == ToMap(b.pairs)
    ensures forall i :: 0 <= i < |keys| ==> Get(b.fields, keys[i]) == values[i]
    ensures forall k :: k !in keys ==> Get(b.fields, k) == Get(a.fields, k)
  {
    var list := Zip(keys, values);
    var b := SetAll(a, list);
    forall i | 0 <= i < |keys|
      ensures Get(b.fields, keys[i]) == values[i]
    {
      LookupUnique(list, i);
    }
    forall k | k !in keys
      ensures Get(b.fields, k) == Get(a.fields, k)
    {
      LookupSome(list, k);
    }
    b
  }

  /** The adapter `generateForm` signs: the request switched to the outbound
      service and prefix, with the reply fields set. */
  function Outbound(a: Adapter, project: Project, state: PaymentState, decision: Decision, paid: string): (o: Adapter)
    ensures && o.dialect == a.dialect && o.service == "PAYMENT-OUT" && o.record == Some(project)
            && o.sourceHash == a.sourceHash && o.version == a.version
            && o.keyPrefix == OutboundPrefix(a.dialect, a.keyPrefix)
    ensures a.fields == ToMap(a.pairs) ==> o.fields == ToMap(o.pairs)
    ensures forall i :: 0 <= i < |ReturnNames| ==>
              Get(o.fields, o.keyPrefix + ReturnNames[i]) == ReturnValues(a.fields, o.keyPrefix, state, decision, paid)[i]
    ensures forall k :: k !in Prefixed(o.keyPrefix, ReturnNames) ==> Get(o.fields, k) == Get(a.fields, k)
  {
    var prefix := OutboundPrefix(a.dialect, a.keyPrefix);
    PrefixedDistinct(prefix, ReturnNames);
    SetEach(a.(service := "PAYMENT-OUT", keyPrefix := prefix, record := Some(project)),
            Prefixed(prefix, ReturnNames), ReturnValues(a.fields, prefix, state, decision, paid))
  }

  /** The reply sets its paid code only for a paid payment. */
  lemma OutboundPaid(a: Adapter, project: Project, state: PaymentState, decision: Decision, paid: string)
    ensures var o := Outbound(a, project, state, decision, paid);
            Get(o.fields, o.keyPrefix + "RETURN_PAID") == (if state == Payed then paid else "")
  {
    assert ReturnNames[7] == "RETURN_PAID";
  }

  /** The stored request, rebuilt by the constructor. */
  function Restored(d: Dialect, bank: Bank, config: Config, payment: Payment): Adapter
  {
    New(d, bank, config, StoredBody(payment.fields), payment.charset)
  }

  /** The notification outcome: a paid payment of a project with automatic
      replies is sent to a non-local target; a local one is refused. */
  function AutoReply(d: Dialect, t: Tools, project: Project, payment: Payment, url: string): (r: AutoResponse)
    ensures r.Sent? <==> payment.state == Payed && AutoResponds(d, project) && !IsLocalHost(t, StateTarget(payment))
    ensures r == LocalhostRefused <==> AutoResponds(d, project) && IsLocalHost(t, StateTarget(payment))
    ensures r.Sent? ==> r == Sent(url, "GET", None)
  {
    var local := IsLocalHost(t, StateTarget(payment));
    if payment.state == Payed && AutoResponds(d, project) && !local then Sent(url, "GET", None)
    else if local && AutoResponds(d, project) then LocalhostRefused
    else NotAttempted
  }

  /** Signing an adapter and then collecting its reply keeps the signing
      string: the recorded hash is the one the merchant recomputes from the
      reply. */
  lemma SignedReplyHash(t: Tools, o: Adapter)
    requires o.record.Some? && o.sourceHash.None? && Sign(t, o).Ok?
    ensures GetFields(Sign(t, o).value).Ok?
    ensures var signed := Sign(t, o).value;
            && signed.sourceHash.Some?
            && signed.sourceHash == CalculateHash(o.(fields := ToMap(GetFields(signed).value)), o.record.value.secret)
  {
    var p := o.record.value;
    var signed := Sign(t, o).value;
    assert CalculateHash(o, p.secret).Some?;
    var order := SignatureOrder(o.dialect, o.version, o.service).value;
    MacFieldsUnsigned(o.dialect, o.version, o.service);
    forall k | k in order
      ensures Get(o.fields, o.keyPrefix + k) == Get(signed.fields, o.keyPrefix + k)
    {
      PrefixCancels(o.keyPrefix, k, "RETURN_MAC");
    }
    HashReadsOrderedFields(o, signed, p.secret);
    GetFieldsKeepHash(signed, p.secret);
    var out := ToMap(GetFields(signed).value);
    HashReadsOrderedFields(signed.(fields := out), o.(fields := out), p.secret);
  }

  /** A field other than the signature, read from the signed adapter's reply:
      present exactly when it is a set signature field. */
  lemma SignedReplyField(t: Tools, o: Adapter, name: string)
    requires o.record.Some? && Sign(t, o).Ok? && name != "RETURN_MAC"
    requires SignatureOrder(o.dialect, o.version, o.service).Some?
    ensures GetFields(Sign(t, o).value).Ok?
    ensures var v := Get(o.fields, o.keyPrefix + name);
            Lookup(GetFields(Sign(t, o).value).value, o.keyPrefix + name)
              == (if name in SignatureOrder(o.dialect, o.version, o.service).value && v != "" then Some(v) else None)
  {
    var signed := Sign(t, o).value;
    var key := o.keyPrefix + name;
    var order := SignatureOrder(o.dialect, o.version, o.service).value;
    assert signed.dialect == o.dialect && signed.version == o.version && signed.service == o.service
      && signed.keyPrefix == o.keyPrefix;
    PrefixCancels(o.keyPrefix, name, "RETURN_MAC");
    assert Get(signed.fields, key) == Get(o.fields, key);
    PrefixedMember(o.keyPrefix, order, name);
    var out := GetFields(signed).value;
    if name in order {
      assert Lookup(out, key) == (if Get(signed.fields, key) != "" then Some(Get(signed.fields, key)) else None);
    } else {
      assert Lookup(out, key) == None;
    }
  }

  /** A key of a reply to `o` other than the signature: present, with the
      adapter's value, exactly when it is a set signature field. */
  predicate ReplyKey(o: Adapter, reply: Pairs, k: string)
    requires SignatureOrder(o.dialect, o.version, o.service).Some?
  {
    Lookup(reply, k)
      == (if k in Prefixed(o.keyPrefix, SignatureOrder(o.dialect, o.version, o.service).value) && Get(o.fields, k) != ""
          then Some(Get(o.fields, k)) else None)
  }

  /** `reply` is what `getFields` makes of `o`, apart from the signature. */
  ghost predicate ReplyOf(o: Adapter, reply: Pairs)
  {
    SignatureOrder(o.dialect, o.version, o.service).Some?
    && forall k :: k != o.keyPrefix + "RETURN_MAC" ==> ReplyKey(o, reply, k)
  }

  /** Any key of the signed adapter's reply other than the signature:
      present exactly when it is a set signature field. */
  lemma SignedReplyKey(t: Tools, o: Adapter, k: string)
    requires o.record.Some? && Sign(t, o).Ok? && k != o.keyPrefix + "RETURN_MAC"
    requires SignatureOrder(o.dialect, o.version, o.service).Some?
    ensures GetFields(Sign(t, o).value).Ok?
    ensures Lookup(GetFields(Sign(t, o).value).value, k)
              == (if k in Prefixed(o.keyPrefix, SignatureOrder(o.dialect, o.version, o.service).value) && Get(o.fields, k) != ""
                  then Some(Get(o.fields, k)) else None)
  {
    var signed := Sign(t, o).value;
    var order := SignatureOrder(o.dialect, o.version, o.service).value;
    assert signed.dialect == o.dialect && signed.version == o.version && signed.service == o.service
      && signed.keyPrefix == o.keyPrefix;
    assert Get(signed.fields, k) == Get(o.fields, k);
    var out := GetFields(signed).value;
    if k in Prefixed(o.keyPrefix, order) {
      var i :| 0 <= i < |order| && Prefixed(o.keyPrefix, order)[i] == k;
      assert order[i] in order;
      assert Lookup(out, o.keyPrefix + order[i]) == (if Get(signed.fields, k) != "" then Some(Get(signed.fields, k)) else None);
    } else {
      assert Lookup(out, k) == None;
    }
  }

  /** Signing a prepared reply adapter and turning it into the redirect. */
  function SignedReply(d: Dialect, t: Tools, project: Project, payment: Payment, o: Adapter): (r: Res<Form>)
    requires o.record == Some(project) && o.sourceHash.None?
    ensures r.Ok? <==> ExpectedMac(t, o, project).Some?
    ensures r.Ok? ==> && r.value.httpMethod == "GET" && r.value.payload.Some?
                      && r.value.payload.value == t.stringifyQuery(r.value.responseFields, payment.charset)
                      && r.value.url == AppendQuery(StateTarget(payment), r.value.payload.value)
                      && r.value.autoResponse == AutoReply(d, t, project, payment, r.value.url)
    ensures r.Ok? ==> r.value.responseHash.Some?
                      && r.value.responseHash == CalculateHash(o.(fields := ToMap(r.value.responseFields)), project.secret)
    ensures r.Ok? ==> ReplyOf(o, r.value.responseFields)
    ensures r.Ok? ==> var v := Get(o.fields, o.keyPrefix + "RETURN_PAID");
                      Lookup(r.value.responseFields, o.keyPrefix + "RETURN_PAID")
                        == (if "RETURN_PAID" in SignatureOrder(o.dialect, o.version, o.service).value && v != ""
                            then Some(v) else None)
  {
    match Sign(t, o)
    case Err(e) => Err(e)
    case Ok(signed) =>
      SignedReplyHash(t, o);
      assert CalculateHash(o, project.secret).Some?;
      SignedReplyField(t, o, "RETURN_PAID");
      forall k | k != o.keyPrefix + "RETURN_MAC"
        ensures ReplyKey(o, GetFields(signed).value, k)
      {
        SignedReplyKey(t, o, k);
      }
      var fields := GetFields(signed).value;
      var payload := t.stringifyQuery(fields, payment.charset);
      var url := AppendQuery(StateTarget(payment), payload);
      Ok(Form("GET", url, Some(payload), fields, signed.sourceHash, AutoReply(d, t, project, payment, url)))
  }

  /** Every Solo reply signs its paid code. */
  lemma SoloSignsPaidCode(version: string)
    ensures SignatureOrder(SoloDialect, version, "PAYMENT-OUT").Some? ==>
              "RETURN_PAID" in SignatureOrder(SoloDialect, version, "PAYMENT-OUT").value
  {
  }

  /** `generateForm`: rebuild the request, set the reply fields, sign, send
      the browser back with GET and the reply in the query, and notify the
      merchant server-to-server when that is switched on. */
  function GenerateForm(d: Dialect, t: Tools, config: Config, bank: Bank, project: Project, payment: Payment,
                        decision: Decision, counter: Option<nat>, today: string, random: nat): (r: Res<Form>)
    ensures counter.None? ==> r == Err(CounterFailed)
    ensures r.Ok? ==> && r.value.httpMethod == "GET" && r.value.payload.Some?
                      && r.value.payload.value == t.stringifyQuery(r.value.responseFields, payment.charset)
                      && r.value.url == AppendQuery(StateTarget(payment), r.value.payload.value)
    ensures r.Ok? ==> (r.value.autoResponse.Sent? <==>
                         payment.state == Payed && AutoResponds(d, project) && !IsLocalHost(t, StateTarget(payment)))
    ensures r.Ok? ==> (r.value.autoResponse == LocalhostRefused <==>
                         AutoResponds(d, project) && IsLocalHost(t, StateTarget(payment)))
    ensures counter.Some? ==>
              var o := Outbound(Restored(d, bank, config, payment), project, payment.state, decision,
                                PaidCode(t, today, counter.value, random));
              && (r.Ok? <==> ExpectedMac(t, o, project).Some?)
              && (r.Ok? ==> r.value.responseHash.Some?
                            && r.value.responseHash == CalculateHash(o.(fields := ToMap(r.value.responseFields)), project.secret))
              && (r.Ok? ==> ReplyOf(o, r.value.responseFields))
              && (r.Ok? && payment.state != Payed ==> Lookup(r.value.responseFields, o.keyPrefix + "RETURN_PAID") == None)
              && (r.Ok? && payment.state == Payed && d == SoloDialect ==>
                    Lookup(r.value.responseFields, o.keyPrefix + "RETURN_PAID") == Some(PaidCode(t, today, counter.value, random)))
  {
    match counter
    case None => Err(CounterFailed)
    case Some(n) =>
      var code := PaidCode(t, today, n, random);
      var o := Outbound(Restored(d, bank, config, payment), project, payment.state, decision, code);
      OutboundPaid(Restored(d, bank, config, payment), project, payment.state, decision, code);
      SoloSignsPaidCode(o.version);
      assert code != "" by { assert code[..|"PEPM" + today|] == "PEPM" + today; }
      SignedReply(d, t, project, payment, o)
  }
}

=== FILE: text.dfy ===
/** The JavaScript string operations the bank-link adapters rely on, restated
    over `seq<char>`. One `char` is one Unicode code point; JavaScript's
    `.length` counts UTF-16 code units, which `Utf16Length` computes.
    `toUpperCase`/`toLowerCase` are modelled by the ASCII mappings only. */
module Text {

  datatype Option<+T> = None | Some(value: T)

  predicate IsDigit(c: char) { '0' <= c <= '9' }

  predicate AllDigits(s: string) { forall i :: 0 <= i < |s| ==> IsDigit(s[i]) }

  /** The regular expression `^\d+$`. */
  predicate IsNumeral(s: string) { |s| > 0 && AllDigits(s) }

  predicate IsUpperHexDigit(c: char) { IsDigit(c) || 'A' <= c <= 'F' }

  predicate IsHexDigit(c: char) { IsUpperHexDigit(c) || 'a' <= c <= 'f' }

  predicate IsAsciiLetter(c: char) { 'a' <= c <= 'z' || 'A' <= c <= 'Z' }

  predicate IsAscii(c: char) { c as int < 0x80 }

  function UpperChar(c: char): char
  {
    if 'a' <= c <= 'z' then (c as int - 32) as char else c
  }

  function LowerChar(c: char): char
  {
    if 'A' <= c <= 'Z' then (c as int + 32) as char else c
  }

  /** `String.prototype.toUpperCase` on the ASCII letters. */
  function Upper(s: string): (r: string)
    ensures |r| == |s|
    ensures forall i :: 0 <= i < |s| ==> r[i] == UpperChar(s[i])
  {
    if |s| == 0 then [] else [UpperChar(s[0])] + Upper(s[1..])
  }

  /** `String.prototype.toLowerCase` on the ASCII letters. */
  function Lower(s: string): (r: string)
    ensures |r| == |s|
    ensures forall i :: 0 <= i < |s| ==> r[i] == LowerChar(s[i])
  {
    if |s| == 0 then [] else [LowerChar(s[0])] + Lower(s[1..])
  }

  predicate IsLower(s: string) { forall i :: 0 <= i < |s| ==> LowerChar(s[i]) == s[i] }

  lemma LowerIsLower(s: string)
    ensures IsLower(Lower(s))
    ensures IsLower(s) ==> Lower(s) == s
  {
  }

  /** The characters `String.prototype.trim` removes: ECMAScript WhiteSpace
      and LineTerminator. */
  predicate IsSpace(c: char)
  {
    || c == ' ' || c == '\t' || c == '\n' || c == '\r'
    || c == '\U{000B}' || c == '\U{000C}' || c == '\U{00A0}' || c == '\U{FEFF}'
    || c == '\U{1680}' || ('\U{2000}' <= c <= '\U{200A}')
    || c == '\U{2028}' || c == '\U{2029}' || c == '\U{202F}' || c == '\U{205F}'
    || c == '\U{3000}'
  }

  predicate IsTrimmed(s: string)
  {
    |s| == 0 || (!IsSpace(s[0]) && !IsSpace(s[|s| - 1]))
  }

  function TrimStart(s: string): (r: string)
    ensures |r| <= |s|
    ensures |r| == 0 || !IsSpace(r[0])
  {
    if |s| > 0 && IsSpace(s[0]) then TrimStart(s[1..]) else s
  }

  function TrimEnd(s: string): (r: string)
    ensures |r| <= |s|
    ensures |r| == 0 || !IsSpace(r[|r| - 1])
    ensures |r| > 0 ==> r[0] == s[0]
  {
    if |s| > 0 && IsSpace(s[|s| - 1]) then TrimEnd(s[..|s| - 1]) else s
  }

  /** Trimming the start drops a prefix made of white space. */
  lemma {:induction false} TrimStartSpec(s: string)
    ensures TrimStart(s) == s[|s| - |TrimStart(s)|..]
    ensures forall i :: 0 <= i < |s| - |TrimStart(s)| ==> IsSpace(s[i])
  {
    if |s| > 0 && IsSpace(s[0]) {
      TrimStartSpec(s[1..]);
    }
  }

  /** Trimming the end drops a suffix made of white space. */
  lemma {:induction false} TrimEndSpec(s: string)
    ensures TrimEnd(s) == s[..|TrimEnd(s)|]
    ensures forall i :: |TrimEnd(s)| <= i < |s| ==> IsSpace(s[i])
  {
    if |s| > 0 && IsSpace(s[|s| - 1]) {
      TrimEndSpec(s[..|s| - 1]);
    }
  }

  /** `String.prototype.trim`. */
  function Trim(s: string): (r: string)
    ensures IsTrimmed(r) && |r| <= |s|
  {
    TrimEnd(TrimStart(s))
  }

  /** The trimmed string is a slice of the input, and everything cut off on
      either side is white space. */
  lemma {:induction false} TrimSlice(s: string)
    ensures var i := |s| - |TrimStart(s)|;
            var r := Trim(s);
              && i + |r| <= |s| && r == s[i..i + |r|]
              && (forall k :: 0 <= k < i ==> IsSpace(s[k]))
              && (forall k :: i + |r| <= k < |s| ==> IsSpace(s[k]))
  {
    TrimSliceRange(s);
    TrimStartSpec(s);
    TrimTailSpaces(s);
  }

  lemma {:induction false} TrimSliceRange(s: string)
    ensures var i := |s| - |TrimStart(s)|;
            var r := Trim(s);
            i + |r| <= |s| && r == s[i..i + |r|]
  {
    var a := TrimStart(s);
    var r := TrimEnd(a);
    var i := |s| - |a|;
    TrimStartSpec(s);
    TrimEndSpec(a);
    assert a == s[i..] && r == a[..|r|];
    PrefixOfSuffix(s, i, |r|);
  }

  lemma {:induction false} TrimTailSpaces(s: string)
    ensures var i := |s| - |TrimStart(s)|;
            forall k :: i + |Trim(s)| <= k < |s| ==> IsSpace(s[k])
  {
    var a := TrimStart(s);
    var i := |s| - |a|;
    TrimStartSpec(s);
    TrimEndSpec(a);
    forall k | i + |Trim(s)| <= k < |s|
      ensures IsSpace(s[k])
    {
      assert s[k] == a[k - i];
    }
  }

  lemma PrefixOfSuffix<T>(s: seq<T>, i: nat, n: nat)
    requires i + n <= |s|
    ensures s[i..][..n] == s[i..i + n]
  {
  }

  lemma {:induction false} TrimStartOfTrimmed(s: string)
    requires |s| == 0 || !IsSpace(s[0])
    ensures TrimStart(s) == s
  {
  }

  lemma {:induction false} TrimEndOfTrimmed(s: string)
    requires |s| == 0 || !IsSpace(s[|s| - 1])
    ensures TrimEnd(s) == s
  {
  }

  /** Trimming a trimmed string changes nothing, so `trim` is idempotent. */
  lemma {:induction false} TrimOfTrimmed(s: string)
    requires IsTrimmed(s)
    ensures Trim(s) == s
  {
    TrimStartOfTrimmed(s);
    TrimEndOfTrimmed(s);
  }

  lemma TrimIdempotent(s: string)
    ensures Trim(Trim(s)) == Trim(s)
  {
    TrimOfTrimmed(Trim(s));
  }

  function Repeat(c: char, n: nat): (r: string)
    ensures |r| == n && forall i :: 0 <= i < n ==> r[i] == c
  {
    if n == 0 then [] else [c] + Repeat(c, n - 1)
  }

  /** `Array.prototype.join`. */
  function Join(parts: seq<string>, sep: string): string
  {
    if |parts| == 0 then ""
    else if |parts| == 1 then parts[0]
    else parts[0] + sep + Join(parts[1..], sep)
  }

  function IndexOf(s: string, c: char): (i: nat)
    requires c in s
    ensures i < |s| && s[i] == c && c !in s[..i]
  {
    if s[0] == c then 0 else 1 + IndexOf(s[1..], c)
  }

  /** `String.prototype.split` with a one-character separator. */
  function Split(s: string, c: char): (r: seq<string>)
    ensures |r| >= 1
    ensures forall k :: 0 <= k < |r| ==> c !in r[k]
    decreases |s|
  {
    if c !in s then [s]
    else
      var i := IndexOf(s, c);
      [s[..i]] + Split(s[i + 1..], c)
  }

  /** Splitting and joining with the same separator gives the input back. */
  lemma {:induction false} JoinSplit(s: string, c: char)
    ensures Join(Split(s, c), [c]) == s
    decreases |s|
  {
    if c in s {
      var i := IndexOf(s, c);
      var a, b := s[..i], s[i + 1..];
      var parts := Split(b, c);
      JoinSplit(b, c);
      assert Split(s, c) == [a] + parts;
      assert ([a] + parts)[1..] == parts;
      assert Join([a] + parts, [c]) == a + [c] + Join(parts, [c]);
      assert s == a + [c] + b;
    }
  }

  /** Joining parts that do not contain the separator and splitting again
      gives the parts back. */
  lemma {:induction false} SplitJoin(parts: seq<string>, c: char)
    requires |parts| >= 1 && forall k :: 0 <= k < |parts| ==> c !in parts[k]
    ensures Split(Join(parts, [c]), c) == parts
    decreases |parts|
  {
    if |parts| > 1 {
      var a := parts[0];
      var rest := Join(parts[1..], [c]);
      var s := a + [c] + rest;
      assert Join(parts, [c]) == s;
      IndexOfFirst(a, c, rest);
      assert s[..|a|] == a && s[|a| + 1..] == rest;
      SplitJoin(parts[1..], c);
      assert parts == [a] + parts[1..];
    }
  }

  /** The first separator of `a + [c] + b` is the one after `a` when `a`
      holds none. */
  lemma {:induction false} IndexOfFirst(a: string, c: char, b: string)
    requires c !in a
    ensures c in a + [c] + b && IndexOf(a + [c] + b, c) == |a|
  {
    assert (a + [c] + b)[|a|] == c;
    if |a| > 0 {
      assert (a + [c] + b)[1..] == a[1..] + [c] + b;
      IndexOfFirst(a[1..], c, b);
    }
  }

  /** The number of bytes of the UTF-8 encoding of one code point. */
  function Utf8Width(c: char): nat
  {
    if c as int < 0x80 then 1
    else if c as int < 0x800 then 2
    else if c as int < 0x10000 then 3
    else 4
  }

  /** `Buffer.byteLength(s, "utf-8")`. */
  function Utf8Length(s: string): nat
  {
    if |s| == 0 then 0 else Utf8Width(s[0]) + Utf8Length(s[1..])
  }

  /** A UTF-8 encoding is never shorter than the string, and is exactly as long
      precisely when every character is ASCII. */
  lemma {:induction false} Utf8LengthBounds(s: string)
    ensures |s| <= Utf8Length(s) <= 4 * |s|
    ensures Utf8Length(s) == |s| <==> forall i :: 0 <= i < |s| ==> IsAscii(s[i])
  {
    if |s| > 0 {
      Utf8LengthBounds(s[1..]);
      assert forall i :: 1 <= i < |s| ==> s[i] == s[1..][i - 1];
    }
  }

  /** The number of UTF-16 code units of one code point: a character outside
      the Basic Multilingual Plane is a surrogate pair. */
  function Utf16Width(c: char): nat
  {
    if c as int < 0x10000 then 1 else 2
  }

  /** `String.prototype.length`. */
  function Utf16Length(s: string): nat
  {
    if |s| == 0 then 0 else Utf16Width(s[0]) + Utf16Length(s[1..])
  }

  /** A string is never shorter in UTF-16 code units than in characters, and
      is exactly as long precisely when no character needs a surrogate
      pair. */
  lemma {:induction false} Utf16LengthBounds(s: string)
    ensures |s| <= Utf16Length(s) <= 2 * |s|
    ensures Utf16Length(s) == |s| <==> forall i :: 0 <= i < |s| ==> s[i] as int < 0x10000
  {
    if |s| > 0 {
      Utf16LengthBounds(s[1..]);
      assert forall i :: 1 <= i < |s| ==> s[i] == s[1..][i - 1];
    }
  }

  function DigitChar(d: nat): (c: char)
    requires d < 10
    ensures IsDigit(c)
  {
    ('0' as int + d) as char
  }

  function DigitValue(c: char): nat
    requires IsDigit(c)
  {
    c as int - '0' as int
  }

  /** The value of a decimal numeral (`Number(s)` on a digit string). */
  function DecimalValue(s: string): nat
    requires AllDigits(s)
  {
    if |s| == 0 then 0 else 10 * DecimalValue(s[..|s| - 1]) + DigitValue(s[|s| - 1])
  }

  /** A numeral as `Number.prototype.toString` writes it: no leading zero. */
  predicate IsCanonicalNumeral(s: string)
  {
    IsNumeral(s) && (s[0] == '0' ==> |s| == 1)
  }

  /** `String(n)` for a non-negative integer. */
  function NatToString(n: nat): (r: string)
    ensures IsCanonicalNumeral(r)
    decreases n
  {
    if n < 10 then [DigitChar(n)] else NatToString(n / 10) + [DigitChar(n % 10)]
  }

  /** Writing a number and reading it back gives the number. */
  lemma {:induction false} DecimalOfNatToString(n: nat)
    ensures DecimalValue(NatToString(n)) == n
    decreases n
  {
    if n >= 10 {
      DecimalOfNatToString(n / 10);
      var s := NatToString(n);
      assert s[..|s| - 1] == NatToString(n / 10);
    }
  }

  /** Reading a canonical numeral and writing it back gives the numeral. */
  lemma {:induction false} NatToStringOfDecimal(s: string)
    requires IsCanonicalNumeral(s)
    ensures NatToString(DecimalValue(s)) == s
    decreases |s|
  {
    if |s| > 1 {
      var p := s[..|s| - 1];
      assert p[0] == s[0];
      NatToStringOfDecimal(p);
      LeadingDigitBound(s);
      var d := DigitValue(s[|s| - 1]);
      assert DecimalValue(s) == 10 * DecimalValue(p) + d;
      assert DecimalValue(s) / 10 == DecimalValue(p);
      assert DecimalValue(s) % 10 == d;
      assert s == p + [s[|s| - 1]];
    }
  }

  lemma {:induction false} LeadingDigitBound(s: string)
    requires IsCanonicalNumeral(s) && |s| > 1
    ensures DecimalValue(s) >= 10
    decreases |s|
  {
    var p := s[..|s| - 1];
    assert p[0] == s[0];
    if |p| > 1 {
      LeadingDigitBound(p);
    } else {
      assert DecimalValue(p) == DigitValue(p[0]) >= 1;
    }
  }

  /** A number below 1000 is written with at most three digits. */
  lemma NatToStringBelow1000(n: nat)
    requires n < 1000
    ensures |NatToString(n)| <= 3
  {
    if n >= 10 {
      assert NatToString(n) == NatToString(n / 10) + [DigitChar(n % 10)];
      if n / 10 >= 10 {
        assert NatToString(n / 10) == NatToString(n / 100) + [DigitChar(n / 10 % 10)];
      }
    }
  }

  /** Leading zeros do not change the value of a numeral. */
  lemma {:induction false} DecimalLeadingZeros(k: nat, s: string)
    requires AllDigits(s)
    ensures AllDigits(Repeat('0', k) + s)
    ensures DecimalValue(Repeat('0', k) + s) == DecimalValue(s)
    decreases |s|
  {
    var z := Repeat('0', k) + s;
    if |s| == 0 {
      assert z == Repeat('0', k);
      ZerosValue(k);
    } else {
      DecimalLeadingZeros(k, s[..|s| - 1]);
      assert z[..|z| - 1] == Repeat('0', k) + s[..|s| - 1];
    }
  }

  lemma {:induction false} ZerosValue(k: nat)
    ensures DecimalValue(Repeat('0', k)) == 0
  {
    if k > 0 {
      ZerosValue(k - 1);
      var z := Repeat('0', k);
      assert z[..k - 1] == Repeat('0', k - 1);
    }
  }

  predicate StartsWith(s: string, prefix: string)
  {
    |prefix| <= |s| && s[..|prefix|] == prefix
  }

  predicate EndsWith(s: string, suffix: string)
  {
    |suffix| <= |s| && s[|s| - |suffix|..] == suffix
  }
}
